=== FILE: README.md ===
# Smart Roadster kiosk: the layered mascot and the console, in Dafny

This project models the parts of the Smart Roadster kiosk that make decisions and proves
properties of them. The kiosk shows a mascot built from layered artwork on a car dashboard.

- **Extractor** (`kiosk-factory/layer_extractor.py`). It walks the layered artwork and builds
  the layer store: an identifier, a fragment path and a record per pixel layer, plus the radio
  groups and the composition order. It also extracts each layer's image with a chain of three
  strategies. The third one hides every layer, shows the target and restores the saved flags.
- **Compositor** (`kiosk-backyard/zundamon_compositor.py`). At start-up it reads the store. For
  each request it fills in default parameters and resolves them to layer identifiers through
  the fuzzy matcher. It then paints the layers in composition order with a cached image per
  layer and alpha "over" blending, and flattens the result onto white for JPEG. It also lists
  the options a client may send.
- **Analyser** (`kiosk-backyard/psd_analyzer.py`). It produces a structure report of the
  artwork, the radio groups found in it, and the parameter listing derived from them.
- **Front end**:
  - `kiosk/src/hooks/useZundamonExpression.ts` picks the mascot's expression and image request
    from the engine speed.
  - `kiosk/src/components/ZundamonDisplay.tsx` chooses the most important alert for the speech
    bubble.
  - `kiosk/src/pages/ConsoleMode.tsx` sets the coolant and battery levels and builds the alert
    list.
  - `kiosk/src/components/ConsoleCard.tsx` styles the cards and the gauges.
- **Weather checker** (`sensors/weather_checker.py`). Its driving recommendation is modelled.

## Modelling choices

**Artwork, store and images**
- The layered artwork is a forest of `Group`, `Pixel` and `Other` nodes (`LayerTree`). The
  layer store is a record of Python-style insertion-ordered dictionaries (`Dicts.Dict`: a map
  plus its key order, where overwriting keeps a key's position).
- Recursive walks are modelled as written and then proved equal to folds over the depth-first
  list of pixel layers (`VisitNodeIsFold`, `FindRadioIsFold`).
- The imaging library (psd-tools, Pillow) is not modelled. Where the code asks it something,
  its answer is a function parameter: `Extraction.Library`, the fragment files `Compositor.Disk`,
  and the query-string encoder of `RpmExpression.UseExpression`.
- Pixel values are reals in [0, 1]. The compositor's blend is the exact formula of
  `_alpha_composite_numpy`.

**Numbers and strings**
- JavaScript numbers and Python floats are reals. Python's `//` on the canvas margins is
  Dafny's `/` with divisor 2, which also rounds towards minus infinity.
- Strings are sequences of characters. `lower()` is ASCII lower-casing, which is all the
  compositor's inputs need.

**Where the repository's description and its code differ, the model follows the code**
- The compositor does not refuse requests when the store could not be read. It composes over
  empty metadata on the default 1082×1594 canvas (`Compositor.Start`).
- The extractor records a bounding box whenever the library returns one, even one of zero
  extent (`LayerExtractor.BBoxInfoOf`).
- Extraction strategy 3 leaves the target layer visible: the target is excluded from the
  saved states, so the restore never hides it again (`Extraction.HideAndCropRestores`, and for
  the extraction as a whole `Extraction.ExtractFallsBackToCrop`).
- The compositor does not draw a layer whose visible part is one pixel row tall and at least two
  columns wide. The blend squeezes its alpha mask to a flat vector that no longer fits the
  region, the indexing raises, and `_composite_layer` reports failure with the canvas untouched
  (`Canvas.SqueezeRaises`, `Canvas.OneRowLayerRaises`, `Compositor.CompositeLayer`).

## Model

| member | source | states |
|---|---|---|
| LayerExtractor.CleanNameCharacters | kiosk-factory/layer_extractor.py:144-158 | An identifier is lower-case and has no spaces, whatever the layer and group names. |
| LayerExtractor.CleanNameAffixes | kiosk-factory/layer_extractor.py:144-158 | An identifier ends with the lowered body, which is the marker-stripped name normalised character by character (see `BodyNormalises`). It starts with the group's directory name and `_` exactly when the prefix test fires, which never happens at top level, and its length is the body's plus the prefix's. |
| LayerExtractor.BodyNormalises | kiosk-factory/layer_extractor.py:146-152 | After the leading `*`/`!` run is stripped, each space, middle dot and ideographic comma becomes `_`, each bracket and ideographic full stop is dropped, and every other character is kept, in order. |
| LayerExtractor.BodyKeepsLaterMarker | kiosk-factory/layer_extractor.py:146-152 | Only the leading marker run is stripped, before the brackets go: `*(*a` has the body `*a`. |
| LayerExtractor.BodyCharacters | kiosk-factory/layer_extractor.py:146-150 | No bracket, space, middle dot, ideographic comma or full stop survives into a body. |
| LayerExtractor.CapitalisedLayerIsPrefixed | kiosk-factory/layer_extractor.py:154-156 | The prefix test compares the un-lowered body with the lowered group name: layer `Eye` in group `Eye` becomes `eye_eye`. |
| LayerExtractor.LowerCaseLayerIsNotPrefixed | kiosk-factory/layer_extractor.py:154-158 | Layer `eye` in group `Eye` keeps the bare identifier `eye`. |
| LayerExtractor.FilePathSpec | kiosk-factory/layer_extractor.py:160-166 | A fragment lives at `base/<id>.png` at top level and at `<group dir>/<id>.png` otherwise, so every path ends in `.png`. |
| LayerExtractor.VisitNodeIsFold | kiosk-factory/layer_extractor.py:73-132 | The recursive walk records exactly the pixel layers of the subtree, in depth-first pre-order, each under its enclosing group's stripped name. |
| LayerExtractor.AnalyzeDescribes | kiosk-factory/layer_extractor.py:65-139 | The analysis result is described independently of the walk: order, keys, entries (the last layer with an identifier wins) and radio groups. |
| LayerExtractor.AnalyzeOrder | kiosk-factory/layer_extractor.py:83-136 | The composition order is the identifiers of all pixel layers in depth-first pre-order, one per layer; groups and other layers add nothing. |
| LayerExtractor.AnalyzeReferential | kiosk-factory/layer_extractor.py:122-139 | The keys of `layers` are exactly the names in the composition order, and every radio-group member is a key of `layers`. |
| LayerExtractor.AnalyzeEntry | kiosk-factory/layer_extractor.py:91-130 | Each entry is the record of the last layer with that identifier: `z_index` is its walk position, `required` iff the name starts with `!`, `radio_group` is the enclosing group iff the name starts with `*`, and the file path is derived from identifier and group. |
| LayerExtractor.AnalyzeRadioGroups | kiosk-factory/layer_extractor.py:122-128 | `radio_groups` has a key for exactly the groups holding a `*` layer and lists their identifiers in walk order. |
| LayerExtractor.DryRunCounts | kiosk-factory/layer_extractor.py:319-330 | A dry run reports the number of distinct identifiers among the pixel layers (at most their number, and all of them when none collide) and the number of groups holding radio layers. |
| Visibility.RecordSpec | kiosk-factory/layer_extractor.py:172-192 | The saved states are exactly the prior flags of every group and of every pixel layer except the excluded one. |
| Visibility.HideAllSpec | kiosk-factory/layer_extractor.py:168-197 | Afterwards every recorded node is invisible and every other node keeps its flag. |
| Visibility.RestoreUndoes | kiosk-factory/layer_extractor.py:199-218 | Writing the saved states back undoes any writes confined to recorded nodes. |
| Visibility.HideRestore | kiosk-factory/layer_extractor.py:168-218 | Hiding all and then restoring, with nothing in between, gives back the original tree. |
| Extraction.ProcessLayerImageSpec | kiosk-factory/layer_extractor.py:293-312 | A processed image is RGBA and keeps its size; it is refused exactly when it is fully transparent. |
| Extraction.ExtractLayerImageOrder | kiosk-factory/layer_extractor.py:220-287 | The layer's own composite, then `topil`, then the document crop are tried in order; the first usable answer wins. When neither of the first two is usable, the result is exactly what the document crop yields, image and tree. Any result is RGBA with some opaque pixel, and the first two strategies leave the tree untouched. |
| Extraction.ExtractFallsBackToCrop | kiosk-factory/layer_extractor.py:249-284 | When neither the composite nor `topil` is usable, the crop's image is the answer (strategy 3 is named iff it gave one), and the tree comes back as before except that the target layer is now visible. |
| Extraction.HideAndCropNeedsBox | kiosk-factory/layer_extractor.py:273-281 | Without a box of positive width and height, strategy 3 yields nothing. |
| Extraction.ShownForCropSpec | kiosk-factory/layer_extractor.py:255-270 | Strategy 3 renders with every group but the direct parent and every pixel layer but the target hidden, those two shown, and other layers unchanged. |
| Extraction.HideAndCropRestores | kiosk-factory/layer_extractor.py:251-284 | After strategy 3 the tree is as before, except that the target layer is now visible. |
| Extraction.ExtractStepCounts | kiosk-factory/layer_extractor.py:357-380 | One layer with an entry adds exactly one to extracted plus failed. Afterwards there is still one write per extracted layer, each to a path the store names. |
| Extraction.ExtractAllCounts | kiosk-factory/layer_extractor.py:314-400 | In a full run, extracted plus failed equals the number of pixel layers. There is one write per extracted layer, each to a path the store names and each holding an image with some opaque pixel; layers sharing an identifier share the path, so a later write replaces an earlier one. |
| Extraction.ExtractAllDryRun | kiosk-factory/layer_extractor.py:314-338 | The outcome is the load failure iff the document could not be read. A dry run of a readable document returns the preview of its analysis and nothing else. |
| Compositor.StartOnExtracted | kiosk-backyard/zundamon_compositor.py:21-59 | Started on the store the extractor wrote for an artwork, the compositor's canvas is that artwork's size, its metadata is the extractor's, and its empty cache agrees with any fragment files. |
| Compositor.GetLayerImage | kiosk-backyard/zundamon_compositor.py:61-93 | A cached image is returned with no change; a miss that finds no entry or file changes nothing; a successful read is added to the cache. Metadata and canvas never change. |
| Compositor.GetLayerImageCoherent | kiosk-backyard/zundamon_compositor.py:61-93 | With a coherent cache, a lookup returns exactly what a fresh read from disk returns, and the cache stays coherent. |
| Compositor.ClearCache | kiosk-backyard/zundamon_compositor.py:95-98 | The cache becomes empty, which is coherent with any disk, and nothing else changes. |
| Compositor.PlacementInside | kiosk-backyard/zundamon_compositor.py:357-367 | A layer whose recorded box lies in the canvas and matches the image's size, or an unboxed layer no larger than the canvas, lands entirely inside the canvas, uncut. Its blend then raises exactly when the image is one pixel tall and at least two wide. |
| Compositor.PlacementCentres | kiosk-backyard/zundamon_compositor.py:363-367 | Without a box, the margins on either side differ by at most one pixel, with the extra pixel on the right and at the bottom. |
| Compositor.CompositeLayer | kiosk-backyard/zundamon_compositor.py:350-385 | It reports success iff the layer has an image whose blend does not raise, that is, unless its clipped window is one row tall and at least two wide. On failure the canvas is unchanged; on success it is the image blended in at its placement. The cache stays coherent. |
| Compositor.PaintAllIsFresh | kiosk-backyard/zundamon_compositor.py:250-261 | Painting through the cache gives the same picture as reading every image afresh from disk. |
| Compositor.PaintFreshNormalised | kiosk-backyard/zundamon_compositor.py:250-261 | Painting normalised fragments onto a normalised canvas keeps every pixel normalised. |
| Compositor.ComposeSpec | kiosk-backyard/zundamon_compositor.py:216-270 | While the cache agrees with the files, the picture depends only on store, files and request. It is the paint sequence drawn from disk onto a clear canvas, flattened on white for JPEG, and it is normalised when the fragments are. A name is painted iff it resolved, or it is `base_body` when nothing resolved. |
| Canvas.OverNormalised | kiosk-backyard/zundamon_compositor.py:326-338 | Blending normalised pixels gives a normalised pixel. |
| Canvas.OverAlphaGrows | kiosk-backyard/zundamon_compositor.py:328 | The blended alpha is at least each input's alpha. |
| Canvas.OverOpaque | kiosk-backyard/zundamon_compositor.py:326-338 | An opaque source pixel replaces what is beneath it. |
| Canvas.OverTransparent | kiosk-backyard/zundamon_compositor.py:326-338 | A fully transparent source leaves a visible destination pixel unchanged. |
| Canvas.OverClear | kiosk-backyard/zundamon_compositor.py:326-338 | A source over a clear pixel gives the source wherever the source is visible. |
| Canvas.ClipWindowSpec | kiosk-backyard/zundamon_compositor.py:300-314 | A canvas pixel is in the clipped rectangle iff the placed layer covers it. A non-empty rectangle lies inside the canvas, and its source window has the same size, is offset by the placement and lies inside the layer. |
| Canvas.AlphaComposite | kiosk-backyard/zundamon_compositor.py:284-348 | It raises exactly when the clipped window is one row tall and at least two columns wide. Otherwise the canvas keeps its size; an empty window returns it as it was. Inside the window each pixel is the source pixel over the destination pixel, and every other pixel is copied. |
| Canvas.OneRowLayerRaises | kiosk-backyard/zundamon_compositor.py:331-335 | A 2×1 layer placed inside the canvas makes the blend raise, while a 1×2 layer placed there blends. |
| Canvas.AlphaCompositeNormalised | kiosk-backyard/zundamon_compositor.py:284-348 | A blend of normalised images that does not raise gives a normalised image. |
| Canvas.OnWhiteSpec | kiosk-backyard/zundamon_compositor.py:264-268 | Flattened pixels are opaque; an opaque pixel keeps its colour and a transparent one becomes white. |
| Resolver.MatchesSpec | kiosk-backyard/zundamon_compositor.py:193-203 | A value matches iff its cleaned form occurs in the cleaned original name or in the cleaned identifier; the two `endswith` tests never add a match. |
| Resolver.EmptyValueMatches | kiosk-backyard/zundamon_compositor.py:196-201 | A value that cleans to nothing (`""`, `" "`, `"()"`) matches every layer. |
| Resolver.ParamGroups | kiosk-backyard/zundamon_compositor.py:157-166 | `head_direction` selects from two groups, each of the seven other keys of the table from exactly one, and any other name from none. |
| Resolver.FirstMatch | kiosk-backyard/zundamon_compositor.py:178-185 | The inner loop picks the first matching member: no earlier member matches, and it finds nothing iff no member matches. |
| Resolver.Pick | kiosk-backyard/zundamon_compositor.py:175-185 | A candidate group adds at most one layer. It adds one iff the group exists and some member matches. What it adds is the first matching member in the group's order (the `break`), and no other. |
| Resolver.FirstMatchUnique | kiosk-backyard/zundamon_compositor.py:178-185 | At most one position is a matching member with no matching member before it, so the scan's stopping point is well defined. |
| Resolver.GroupPicksSound | kiosk-backyard/zundamon_compositor.py:175-185 | Every layer a parameter's candidate groups add is the first matching member of one of those groups. |
| Resolver.GroupPicksComplete | kiosk-backyard/zundamon_compositor.py:175-185 | Every candidate group with a matching member adds its first matching member. |
| Resolver.ContributionSpec | kiosk-backyard/zundamon_compositor.py:168-185 | One parameter adds the tail layer iff it is `something_like_shippo` with a value lower-casing to `true`. Otherwise it adds at most one layer per candidate group, and nothing for an unknown name: what it adds are exactly the first matching members of its candidate groups, one for each group that has a matching member. |
| Resolver.ResolveSpec | kiosk-backyard/zundamon_compositor.py:143-187 | Every required layer is resolved whatever the parameters, and `something_like_shippo=true` resolves the tail. For every supplied parameter, each candidate group with a matching member has its first matching member resolved. Every resolved name is justified by one of these: required, the tail asked for, or the first matching member of a supplied parameter's candidate group. |
| Resolver.PickResolved | kiosk-backyard/zundamon_compositor.py:168-187 | A supplied parameter's candidate group that has a matching member gets its first matching member into the resolved list. |
| Resolver.FillDefaultsSpec | kiosk-backyard/zundamon_compositor.py:221-236 | Supplied parameters keep their values. An absent default key gets its default value, and no other key appears. |
| Resolver.FillDefaultsComplete | kiosk-backyard/zundamon_compositor.py:221-236 | A request naming the eight keys of `param_to_group`, in that order, gets only `something_like_shippo=true` added, at the end. |
| Resolver.NoParamsShowTail | kiosk-backyard/zundamon_compositor.py:218-236 | With no parameters every default is in force, so the tail layer is resolved. |
| Resolver.Fallback | kiosk-backyard/zundamon_compositor.py:241-243 | The painted list is never empty, and a non-empty resolution is kept as it is. |
| Resolver.PaintOrderSpec | kiosk-backyard/zundamon_compositor.py:250-261 | Exactly the resolved names are painted. A name in the composition order is painted as often as the order lists it; any other resolved name as often as it was resolved. |
| Resolver.GroupTablesAgree | kiosk-backyard/zundamon_compositor.py:109-119 | Every group a parameter selects from is listed under that parameter's name by the option listing. |
| Resolver.GroupTablesOneWay | kiosk-backyard/zundamon_compositor.py:109-119 | The converse fails: a group `head direction` outside the table is listed under `head_direction`, yet `head_direction` never selects from it. |
| Resolver.AvailableOptionsSpec | kiosk-backyard/zundamon_compositor.py:100-137 | There is a key for every radio group's parameter and for `something_like_shippo`, and no other. The tail offers `true`/`false`. Every other key carries the cleaned members of the last group listed under it. |
| Resolver.OptionResolves | kiosk-backyard/zundamon_compositor.py:121-185 | Round trip: a member of a mapped group, offered as an option and sent back as that parameter's value, makes the group contribute a layer. |
| Dicts.RekeySpec | kiosk-backyard/zundamon_compositor.py:121-132 | Re-keying a dict keeps a key iff some old key maps to it, and its value comes from the last such key in iteration order. |
| PsdAnalyzer.ExtensionsSpec | kiosk-backyard/psd_analyzer.py:46-56 | `*` gives radio_button and `!` gives force_visible, never both. At most one mirror extension is recorded, tested as `:flipx`, `:flipy`, `:flipxy` in that order. |
| PsdAnalyzer.FlipXYReachable | kiosk-backyard/psd_analyzer.py:51-56 | A name ending in `:flipxy` ends in neither shorter suffix, so flip_xy is reachable. |
| PsdAnalyzer.AnalyzeAt | kiosk-backyard/psd_analyzer.py:33-96 | There is a report exactly where there is a node, with the node's name, kind and nesting depth. Only groups have a child list, as long as theirs. Only pixel layers have a box entry, with derived width and height. |
| PsdAnalyzer.FindRadioIsFold | kiosk-backyard/psd_analyzer.py:102-118 | The walk appends the (enclosing name, radio name) pairs one by one in pre-order. |
| PsdAnalyzer.FindRadioGroupsSpec | kiosk-backyard/psd_analyzer.py:102-118 | A key is present iff some radio node sits directly under a node of that name (`root` at top level). Its list holds those nodes' raw names in pre-order, each starting with `*`. |
| PsdAnalyzer.RadioGroupsNest | kiosk-backyard/psd_analyzer.py:106-115 | The walk also descends into radio nodes: `*A` is listed under `root` and its radio child `*b` under `*A`. |
| PsdAnalyzer.ApiParametersSpec | kiosk-backyard/psd_analyzer.py:120-130 | One key per radio group (lower-cased, spaces to underscores; on a collision the later group wins). The options are that group's members, in number and order, each with its leading `*` run removed: what is removed is all `*`, and what remains does not start with `*`. |
| RpmExpression.RangeOfSpec | kiosk/src/hooks/useZundamonExpression.ts:4-9 | Below 1500 is idle, below 3000 normal, below 4500 active, and from 4500 high, each in both directions. |
| RpmExpression.RangeMonotone | kiosk/src/hooks/useZundamonExpression.ts:4-9 | A faster engine never shows a calmer range. |
| RpmExpression.OnlyHighLooksUp | kiosk/src/hooks/useZundamonExpression.ts:11-56 | Only the high range turns the head upwards; the others face forward. |
| RpmExpression.EntriesAreCompositorParameters | kiosk/src/hooks/useZundamonExpression.ts:58-77 | Every parameter the hook sends selects layers in the compositor, in the order of the compositor's defaults, so only `something_like_shippo` is left to the default. |
| RpmExpression.UseExpressionRequest | kiosk/src/hooks/useZundamonExpression.ts:58-77 | The hook's expression is that of the speed's range. Its parameters, decoded into the compositor's request, are the eight keys of `param_to_group` in order, each with the expression's value; filling the defaults adds only `something_like_shippo=true`. |
| SystemAlerts.LevelsSpec | kiosk/src/pages/ConsoleMode.tsx:50-60 | Temperature of at least 100 is danger and at least 95 warning. Voltage below 12.0 is danger and below 12.5 warning. Hotter or weaker is never rated less severe. |
| SystemAlerts.GenerateSystemAlertsShape | kiosk/src/pages/ConsoleMode.tsx:63-106 | At most three alerts, in the order temperature, battery, weather (so at most one of each), none at normal level. |
| SystemAlerts.TemperatureAlertsAgree | kiosk/src/pages/ConsoleMode.tsx:67-79 | The coolant block repeats the thresholds inline. It still raises one alert exactly when `getTemperatureAlert` is above normal, at that level. |
| SystemAlerts.BatteryAlertsAgree | kiosk/src/pages/ConsoleMode.tsx:82-94 | The battery block raises one alert exactly when `getBatteryAlert` is above normal, at that level. |
| SystemAlerts.GenerateSystemAlertsKinds | kiosk/src/pages/ConsoleMode.tsx:63-106 | Stated kind by kind: the temperature alerts are exactly the coolant block, the battery alerts exactly the battery block, the weather alerts exactly the rain block (one warning iff rain is forecast), and there is never an engine-speed alert although the type allows one. |
| SystemAlerts.EngineStateFollowsRange | kiosk/src/pages/ConsoleMode.tsx:214-218 | The engine-state label uses the same 1500/3000/4500 boundaries as the mascot's speed ranges. |
| ZundamonDisplay.StatusDistinct | kiosk/src/components/ZundamonDisplay.tsx:23-51 | Every range has its own non-empty text and its own class, and no range class is an alert class. |
| ZundamonDisplay.HighestPrioritySpec | kiosk/src/components/ZundamonDisplay.tsx:54-64 | None iff there are no alerts. Otherwise the choice is the first danger if any, else the first warning, else the first alert, and it is always one of the alerts. |
| ZundamonDisplay.HighestPriorityIsMostSevere | kiosk/src/components/ZundamonDisplay.tsx:53-64 | The chosen alert is at least as severe as every alert in the list. |
| ZundamonDisplay.DisplayMessageSpec | kiosk/src/components/ZundamonDisplay.tsx:66-72 | The bubble shows the chosen alert's message, or the speed text when there is no alert. |
| ZundamonDisplay.DisplayClassSpec | kiosk/src/components/ZundamonDisplay.tsx:74-87 | Danger style iff some alert is a danger. Warning style iff none is a danger and some is a warning. Otherwise the speed class. |
| ZundamonDisplay.ConsoleBubble | kiosk/src/pages/ConsoleMode.tsx:108 | On the console page the bubble is danger-styled iff coolant or battery is at danger level. It is warning-styled iff neither is, but one is at warning level or rain is forecast. |
| ConsoleCard.AlertClassSpec | kiosk/src/components/ConsoleCard.tsx:18-27 | Only a normal card is unstyled, and the warning and danger classes are distinct. |
| ConsoleCard.GaugePercentage | kiosk/src/components/ConsoleCard.tsx:73 | The fill is in [0, 100], and NaN exactly when `max == min` and the value equals them. |
| ConsoleCard.GaugeClamp | kiosk/src/components/ConsoleCard.tsx:73 | With max above min: at or below min the bar is empty, at or above max it is full, and between them it is the proportion of the range. |
| ConsoleCard.GaugeMonotone | kiosk/src/components/ConsoleCard.tsx:73 | With max above min, a higher reading never shows a shorter bar. |
| ConsoleCard.GaugeColorSpec | kiosk/src/components/ConsoleCard.tsx:75-79 | Red iff the reading reaches a danger threshold in force. Orange iff not, but it reaches a warning threshold in force. Green otherwise. A missing or zero threshold never colours. |
| ConsoleCard.TemperatureGaugeAgrees | kiosk/src/pages/ConsoleMode.tsx:169-177 | The coolant gauge's colour always matches its card's level. |
| ConsoleCard.RpmGaugeSpec | kiosk/src/pages/ConsoleMode.tsx:198-206 | The speed gauge is red from 6000 rpm, orange from 5000, and green below. |
| ConsoleCard.BatteryGaugeInverted | kiosk/src/pages/ConsoleMode.tsx:228-236 | The battery gauge as written is red for every voltage the card rates warning or normal and never red at danger: 13 V shows red, 11 V green. |
| ConsoleCard.BatteryGaugeAgrees | kiosk/src/pages/ConsoleMode.tsx:222-236 | The battery gauge with lower readings treated as worse matches its card's level. |
| ConsoleCard.CardsConsistent | kiosk/src/pages/ConsoleMode.tsx:164-236 | On the coolant card, the bar is red, orange or green exactly when the card is styled danger, warning or not at all. On the battery card as drawn, the bar is red exactly when the card is not styled danger, and never orange. |
| WeatherChecker.RecommendationSpec | sensors/weather_checker.py:127-140 | Expected rain always gives the rain advice. Without rain: sunny from 20 to 28 degrees (inclusive) is perfect, cloudy is fine, and everything else gets the generic advice; each case in both directions. |
| WeatherChecker.GenericCases | sensors/weather_checker.py:135-140 | Sunny outside 20–28, partly cloudy and rainy weather without a rain alert all get the generic advice. |

## Left out

- Reading and writing files and JSON (the artwork, `layer_metadata.json`, the PNG fragments, the
  encoded response) and the library's exceptions. Their outcomes are parameters:
  `Option<Document>`, `Option<Metadata>`, `Disk`, `saves`, `Library`.
- Opacity and blend mode. They are recorded by both Python tools but influence no decision, so
  they are not in the records.
- psd-tools' private `_record.visible` mirror flags (kiosk-factory/layer_extractor.py:177-179,
  190-192, 210-218). They are saved in a separate store keyed by the node's string form and
  restored in a second pass that gives each key to the first saved node with that string, so
  nodes printing alike collide. Only the public flag is modelled.
- The 8-bit quantisation of `_alpha_composite_numpy` (`/ 255.0`, float32 arithmetic, truncation
  by `astype(np.uint8)`): pixels are exact reals.
- Pillow's RGBA conversion of fragments and the JPEG encoder's chroma handling.
- The `estimated_size_mb` float of the dry run and `output_directory`. Only the counts are
  modelled.
- `compose_image` fills its defaults into the caller's own dict. The model returns the filled
  dict instead of mutating the argument.
- The analyser's `type` entry, the library's class name (kiosk-backyard/psd_analyzer.py:38), and
  its `color_mode` string (kiosk-backyard/psd_analyzer.py:29). No decision reads them; the
  report's constructor stands for the node's kind.
- Logging, the `print` output of the analyser, the Flask routes, the generator module, the
  voice module and MandanMode.
- The random-data stubs (`useDummyData.ts`, the forecast generators of the weather checker,
  the GPS and GPIO readers). They have no stateable behaviour.
- NaN readings on the front end, and `URLSearchParams` encoding, which is a parameter. The
  server's decoding of the query string is not modelled either: `UseExpressionRequest` takes
  the request to be the hook's entries assigned in order (`Dicts.FromPairs`).
- Rendering of the React components. Only the values they compute are modelled.
- `get_driving_recommendation` receives the condition, temperature and rain flag already read
  out of the two records. A record missing a field (a `KeyError`) is not modelled.
- Resolver.MatchesSpec: `lower()` is ASCII lower-casing. Python's full Unicode case mapping is
  not modelled; the Japanese names the kiosk uses have no case.

## Findings

| source | as written | input that shows it | evidently intended | confidence | as-written member | corrected member |
|---|---|---|---|---|---|---|
| kiosk/src/pages/ConsoleMode.tsx:228-236 | The battery gauge reuses `Gauge`, which colours a reading at or above a threshold (ConsoleCard.tsx:75-79), with warning 12.5 V and danger 12.0 V. A healthy battery is drawn red and a flat one green. | voltage 13.0 (card level normal, gauge red); voltage 11.0 (card level danger, gauge green) | For the battery, lower is worse: red below 12.0 V, orange below 12.5 V, green otherwise, matching `getBatteryAlert` and the card style | high (not executed) | ConsoleCard.BatteryGaugeInverted | ConsoleCard.BatteryGaugeAgrees |

=== FILE: canvas.dfy ===
/**
 * The compositor's pixel arithmetic (`_alpha_composite_numpy` in
 * kiosk-backyard/zundamon_compositor.py): the clipping of a placed layer against the canvas and
 * the "over" blend of straight (non-premultiplied) RGBA colours. Channels are reals in [0, 1];
 * the source's scaling by 255 and its truncation back to 8 bits are left out.
 */
module Canvas {
  import opened Wrappers

  /** One RGBA pixel, channels in [0, 1] when normalised. */
  datatype Px = Px(r: real, g: real, b: real, a: real)

  predicate InUnit(x: real) {
    0.0 <= x <= 1.0
  }

  predicate Normalised(p: Px) {
    InUnit(p.r) && InUnit(p.g) && InUnit(p.b) && InUnit(p.a)
  }

  const Clear: Px := Px(0.0, 0.0, 0.0, 0.0)

  /**
   * One colour channel of `src` over `dst`: the source colour weighted by its alpha `sa`, plus
   * the destination colour weighted by what the source lets through, `w = da(1 - sa)`, divided
   * by the resulting alpha.
   */
  function Channel(s: real, sa: real, d: real, w: real, outA: real): real
    requires outA > 0.0
  {
    (s * sa + d * w) / outA
  }

  /**
   * `src` painted over `dst`: alpha `sa + da(1 - sa)`, colour the alpha-weighted mix divided by
   * that alpha; where the result is fully transparent the colour is zero.
   */
  function Over(src: Px, dst: Px): Px {
    var w := dst.a * (1.0 - src.a);
    var outA := src.a + w;
    if outA > 0.0 then
      Px(Channel(src.r, src.a, dst.r, w, outA),
         Channel(src.g, src.a, dst.g, w, outA),
         Channel(src.b, src.a, dst.b, w, outA),
         outA)
    else Px(0.0, 0.0, 0.0, outA)
  }

  /** A product of two numbers in [0, 1] lies in [0, 1] and below each factor. */
  lemma MulUnit(x: real, y: real)
    requires InUnit(x) && InUnit(y)
    ensures InUnit(x * y) && x * y <= y && x * y <= x
  {
  }

  /** The division in `Channel` stays in [0, 1] when the numerator is between 0 and the divisor. */
  lemma DivUnit(n: real, d: real)
    requires d > 0.0 && 0.0 <= n <= d
    ensures InUnit(n / d)
  {
  }

  lemma ChannelInUnit(s: real, sa: real, d: real, w: real)
    requires InUnit(s) && InUnit(sa) && InUnit(d) && InUnit(w)
    requires sa + w > 0.0
    ensures InUnit(Channel(s, sa, d, w, sa + w))
  {
    MulUnit(s, sa);
    var fromSrc := s * sa;
    MulUnit(d, w);
    var fromDst := d * w;
    assert 0.0 <= fromSrc <= sa;
    assert 0.0 <= fromDst <= w;
    DivUnit(fromSrc + fromDst, sa + w);
  }

  /** What the source lets through of a destination alpha stays in [0, 1 - sa]. */
  lemma WeightInUnit(sa: real, da: real)
    requires InUnit(sa) && InUnit(da)
    ensures 0.0 <= da * (1.0 - sa) <= 1.0 - sa
  {
    var c := 1.0 - sa;
    MulUnit(da, c);
    MulUnit(1.0 - da, c);
    assert c - da * c == (1.0 - da) * c;
  }

  /** Blending normalised pixels gives a normalised pixel. */
  lemma OverNormalised(src: Px, dst: Px)
    requires Normalised(src) && Normalised(dst)
    ensures Normalised(Over(src, dst))
  {
    WeightInUnit(src.a, dst.a);
    var w := dst.a * (1.0 - src.a);
    var outA := src.a + w;
    var o := Over(src, dst);
    assert o.a == outA;
    if outA > 0.0 {
      ChannelInUnit(src.r, src.a, dst.r, w);
      ChannelInUnit(src.g, src.a, dst.g, w);
      ChannelInUnit(src.b, src.a, dst.b, w);
      assert o == Px(Channel(src.r, src.a, dst.r, w, outA), Channel(src.g, src.a, dst.g, w, outA),
                     Channel(src.b, src.a, dst.b, w, outA), outA);
    } else {
      assert o == Px(0.0, 0.0, 0.0, outA);
    }
  }

  /**
   * Painting never makes a pixel more transparent: the result is at least as opaque as either
   * input.
   */
  lemma OverAlphaGrows(src: Px, dst: Px)
    requires Normalised(src) && Normalised(dst)
    ensures Over(src, dst).a >= src.a && Over(src, dst).a >= dst.a
  {
    WeightInUnit(src.a, dst.a);
    WeightInUnit(dst.a, src.a);
    assert src.a + dst.a * (1.0 - src.a) - dst.a == src.a * (1.0 - dst.a);
  }

  /** An opaque source hides what is beneath it. */
  lemma OverOpaque(src: Px, dst: Px)
    requires src.a == 1.0
    ensures Over(src, dst) == src
  {
  }

  /** A fully transparent source leaves a visible destination pixel as it was. */
  lemma OverTransparent(src: Px, dst: Px)
    requires src.a == 0.0 && dst.a > 0.0
    ensures Over(src, dst) == dst
  {
    assert dst.r * dst.a / dst.a == dst.r;
    assert dst.g * dst.a / dst.a == dst.g;
    assert dst.b * dst.a / dst.a == dst.b;
  }

  /** A source over a fully transparent destination is the source (where it is not transparent). */
  lemma OverClear(src: Px)
    requires src.a > 0.0
    ensures Over(src, Clear) == src
  {
    assert src.r * src.a / src.a == src.r;
    assert src.g * src.a / src.a == src.g;
    assert src.b * src.a / src.a == src.b;
  }

  // ---------------------------------------------------------------- rasters

  /** An image as rows of pixels. */
  datatype Raster = Raster(width: nat, height: nat, rows: seq<seq<Px>>)

  /** `height` rows of `width` pixels each, as a NumPy array of shape (height, width, 4) is. */
  ghost predicate WellFormed(img: Raster) {
    |img.rows| == img.height && forall j :: 0 <= j < img.height ==> |img.rows[j]| == img.width
  }

  /** `Image.new('RGBA', size, (0, 0, 0, 0))` */
  function Blank(width: nat, height: nat): (img: Raster)
    ensures img.width == width && img.height == height
    ensures WellFormed(img) && forall j, i :: 0 <= j < height && 0 <= i < width ==> img.rows[j][i] == Clear
  {
    var row := seq(width, i => Clear);
    Raster(width, height, seq(height, j => row))
  }

  /**
   * The overlap of a `srcW`×`srcH` layer placed at (`x`, `y`) with a `dstW`×`dstH` canvas:
   * the canvas rectangle [x0, x1) × [y0, y1), and where the matching window starts in the layer.
   */
  datatype Window = Window(x0: int, y0: int, x1: int, y1: int, sx0: int, sy0: int)

  function Max(a: int, b: int): int {
    if a >= b then a else b
  }

  function Min(a: int, b: int): int {
    if a <= b then a else b
  }

  function ClipWindow(dstW: nat, dstH: nat, srcW: nat, srcH: nat, x: int, y: int): Window {
    Window(Max(0, x), Max(0, y), Min(dstW, x + srcW), Min(dstH, y + srcH), Max(0, -x), Max(0, -y))
  }

  predicate IsEmpty(w: Window) {
    w.x0 >= w.x1 || w.y0 >= w.y1
  }

  /** Whether canvas pixel (`i`, `j`) lies in the window. */
  predicate InWindow(w: Window, i: int, j: int) {
    w.x0 <= i < w.x1 && w.y0 <= j < w.y1
  }

  /**
   * A canvas pixel is inside the clipped rectangle iff it is covered by the placed layer; a
   * non-empty rectangle lies inside the canvas, and the source window has the same size, is
   * offset from it by the placement, and lies inside the layer.
   */
  lemma ClipWindowSpec(dstW: nat, dstH: nat, srcW: nat, srcH: nat, x: int, y: int)
    ensures var w := ClipWindow(dstW, dstH, srcW, srcH, x, y);
      && (forall i, j :: InWindow(w, i, j) <==>
            0 <= i < dstW && 0 <= j < dstH && x <= i < x + srcW && y <= j < y + srcH)
      && (!IsEmpty(w) ==>
            && 0 <= w.x0 < w.x1 <= dstW && 0 <= w.y0 < w.y1 <= dstH
            && w.sx0 == w.x0 - x && w.sy0 == w.y0 - y
            && 0 <= w.sx0 && w.sx0 + (w.x1 - w.x0) <= srcW
            && 0 <= w.sy0 && w.sy0 + (w.y1 - w.y0) <= srcH)
  {
  }

  /**
   * The blend squeezes the (rows, columns, 1) alpha mask before indexing with it. When the
   * clipped window is one row tall and at least two columns wide, the squeezed mask is a flat
   * vector whose length disagrees with the region's single row, and the indexing raises; for
   * every other non-empty window (a single column, a single pixel, or at least two of each)
   * the mask selects exactly the pixels it should.
   */
  predicate SqueezeRaises(w: Window) {
    !IsEmpty(w) && w.y1 - w.y0 == 1 && w.x1 - w.x0 >= 2
  }

  /**
   * `_alpha_composite_numpy(dst, src, (x, y))`: `src` placed at (`x`, `y`) and blended over
   * `dst` inside the clipped rectangle, the source window read from (`sx0`, `sy0`) onwards;
   * every other pixel is copied. `None` is the exception the mask squeeze raises.
   */
  function AlphaComposite(dst: Raster, src: Raster, x: int, y: int): (r: Option<Raster>)
    requires WellFormed(dst) && WellFormed(src)
    ensures r.None? <==> SqueezeRaises(ClipWindow(dst.width, dst.height, src.width, src.height, x, y))
    ensures r.Some? ==> WellFormed(r.value) && r.value.width == dst.width && r.value.height == dst.height
    ensures IsEmpty(ClipWindow(dst.width, dst.height, src.width, src.height, x, y)) ==> r == Some(dst)
    ensures r.Some? ==> forall j, i :: 0 <= j < dst.height && 0 <= i < dst.width ==>
      r.value.rows[j][i] ==
        if x <= i < x + src.width && y <= j < y + src.height then Over(src.rows[j - y][i - x], dst.rows[j][i])
        else dst.rows[j][i]
  {
    var w := ClipWindow(dst.width, dst.height, src.width, src.height, x, y);
    ClipWindowSpec(dst.width, dst.height, src.width, src.height, x, y);
    if IsEmpty(w) then Some(dst)
    else if SqueezeRaises(w) then None
    else
      Some(Raster(dst.width, dst.height,
        seq(dst.height, j requires 0 <= j < dst.height =>
          seq(dst.width, i requires 0 <= i < dst.width =>
            if InWindow(w, i, j) then Over(src.rows[w.sy0 + (j - w.y0)][w.sx0 + (i - w.x0)], dst.rows[j][i])
            else dst.rows[j][i]))))
  }

  /**
   * The squeeze fault in concrete terms: a layer two pixels wide and one tall, placed fully
   * inside a canvas, raises, while the same layer stood on end (one wide, two tall) blends.
   */
  lemma OneRowLayerRaises(dst: Raster, row: Px, x: nat, y: nat)
    requires WellFormed(dst) && x + 2 <= dst.width && y + 2 <= dst.height
    ensures AlphaComposite(dst, Raster(2, 1, [[row, row]]), x, y).None?
    ensures AlphaComposite(dst, Raster(1, 2, [[row], [row]]), x, y).Some?
  {
  }

  /** Every pixel is normalised. */
  ghost predicate AllNormalised(img: Raster)
    requires WellFormed(img)
  {
    forall j, i :: 0 <= j < img.height && 0 <= i < img.width ==> Normalised(img.rows[j][i])
  }

  /** A clear canvas is normalised. */
  lemma BlankNormalised(width: nat, height: nat)
    ensures AllNormalised(Blank(width, height))
  {
    var img := Blank(width, height);
    forall j, i | 0 <= j < height && 0 <= i < width ensures Normalised(img.rows[j][i]) {
      assert img.rows[j][i] == Clear;
    }
  }

  /** Compositing normalised images gives a normalised image. */
  lemma AlphaCompositeNormalised(dst: Raster, src: Raster, x: int, y: int)
    requires WellFormed(dst) && WellFormed(src) && AllNormalised(dst) && AllNormalised(src)
    ensures AlphaComposite(dst, src, x, y).Some? ==> AllNormalised(AlphaComposite(dst, src, x, y).value)
  {
    if AlphaComposite(dst, src, x, y).None? { return; }
    var r := AlphaComposite(dst, src, x, y).value;
    forall j, i | 0 <= j < r.height && 0 <= i < r.width ensures Normalised(r.rows[j][i]) {
      if x <= i < x + src.width && y <= j < y + src.height {
        OverNormalised(src.rows[j - y][i - x], dst.rows[j][i]);
      }
    }
  }

  /**
   * The JPEG output: the canvas pasted on white through its own alpha, so every pixel becomes
   * `colour * a + white * (1 - a)`, fully opaque.
   */
  function OnWhite(p: Px): Px {
    Px(p.r * p.a + (1.0 - p.a), p.g * p.a + (1.0 - p.a), p.b * p.a + (1.0 - p.a), 1.0)
  }

  /** An opaque pixel keeps its colour on white; a transparent one becomes white. */
  lemma OnWhiteSpec(p: Px)
    ensures OnWhite(p).a == 1.0
    ensures p.a == 1.0 ==> OnWhite(p) == p.(a := 1.0)
    ensures p.a == 0.0 ==> OnWhite(p) == Px(1.0, 1.0, 1.0, 1.0)
  {
  }

  function Flatten(img: Raster): (r: Raster)
    requires WellFormed(img)
    ensures WellFormed(r) && r.width == img.width && r.height == img.height
    ensures forall j, i :: 0 <= j < img.height && 0 <= i < img.width ==> r.rows[j][i] == OnWhite(img.rows[j][i])
  {
    Raster(img.width, img.height,
      seq(img.height, j requires 0 <= j < img.height =>
        seq(img.width, i requires 0 <= i < img.width => OnWhite(img.rows[j][i]))))
  }
}

=== FILE: compositor.dfy ===
/**
 * The compositor's image side (`ZundamonCompositor` in kiosk-backyard/zundamon_compositor.py):
 * start-up, the layer-image cache, placement of one layer and `compose_image`. The fragment
 * files on disk are a map from fragment path to the image already converted to RGBA; loading
 * the metadata file is its outcome (`None` when the file is missing or unreadable).
 */
module Compositor {
  import opened Wrappers
  import Dicts
  import opened LayerStore
  import opened Canvas
  import opened Resolver
  import LayerTree
  import LayerExtractor

  /** `self.canvas_size` before any metadata is read. */
  const DefaultWidth: nat := 1082
  const DefaultHeight: nat := 1594

  /** The fragment images on disk, by path relative to the layer directory. */
  type Disk = map<string, Raster>

  datatype State = State(md: Metadata, width: nat, height: nat, cache: map<string, Raster>)

  /**
   * `__init__` with `load_metadata`: a file that could not be read leaves the empty metadata
   * and the default canvas; otherwise the canvas takes the artwork's size when it is recorded.
   * The cache starts empty either way.
   */
  function Start(loaded: Option<Metadata>): (c: State)
    ensures c.cache == map[]
    ensures loaded.None? ==> c.md == EmptyMetadata()
    ensures loaded.Some? ==> c.md == loaded.value
    ensures (c.width, c.height) ==
      if loaded.Some? && loaded.value.psdInfo.Some? then (loaded.value.psdInfo.value.width, loaded.value.psdInfo.value.height)
      else (DefaultWidth, DefaultHeight)
  {
    match loaded
    case None => State(EmptyMetadata(), DefaultWidth, DefaultHeight, map[])
    case Some(md) =>
      match md.psdInfo
      case Some(info) => State(md, info.width, info.height, map[])
      case None => State(md, DefaultWidth, DefaultHeight, map[])
  }

  /**
   * Starting on what the extractor wrote for an artwork: the canvas is the artwork's size, the
   * metadata is the extractor's, and the cache is coherent with whatever files lie on disk.
   */
  lemma StartOnExtracted(doc: LayerTree.Document)
    ensures var c := Start(Some(LayerExtractor.Analyze(doc)));
      && c.width == doc.width && c.height == doc.height
      && c.md == LayerExtractor.Analyze(doc)
      && forall disk :: Coherent(c, disk)
  {
  }

  // ---------------------------------------------------------------- the layer cache

  /** What reading a layer's fragment from disk yields, with no cache in between. */
  function LoadFromDisk(md: Metadata, disk: Disk, name: string): Option<Raster> {
    if name in md.layers.m && md.layers.m[name].file in disk then Some(disk[md.layers.m[name].file])
    else None
  }

  /** The cache only holds what a fresh read of the same layer would return. */
  ghost predicate Coherent(c: State, disk: Disk) {
    forall name :: name in c.cache ==> LoadFromDisk(c.md, disk, name) == Some(c.cache[name])
  }

  /** `get_layer_image`: the image and the state with the cache updated. */
  function GetLayerImage(c: State, disk: Disk, name: string): (r: (Option<Raster>, State))
    ensures r.1.md == c.md && r.1.width == c.width && r.1.height == c.height
    ensures name in c.cache ==> r == (Some(c.cache[name]), c)
    ensures name !in c.cache && r.0.None? ==> r.1 == c
    ensures name !in c.cache && r.0.Some? ==> r.1.cache == c.cache[name := r.0.value]
  {
    if name in c.cache then (Some(c.cache[name]), c)
    else if name !in c.md.layers.m then (None, c)
    else
      var file := c.md.layers.m[name].file;
      if file !in disk then (None, c)
      else (Some(disk[file]), c.(cache := c.cache[name := disk[file]]))
  }

  /**
   * The cache is invisible: with a coherent cache, a lookup returns exactly what a fresh read
   * returns, and the cache stays coherent.
   */
  lemma GetLayerImageCoherent(c: State, disk: Disk, name: string)
    requires Coherent(c, disk)
    ensures GetLayerImage(c, disk, name).0 == LoadFromDisk(c.md, disk, name)
    ensures Coherent(GetLayerImage(c, disk, name).1, disk)
  {
  }

  /** `clear_cache` */
  function ClearCache(c: State): (r: State)
    ensures r.cache == map[] && r.md == c.md && r.width == c.width && r.height == c.height
    ensures forall disk :: Coherent(r, disk)
  {
    c.(cache := map[])
  }

  // ---------------------------------------------------------------- one layer

  /**
   * Where `_composite_layer` puts a `w`×`h` image: the recorded box's top-left corner, or
   * centred (rounding towards minus infinity, as Python's `//` does) when no box is recorded.
   */
  function Placement(info: Option<LayerInfo>, canvasW: nat, canvasH: nat, w: nat, h: nat): (pos: (int, int))
    ensures info.Some? && info.value.bbox.Some? ==> pos == (info.value.bbox.value.left, info.value.bbox.value.top)
  {
    if info.Some? && info.value.bbox.Some? then (info.value.bbox.value.left, info.value.bbox.value.top)
    else ((canvasW - w) / 2, (canvasH - h) / 2)
  }

  /**
   * Centring: without a recorded box, the margins left on either side differ by at most one
   * pixel, the extra pixel going to the right (bottom) side.
   */
  lemma PlacementCentres(info: Option<LayerInfo>, canvasW: nat, canvasH: nat, w: nat, h: nat)
    requires info.None? || info.value.bbox.None?
    ensures var (x, y) := Placement(info, canvasW, canvasH, w, h);
      && 0 <= (canvasW - (x + w)) - x <= 1
      && 0 <= (canvasH - (y + h)) - y <= 1
  {
  }

  /**
   * A layer lands inside the canvas, uncut, when its recorded box lies within the canvas and
   * the image has the box's size, or, without a box, when the image is no larger than the
   * canvas. The blend then reads the whole image, and raises exactly when the image is one
   * pixel tall and at least two wide.
   */
  lemma PlacementInside(info: Option<LayerInfo>, canvasW: nat, canvasH: nat, w: nat, h: nat)
    requires info.Some? && info.value.bbox.Some? ==>
      var b := info.value.bbox.value;
      && 0 <= b.left && b.right <= canvasW && 0 <= b.top && b.bottom <= canvasH
      && w == b.right - b.left && h == b.bottom - b.top
    requires info.None? || info.value.bbox.None? ==> w <= canvasW && h <= canvasH
    ensures var (x, y) := Placement(info, canvasW, canvasH, w, h);
      && 0 <= x && x + w <= canvasW && 0 <= y && y + h <= canvasH
      && ClipWindow(canvasW, canvasH, w, h, x, y) == Window(x, y, x + w, y + h, 0, 0)
      && (SqueezeRaises(ClipWindow(canvasW, canvasH, w, h, x, y)) <==> h == 1 && w >= 2)
  {
  }

  function LayerInfoOf(md: Metadata, name: string): Option<LayerInfo> {
    if name in md.layers.m then Some(md.layers.m[name]) else None
  }

  /** Every fragment on disk is a well-formed image. */
  ghost predicate DiskWellFormed(disk: Disk) {
    forall f :: f in disk ==> WellFormed(disk[f])
  }

  /** A canvas of the compositor's size. */
  ghost predicate Fits(c: State, canvas: Raster) {
    WellFormed(canvas) && canvas.width == c.width && canvas.height == c.height
  }

  /**
   * `_composite_layer`: blends the layer's image onto the canvas at its placement. A layer
   * without an image, or one whose blend raises (see `Canvas.SqueezeRaises`), leaves the canvas
   * as it was and reports `false`.
   */
  function CompositeLayer(c: State, disk: Disk, canvas: Raster, name: string): (r: (Raster, State, bool))
    requires Coherent(c, disk) && DiskWellFormed(disk) && Fits(c, canvas)
    ensures Coherent(r.1, disk) && Fits(r.1, r.0) && r.1.md == c.md
    ensures LoadFromDisk(c.md, disk, name).None? ==> !r.2 && r.0 == canvas
    ensures LoadFromDisk(c.md, disk, name).Some? ==> var img := LoadFromDisk(c.md, disk, name).value;
      var (x, y) := Placement(LayerInfoOf(c.md, name), c.width, c.height, img.width, img.height);
      && (r.2 <==> !SqueezeRaises(ClipWindow(c.width, c.height, img.width, img.height, x, y)))
      && (!r.2 ==> r.0 == canvas)
      && (r.2 ==> r.0 == AlphaComposite(canvas, img, x, y).value)
  {
    GetLayerImageCoherent(c, disk, name);
    var (img, c') := GetLayerImage(c, disk, name);
    match img
    case None => (canvas, c', false)
    case Some(layer) =>
      var (x, y) := Placement(LayerInfoOf(c.md, name), canvas.width, canvas.height, layer.width, layer.height);
      match AlphaComposite(canvas, layer, x, y)
      case None => (canvas, c', false)
      case Some(out) => (out, c', true)
  }

  /** The painting loops of `compose_image`, over the paint sequence. */
  function PaintAll(c: State, disk: Disk, canvas: Raster, names: seq<string>): (r: (Raster, State))
    requires Coherent(c, disk) && DiskWellFormed(disk) && Fits(c, canvas)
    ensures Coherent(r.1, disk) && Fits(r.1, r.0) && r.1.md == c.md
    decreases |names|
  {
    if |names| == 0 then (canvas, c)
    else
      var (canvas', c', _) := CompositeLayer(c, disk, canvas, names[0]);
      PaintAll(c', disk, canvas', names[1..])
  }

  /** The canvas after one layer image is blended at its placement; a blend that raises keeps it. */
  function PaintOne(md: Metadata, canvas: Raster, name: string, img: Raster): (r: Raster)
    requires WellFormed(canvas) && WellFormed(img)
    ensures WellFormed(r) && r.width == canvas.width && r.height == canvas.height
  {
    var (x, y) := Placement(LayerInfoOf(md, name), canvas.width, canvas.height, img.width, img.height);
    AlphaComposite(canvas, img, x, y).GetOr(canvas)
  }

  /** The same paint sequence with every image read afresh from disk. */
  function PaintFresh(md: Metadata, disk: Disk, canvas: Raster, names: seq<string>): (r: Raster)
    requires DiskWellFormed(disk) && WellFormed(canvas)
    ensures WellFormed(r) && r.width == canvas.width && r.height == canvas.height
    decreases |names|
  {
    if |names| == 0 then canvas
    else
      var img := LoadFromDisk(md, disk, names[0]);
      var canvas' := if img.None? then canvas else PaintOne(md, canvas, names[0], img.value);
      PaintFresh(md, disk, canvas', names[1..])
  }

  /** Caching changes nothing in the picture: painting through the cache equals painting from disk. */
  lemma {:induction false} PaintAllIsFresh(c: State, disk: Disk, canvas: Raster, names: seq<string>)
    requires Coherent(c, disk) && DiskWellFormed(disk) && Fits(c, canvas)
    ensures PaintAll(c, disk, canvas, names).0 == PaintFresh(c.md, disk, canvas, names)
    decreases |names|
  {
    if |names| > 0 {
      var (canvas', c', _) := CompositeLayer(c, disk, canvas, names[0]);
      PaintAllIsFresh(c', disk, canvas', names[1..]);
    }
  }

  /** Painting normalised fragments onto a normalised canvas keeps every pixel normalised. */
  lemma {:induction false} PaintFreshNormalised(md: Metadata, disk: Disk, canvas: Raster, names: seq<string>)
    requires DiskWellFormed(disk) && WellFormed(canvas) && AllNormalised(canvas)
    requires forall f :: f in disk ==> AllNormalised(disk[f])
    ensures AllNormalised(PaintFresh(md, disk, canvas, names))
    decreases |names|
  {
    if |names| > 0 {
      var img := LoadFromDisk(md, disk, names[0]);
      if img.Some? {
        var (x, y) := Placement(LayerInfoOf(md, names[0]), canvas.width, canvas.height, img.value.width, img.value.height);
        AlphaCompositeNormalised(canvas, img.value, x, y);
        PaintFreshNormalised(md, disk, PaintOne(md, canvas, names[0], img.value), names[1..]);
      } else {
        PaintFreshNormalised(md, disk, canvas, names[1..]);
      }
    }
  }

  /** The names `compose_image` paints for the given request parameters. */
  function ComposeNames(md: Metadata, params: Dicts.Dict<string, string>): seq<string>
    requires Dicts.Valid(params)
  {
    PaintOrder(md.compositionOrder, Fallback(Resolve(md, FillDefaults(params))))
  }

  /**
   * `compose_image`: fills the defaults, resolves, paints the paint sequence onto a clear
   * canvas and, for JPEG, flattens the result onto white. Encoding is not modelled.
   */
  function Compose(c: State, disk: Disk, params: Dicts.Dict<string, string>, jpeg: bool): (r: (Raster, State))
    requires Coherent(c, disk) && DiskWellFormed(disk) && Dicts.Valid(params)
    ensures Coherent(r.1, disk) && Fits(r.1, r.0) && r.1.md == c.md
  {
    var blank := Blank(c.width, c.height);
    var (painted, c') := PaintAll(c, disk, blank, ComposeNames(c.md, params));
    (if jpeg then Flatten(painted) else painted, c')
  }

  /**
   * The picture `compose_image` returns depends only on the metadata, the files and the
   * request: it is the paint sequence drawn from disk onto a clear canvas of the compositor's
   * size (flattened onto white for JPEG); every pixel is normalised when the fragments are; and
   * every resolved layer, or `base_body` when nothing resolves, is in the paint sequence.
   */
  lemma ComposeSpec(c: State, disk: Disk, params: Dicts.Dict<string, string>, jpeg: bool, x: string)
    requires Coherent(c, disk) && DiskWellFormed(disk) && Dicts.Valid(params)
    ensures var painted := PaintFresh(c.md, disk, Blank(c.width, c.height), ComposeNames(c.md, params));
      && Compose(c, disk, params, jpeg).0 == (if jpeg then Flatten(painted) else painted)
      && ((forall f :: f in disk ==> AllNormalised(disk[f])) ==> AllNormalised(painted))
    ensures var names := Resolve(c.md, FillDefaults(params));
      x in ComposeNames(c.md, params) <==> (x in names || (names == [] && x == "base_body"))
  {
    ComposeDraws(c, disk, params, jpeg);
    ComposePaints(c.md, params, x);
  }

  lemma ComposeDraws(c: State, disk: Disk, params: Dicts.Dict<string, string>, jpeg: bool)
    requires Coherent(c, disk) && DiskWellFormed(disk) && Dicts.Valid(params)
    ensures var painted := PaintFresh(c.md, disk, Blank(c.width, c.height), ComposeNames(c.md, params));
      && Compose(c, disk, params, jpeg).0 == (if jpeg then Flatten(painted) else painted)
      && ((forall f :: f in disk ==> AllNormalised(disk[f])) ==> AllNormalised(painted))
  {
    var blank := Blank(c.width, c.height);
    var names := ComposeNames(c.md, params);
    ComposeIsFresh(c, disk, params, jpeg, blank, names);
    if forall f :: f in disk ==> AllNormalised(disk[f]) {
      ComposeNormalised(c.md, disk, blank, names, c.width, c.height);
    }
  }

  lemma ComposeNormalised(md: Metadata, disk: Disk, blank: Raster, names: seq<string>, width: nat, height: nat)
    requires DiskWellFormed(disk) && forall f :: f in disk ==> AllNormalised(disk[f])
    requires blank == Blank(width, height)
    ensures AllNormalised(PaintFresh(md, disk, blank, names))
  {
    BlankNormalised(width, height);
    PaintFreshNormalised(md, disk, blank, names);
  }

  lemma ComposeIsFresh(c: State, disk: Disk, params: Dicts.Dict<string, string>, jpeg: bool, blank: Raster, names: seq<string>)
    requires Coherent(c, disk) && DiskWellFormed(disk) && Dicts.Valid(params)
    requires blank == Blank(c.width, c.height) && names == ComposeNames(c.md, params)
    ensures var painted := PaintFresh(c.md, disk, blank, names);
      Compose(c, disk, params, jpeg).0 == (if jpeg then Flatten(painted) else painted)
  {
    PaintAllIsFresh(c, disk, blank, names);
  }

  lemma ComposePaints(md: Metadata, params: Dicts.Dict<string, string>, x: string)
    requires Dicts.Valid(params)
    ensures var names := Resolve(md, FillDefaults(params));
      x in ComposeNames(md, params) <==> (x in names || (names == [] && x == "base_body"))
  {
    PaintOrderSpec(md.compositionOrder, Fallback(Resolve(md, FillDefaults(params))), x);
  }
}

=== FILE: console_card.dfy ===
/**
 * The console cards and gauges (kiosk/src/components/ConsoleCard.tsx) and the three gauges the
 * console page draws with them (kiosk/src/pages/ConsoleMode.tsx): the card's alert style, the
 * gauge's fill percentage and its colour.
 */
module ConsoleCard {
  import opened Wrappers
  import opened SystemAlerts

  /** `getAlertClass`; a card given no level is a normal one. */
  function AlertClass(level: Level): string {
    match level
    case Warning => "console-card-warning"
    case Danger => "console-card-danger"
    case Normal => ""
  }

  /** Only a normal card is unstyled, and the two alert levels have their own styles. */
  lemma AlertClassSpec(l1: Level, l2: Level)
    ensures AlertClass(l1) == "" <==> l1 == Normal
    ensures AlertClass(l1) == AlertClass(l2) <==> l1 == l2
  {
  }

  // ---------------------------------------------------------------- fill percentage

  function Min(a: real, b: real): real { if a <= b then a else b }
  function Max(a: real, b: real): real { if a >= b then a else b }

  /**
   * `Math.min(Math.max(((value - min) / (max - min)) * 100, 0), 100)`. When `max == min` the
   * JavaScript quotient is an infinity of the numerator's sign, clamped to 100 or 0, or NaN when
   * the numerator is zero too; NaN is `None`.
   */
  function GaugePercentage(value: real, min: real, max: real): (r: Option<real>)
    ensures r.None? <==> max == min && value == min
    ensures r.Some? ==> 0.0 <= r.value <= 100.0
  {
    if max == min then
      if value > min then Some(100.0) else if value < min then Some(0.0) else None
    else Some(Min(Max((value - min) / (max - min) * 100.0, 0.0), 100.0))
  }

  /** Division by a positive number keeps order. */
  lemma DivMonotone(a: real, b: real, d: real)
    requires d > 0.0 && a <= b
    ensures a / d <= b / d
  {
    var qa, qb := a / d, b / d;
    assert (qb - qa) * d == b - a;
  }

  /** Where a quotient by a positive divisor lies relative to 0 and 1. */
  lemma RatioBounds(n: real, d: real)
    requires d > 0.0
    ensures n <= 0.0 ==> n / d <= 0.0
    ensures n >= d ==> n / d >= 1.0
    ensures 0.0 <= n <= d ==> 0.0 <= n / d <= 1.0
  {
    if n <= 0.0 {
      DivMonotone(n, 0.0, d);
    } else if n >= d {
      DivMonotone(d, n, d);
    } else {
      DivMonotone(0.0, n, d);
      DivMonotone(n, d, d);
    }
  }

  /**
   * On a gauge whose maximum exceeds its minimum, readings at or below the minimum show an empty
   * bar, readings at or above the maximum a full one, and those between the proportion of the
   * range they cover.
   */
  lemma GaugeClamp(value: real, min: real, max: real)
    requires max > min
    ensures GaugePercentage(value, min, max).Some?
    ensures value <= min ==> GaugePercentage(value, min, max) == Some(0.0)
    ensures value >= max ==> GaugePercentage(value, min, max) == Some(100.0)
    ensures min <= value <= max ==> GaugePercentage(value, min, max) == Some((value - min) / (max - min) * 100.0)
  {
    RatioBounds(value - min, max - min);
  }

  /** On such a gauge a higher reading never shows a shorter bar. */
  lemma GaugeMonotone(v1: real, v2: real, min: real, max: real)
    requires max > min && v1 <= v2
    ensures GaugePercentage(v1, min, max).value <= GaugePercentage(v2, min, max).value
  {
    DivMonotone(v1 - min, v2 - min, max - min);
  }

  // ---------------------------------------------------------------- colour

  const Red: string := "#FF5722"
  const Orange: string := "#FF9800"
  const Green: string := "#4CAF50"

  /** A threshold is in force when given and non-zero, as JavaScript truthiness has it. */
  predicate InForce(threshold: Option<real>) {
    threshold.Some? && threshold.value != 0.0
  }

  /** `getGaugeColor`: a reading at or above a threshold in force takes its colour, danger first. */
  function GaugeColor(value: real, warning: Option<real>, danger: Option<real>): string {
    if danger.Some? && danger.value != 0.0 && value >= danger.value then Red
    else if warning.Some? && warning.value != 0.0 && value >= warning.value then Orange
    else Green
  }

  /**
   * Red iff the reading reaches the danger threshold in force; orange iff it does not but reaches
   * the warning threshold in force; green otherwise. A missing or zero threshold never colours.
   */
  lemma GaugeColorSpec(value: real, warning: Option<real>, danger: Option<real>)
    ensures GaugeColor(value, warning, danger) == Red <==> InForce(danger) && value >= danger.value
    ensures GaugeColor(value, warning, danger) == Orange <==>
      !(InForce(danger) && value >= danger.value) && InForce(warning) && value >= warning.value
    ensures GaugeColor(value, warning, danger) == Green <==>
      !(InForce(danger) && value >= danger.value) && !(InForce(warning) && value >= warning.value)
    ensures !InForce(danger) && !InForce(warning) ==> GaugeColor(value, warning, danger) == Green
  {
  }

  /** The colour a card's level calls for. */
  function LevelColor(l: Level): string {
    match l
    case Danger => Red
    case Warning => Orange
    case Normal => Green
  }

  /** The coolant gauge: 60 to 120 °C, warning at 95, danger at 100. */
  function TemperatureGaugeColor(temp: real): string {
    GaugeColor(temp, Some(95.0), Some(100.0))
  }

  /** The coolant gauge's colour always matches the level of the card around it. */
  lemma TemperatureGaugeAgrees(temp: real)
    ensures TemperatureGaugeColor(temp) == LevelColor(TemperatureAlert(temp))
  {
  }

  /** The engine-speed gauge: 0 to 7000 rpm, warning at 5000, danger at 6000. */
  function RpmGaugeColor(rpm: real): string {
    GaugeColor(rpm, Some(5000.0), Some(6000.0))
  }

  /** Red from 6000 rpm, orange from 5000, green below. */
  lemma RpmGaugeSpec(rpm: real)
    ensures RpmGaugeColor(rpm) == Red <==> rpm >= 6000.0
    ensures RpmGaugeColor(rpm) == Orange <==> 5000.0 <= rpm < 6000.0
    ensures RpmGaugeColor(rpm) == Green <==> rpm < 5000.0
  {
  }

  /**
   * The battery gauge as the console page draws it: the shared gauge, which treats higher
   * readings as worse, given the battery's thresholds (warning 12.5 V, danger 12.0 V).
   */
  function BatteryGaugeAsWritten(voltage: real): string {
    GaugeColor(voltage, Some(12.5), Some(12.0))
  }

  /**
   * The gauge as written inverts the battery's meaning: it is red for every voltage the card
   * rates warning or normal, and never red for one it rates danger. A healthy 13 V battery shows
   * red and a flat 11 V one green.
   */
  lemma BatteryGaugeInverted(voltage: real)
    ensures BatteryGaugeAsWritten(voltage) == Red <==> BatteryAlert(voltage) != Danger
    ensures BatteryGaugeAsWritten(voltage) != Orange
    ensures BatteryGaugeAsWritten(13.0) == Red && BatteryAlert(13.0) == Normal
    ensures BatteryGaugeAsWritten(11.0) == Green && BatteryAlert(11.0) == Danger
  {
  }

  /** A gauge for readings where lower is worse: below a threshold in force takes its colour. */
  function GaugeColorBelow(value: real, warning: Option<real>, danger: Option<real>): string {
    if danger.Some? && danger.value != 0.0 && value < danger.value then Red
    else if warning.Some? && warning.value != 0.0 && value < warning.value then Orange
    else Green
  }

  /** The battery gauge with lower readings treated as worse. */
  function BatteryGaugeColor(voltage: real): string {
    GaugeColorBelow(voltage, Some(12.5), Some(12.0))
  }

  /** The corrected battery gauge always matches the level of the card around it. */
  lemma BatteryGaugeAgrees(voltage: real)
    ensures BatteryGaugeColor(voltage) == LevelColor(BatteryAlert(voltage))
  {
  }

  /** The card style and the bar colour of the console's coolant and battery cards. */
  datatype CardLook = CardLook(cardClass: string, barColor: string)

  function TemperatureCard(temp: real): CardLook {
    CardLook(AlertClass(TemperatureAlert(temp)), TemperatureGaugeColor(temp))
  }

  /** The battery card as the console page draws it, with the gauge as written. */
  function BatteryCard(voltage: real): CardLook {
    CardLook(AlertClass(BatteryAlert(voltage)), BatteryGaugeAsWritten(voltage))
  }

  /**
   * On the coolant card the bar is red exactly when the card is styled danger, orange exactly
   * when it is styled warning, and green exactly when the card is unstyled. On the battery card
   * the two disagree: the bar is red exactly when the card is not styled danger, and never orange.
   */
  lemma CardsConsistent(temp: real, voltage: real)
    ensures var t := TemperatureCard(temp);
      && (t.barColor == Red <==> t.cardClass == "console-card-danger")
      && (t.barColor == Orange <==> t.cardClass == "console-card-warning")
      && (t.barColor == Green <==> t.cardClass == "")
    ensures var b := BatteryCard(voltage);
      && (b.barColor == Red <==> b.cardClass != "console-card-danger")
      && b.barColor != Orange
  {
    TemperatureGaugeAgrees(temp);
    BatteryGaugeInverted(voltage);
  }
}

=== FILE: dicts.dfy ===
/**
 * Python's dict keeps its keys in first-insertion order; assigning to an existing key
 * replaces the value but keeps the key where it was. A `Dict` is a map paired with that
 * key order, so that iteration order (which the source relies on) is part of the model.
 */
module Dicts {

  datatype Dict<K, V> = Dict(m: map<K, V>, keys: seq<K>)

  /** The key order lists every key of the map exactly once. */
  ghost predicate Valid<K(!new), V>(d: Dict<K, V>) {
    && (forall i, j :: 0 <= i < j < |d.keys| ==> d.keys[i] != d.keys[j])
    && (forall k :: k in d.m <==> k in d.keys)
  }

  function Empty<K(!new), V>(): (d: Dict<K, V>)
    ensures Valid(d) && d.m == map[]
  {
    Dict(map[], [])
  }

  /** `d[k] = v` */
  function Put<K, V>(d: Dict<K, V>, k: K, v: V): (r: Dict<K, V>)
    ensures r.m == d.m[k := v]
    ensures r.keys == if k in d.m then d.keys else d.keys + [k]
  {
    Dict(d.m[k := v], if k in d.m then d.keys else d.keys + [k])
  }

  /** Assignment keeps the key order a faithful listing of the keys. */
  lemma PutValid<K(!new), V>(d: Dict<K, V>, k: K, v: V)
    requires Valid(d)
    ensures Valid(Put(d, k, v))
  {
  }

  /** `dict(pairs)`: the pairs assigned in order, so a later pair overrides an earlier one. */
  function FromPairs<K(!new), V>(pairs: seq<(K, V)>): (r: Dict<K, V>)
    ensures Valid(r)
    decreases |pairs|
  {
    if |pairs| == 0 then Empty()
    else
      var d := FromPairs(pairs[..|pairs| - 1]);
      var (k, v) := pairs[|pairs| - 1];
      PutValid(d, k, v);
      Put(d, k, v)
  }

  /** Pairs with distinct keys give a dictionary listing them in order, each with its value. */
  lemma {:induction false} FromPairsDistinct<K(!new), V>(pairs: seq<(K, V)>)
    requires forall i, j :: 0 <= i < j < |pairs| ==> pairs[i].0 != pairs[j].0
    ensures var r := FromPairs(pairs);
      && |r.keys| == |pairs|
      && forall i :: 0 <= i < |pairs| ==> r.keys[i] == pairs[i].0 && r.m[pairs[i].0] == pairs[i].1
    decreases |pairs|
  {
    if |pairs| > 0 {
      FromPairsDistinct(pairs[..|pairs| - 1]);
    }
  }

  /** Pairs keyed by a list of distinct names give a dictionary with those keys, in that order. */
  lemma FromPairsNamed<K(!new), V>(pairs: seq<(K, V)>, names: seq<K>)
    requires |pairs| == |names| && forall i :: 0 <= i < |pairs| ==> pairs[i].0 == names[i]
    requires forall i, j :: 0 <= i < j < |names| ==> names[i] != names[j]
    ensures FromPairs(pairs).keys == names
    ensures forall i :: 0 <= i < |pairs| ==> pairs[i].0 in FromPairs(pairs).m && FromPairs(pairs).m[pairs[i].0] == pairs[i].1
  {
    FromPairsDistinct(pairs);
  }

  /** `d.setdefault(k, []).append(v)`, the idiom the source writes out by hand. */
  function Append<K, V>(d: Dict<K, seq<V>>, k: K, v: V): (r: Dict<K, seq<V>>)
    ensures r.m == d.m[k := (if k in d.m then d.m[k] else []) + [v]]
  {
    Put(d, k, (if k in d.m then d.m[k] else []) + [v])
  }

  /** A well-formed dictionary has as many entries as its key order has keys. */
  lemma {:induction false} ValidSize<K(!new), V>(d: Dict<K, V>)
    requires Valid(d)
    ensures |d.m| == |d.keys|
  {
    DistinctCard(d.keys);
    assert d.m.Keys == set k | k in d.keys;
  }

  /** A sequence without repetitions has as many distinct elements as positions. */
  lemma {:induction false} DistinctCard<T>(s: seq<T>)
    requires forall i, j :: 0 <= i < j < |s| ==> s[i] != s[j]
    ensures |set x | x in s| == |s|
  {
    if |s| > 0 {
      var t := s[..|s| - 1];
      DistinctCard(t);
      assert (set x | x in s) == (set x | x in t) + {s[|s| - 1]};
      assert s[|s| - 1] !in (set x | x in t);
    }
  }

  /** The values of `pairs` whose key is `k`, in order. */
  function Select<K(==), V>(pairs: seq<(K, V)>, k: K): seq<V>
  {
    if |pairs| == 0 then []
    else (if pairs[0].0 == k then [pairs[0].1] else []) + Select(pairs[1..], k)
  }

  /** Appends every pair in order, as a `for` loop over `pairs` calling `Append` would. */
  function AppendAll<K(!new), V>(d: Dict<K, seq<V>>, pairs: seq<(K, V)>): (r: Dict<K, seq<V>>)
    requires Valid(d)
    ensures Valid(r)
    decreases |pairs|
  {
    if |pairs| == 0 then d
    else
      PutValid(d, pairs[0].0, (if pairs[0].0 in d.m then d.m[pairs[0].0] else []) + [pairs[0].1]);
      AppendAll(Append(d, pairs[0].0, pairs[0].1), pairs[1..])
  }

  lemma SelectAppend<K, V>(a: seq<(K, V)>, b: seq<(K, V)>, k: K)
    ensures Select(a + b, k) == Select(a, k) + Select(b, k)
  {
    if |a| > 0 {
      assert (a + b)[1..] == a[1..] + b;
      SelectAppend(a[1..], b, k);
    } else {
      assert a + b == b;
    }
  }

  /**
   * Grouping by appending: after `AppendAll`, every key's list is its old list followed by
   * exactly the values paired with it, in order, and a key is present iff it was present
   * before or some pair carries it.
   */
  lemma {:induction false} AppendAllGroups<K(!new), V>(d: Dict<K, seq<V>>, pairs: seq<(K, V)>, k: K)
    requires Valid(d)
    ensures k in AppendAll(d, pairs).m <==> k in d.m || Select(pairs, k) != []
    ensures k in AppendAll(d, pairs).m ==>
      AppendAll(d, pairs).m[k] == (if k in d.m then d.m[k] else []) + Select(pairs, k)
    decreases |pairs|
  {
    if |pairs| > 0 {
      var d' := Append(d, pairs[0].0, pairs[0].1);
      PutValid(d, pairs[0].0, (if pairs[0].0 in d.m then d.m[pairs[0].0] else []) + [pairs[0].1]);
      AppendAllGroups(d', pairs[1..], k);
      AppendStep(d, pairs[0].0, pairs[0].1, k);
      var head: seq<V> := if pairs[0].0 == k then [pairs[0].1] else [];
      var old_: seq<V> := if k in d.m then d.m[k] else [];
      assert Select(pairs, k) == head + Select(pairs[1..], k);
      assert AppendAll(d, pairs) == AppendAll(d', pairs[1..]);
      if k in AppendAll(d, pairs).m {
        calc {
          AppendAll(d, pairs).m[k];
          (if k in d'.m then d'.m[k] else []) + Select(pairs[1..], k);
          (old_ + head) + Select(pairs[1..], k);
          { ConcatAssoc(old_, head, Select(pairs[1..], k)); }
          old_ + (head + Select(pairs[1..], k));
        }
      }
    }
  }

  lemma ConcatAssoc<T>(a: seq<T>, b: seq<T>, c: seq<T>)
    ensures (a + b) + c == a + (b + c)
  {
  }

  /** One step of `AppendAllGroups`, seen from a single key. */
  lemma AppendStep<K(!new), V>(d: Dict<K, seq<V>>, k0: K, v: V, k: K)
    requires Valid(d)
    ensures var d' := Append(d, k0, v);
      && (k in d'.m <==> k in d.m || k0 == k)
      && (k in d'.m ==> d'.m[k] == (if k in d.m then d.m[k] else []) + (if k0 == k then [v] else []))
  {
  }

  /** A grouped list is never empty: `Append` creates a key only together with a value. */
  lemma {:induction false} AppendAllNonEmpty<K(!new), V>(d: Dict<K, seq<V>>, pairs: seq<(K, V)>, k: K)
    requires Valid(d)
    requires forall k' :: k' in d.m ==> d.m[k'] != []
    requires k in AppendAll(d, pairs).m
    ensures AppendAll(d, pairs).m[k] != []
  {
    AppendAllGroups(d, pairs, k);
  }

  /**
   * A dict comprehension over `d.items()` written as a loop: `out[kf(k)] = vf(v)` for every key
   * from position `i` on, into `acc`. Keys that `kf` sends to the same place collide; the later
   * one wins.
   */
  function RekeyFrom<K(!new), V, K2(!new), V2>(d: Dict<K, V>, kf: K -> K2, vf: V -> V2, i: nat, acc: Dict<K2, V2>)
    : (r: Dict<K2, V2>)
    requires Valid(d) && Valid(acc) && i <= |d.keys|
    ensures Valid(r)
    decreases |d.keys| - i
  {
    if i == |d.keys| then acc
    else
      var k := d.keys[i];
      PutValid(acc, kf(k), vf(d.m[k]));
      RekeyFrom(d, kf, vf, i + 1, Put(acc, kf(k), vf(d.m[k])))
  }

  function Rekey<K(!new), V, K2(!new), V2>(d: Dict<K, V>, kf: K -> K2, vf: V -> V2): (r: Dict<K2, V2>)
    requires Valid(d)
    ensures Valid(r)
  {
    RekeyFrom(d, kf, vf, 0, Empty())
  }

  /** Position `i` holds the last key of `d` that `kf` sends to `k2`. */
  ghost predicate LastWith<K, V, K2>(d: Dict<K, V>, kf: K -> K2, k2: K2, i: int) {
    0 <= i < |d.keys| && kf(d.keys[i]) == k2 && forall j :: i < j < |d.keys| ==> kf(d.keys[j]) != k2
  }

  lemma {:induction false} RekeyFromSpec<K(!new), V, K2(!new), V2>(
    d: Dict<K, V>, kf: K -> K2, vf: V -> V2, i: nat, acc: Dict<K2, V2>, k2: K2)
    requires Valid(d) && Valid(acc) && i <= |d.keys|
    ensures var r := RekeyFrom(d, kf, vf, i, acc);
      && (k2 in r.m <==> k2 in acc.m || exists j :: i <= j < |d.keys| && kf(d.keys[j]) == k2)
      && (forall j :: i <= j && LastWith(d, kf, k2, j) ==> r.m[k2] == vf(d.m[d.keys[j]]))
      && ((forall j :: i <= j < |d.keys| ==> kf(d.keys[j]) != k2) && k2 in acc.m ==> r.m[k2] == acc.m[k2])
    decreases |d.keys| - i
  {
    if i < |d.keys| {
      var k := d.keys[i];
      var acc' := Put(acc, kf(k), vf(d.m[k]));
      PutValid(acc, kf(k), vf(d.m[k]));
      RekeyFromSpec(d, kf, vf, i + 1, acc', k2);
    }
  }

  /** Every value written comes from the accumulator or from a key sent to it. */
  lemma {:induction false} RekeyFromSource<K(!new), V, K2(!new), V2>(
    d: Dict<K, V>, kf: K -> K2, vf: V -> V2, i: nat, acc: Dict<K2, V2>, k2: K2)
    requires Valid(d) && Valid(acc) && i <= |d.keys|
    ensures var r := RekeyFrom(d, kf, vf, i, acc);
      k2 in r.m ==>
        || (k2 in acc.m && r.m[k2] == acc.m[k2])
        || exists j :: i <= j < |d.keys| && kf(d.keys[j]) == k2 && r.m[k2] == vf(d.m[d.keys[j]])
    decreases |d.keys| - i
  {
    if i < |d.keys| {
      var k := d.keys[i];
      var acc' := Put(acc, kf(k), vf(d.m[k]));
      PutValid(acc, kf(k), vf(d.m[k]));
      RekeyFromSource(d, kf, vf, i + 1, acc', k2);
      var r := RekeyFrom(d, kf, vf, i, acc);
      assert r == RekeyFrom(d, kf, vf, i + 1, acc');
      if k2 in r.m && k2 in acc'.m && r.m[k2] == acc'.m[k2] && kf(k) == k2 {
        assert r.m[k2] == vf(d.m[d.keys[i]]);
      }
    }
  }

  /**
   * After the loop, `k2` is a key iff some key of `d` is sent to it, and its value comes from
   * the last such key.
   */
  lemma RekeySpec<K(!new), V, K2(!new), V2>(d: Dict<K, V>, kf: K -> K2, vf: V -> V2, k2: K2)
    requires Valid(d)
    ensures k2 in Rekey(d, kf, vf).m <==> exists j :: 0 <= j < |d.keys| && kf(d.keys[j]) == k2
    ensures forall j :: LastWith(d, kf, k2, j) ==> Rekey(d, kf, vf).m[k2] == vf(d.m[d.keys[j]])
    ensures k2 in Rekey(d, kf, vf).m ==>
      exists j :: 0 <= j < |d.keys| && kf(d.keys[j]) == k2 && Rekey(d, kf, vf).m[k2] == vf(d.m[d.keys[j]])
  {
    RekeyFromSpec(d, kf, vf, 0, Empty(), k2);
    RekeyFromSource(d, kf, vf, 0, Empty(), k2);
  }

  /** Appending the pairs of `a + b` is appending those of `a`, then those of `b`. */
  lemma {:induction false} AppendAllConcat<K(!new), V>(d: Dict<K, seq<V>>, a: seq<(K, V)>, b: seq<(K, V)>)
    requires Valid(d)
    ensures AppendAll(d, a + b) == AppendAll(AppendAll(d, a), b)
    decreases |a|
  {
    if |a| == 0 {
      assert a + b == b;
    } else {
      PutValid(d, a[0].0, (if a[0].0 in d.m then d.m[a[0].0] else []) + [a[0].1]);
      assert (a + b)[0] == a[0];
      assert (a + b)[1..] == a[1..] + b;
      AppendAllConcat(Append(d, a[0].0, a[0].1), a[1..], b);
    }
  }

  /** Every selected value is paired with the key somewhere in the list. */
  lemma SelectMember<K, V>(pairs: seq<(K, V)>, k: K, v: V)
    requires v in Select(pairs, k)
    ensures exists i :: 0 <= i < |pairs| && pairs[i] == (k, v)
  {
    if pairs[0].0 == k && pairs[0].1 == v {
      assert pairs[0] == (k, v);
    } else {
      SelectMember(pairs[1..], k, v);
      var i :| 0 <= i < |pairs[1..]| && pairs[1..][i] == (k, v);
      assert pairs[i + 1] == (k, v);
    }
  }
}

=== FILE: extraction.dfy ===
/**
 * The extractor's image side (kiosk-factory/layer_extractor.py): the post-processing of one
 * layer image, the three-strategy chain of `extract_layer_image`, and the counting and dry-run
 * logic of `extract_all_layers`. Pixel buffers and the imaging library are outside the model:
 * an image is known by its size, its mode and the largest alpha value of its RGBA form, and the
 * library's answers arrive as the functions of a `Library`.
 */
module Extraction {
  import opened Wrappers
  import opened LayerTree
  import opened LayerStore
  import opened Visibility
  import LayerExtractor

  /** A raster: its size, whether its mode is RGBA, and the largest alpha of its RGBA conversion. */
  datatype Image = Image(width: int, height: int, isRgba: bool, alphaMax: nat)

  /**
   * What the imaging library answers, per pixel layer (named by its path): the layer's own
   * composite and its `topil` conversion (`None` for no image or an exception), and the
   * composite of the whole document in a given visibility state, cropped to a box.
   */
  datatype Library = Library(
    composite: Path -> Option<Image>,
    topil: Path -> Option<Image>,
    renderCrop: (seq<Node>, BBox) -> Option<Image>)

  /** `_process_layer_image`: converts to RGBA and refuses a completely transparent image. */
  function ProcessLayerImage(img: Image): Option<Image> {
    var rgba := img.(isRgba := true);
    if rgba.alphaMax == 0 then None else Some(rgba)
  }

  /** The test methods 1 and 2 apply: a non-empty RGBA image with some opaque pixel. */
  predicate Usable(o: Option<Image>) {
    o.Some? && o.value.width > 0 && o.value.height > 0 && o.value.isRgba && o.value.alphaMax > 0
  }

  /** Method 3 crops only to a box of positive width and height. */
  predicate CroppableBox(b: Option<BBox>) {
    b.Some? && b.value.right > b.value.left && b.value.bottom > b.value.top
  }

  /** The writes that show the target layer and the group directly holding it. */
  function ShowFlags(target: Path, parentPath: Option<Path>): Flags {
    map[target := true] + (if parentPath.Some? then map[parentPath.value := true] else map[])
  }

  /** The tree as method 3 renders it: all hidden, then the target and its direct parent shown. */
  function ShownForCrop(ns: seq<Node>, l: Leaf): seq<Node> {
    var (hidden, _) := HideAll(ns, l.path);
    ApplyAll(hidden, [], ShowFlags(l.path, l.parentPath))
  }

  /**
   * Method 3: hide everything but the target, show the target and its direct parent group,
   * render and crop to the target's box, then restore the saved states (the `finally` block).
   * Returns the image, if any, and the tree as it is left.
   */
  function HideAndCrop(ns: seq<Node>, l: Leaf, render: (seq<Node>, BBox) -> Option<Image>): (Option<Image>, seq<Node>) {
    var (_, states) := HideAll(ns, l.path);
    var shown := ShownForCrop(ns, l);
    var image :=
      if !CroppableBox(l.bbox) then None
      else match render(shown, l.bbox.value)
        case None => None
        case Some(img) => if img.width > 0 && img.height > 0 then ProcessLayerImage(img) else None;
    (image, Restore(shown, states))
  }

  datatype Strategy = Composite | ToPil | CropFromDocument

  /** The outcome of `extract_layer_image`: the image, the strategy that produced it, the tree after. */
  datatype Extracted = Extracted(image: Option<Image>, strategy: Option<Strategy>, layers: seq<Node>)

  /** `extract_layer_image`: the first strategy that yields a usable image wins. */
  function ExtractLayerImage(ns: seq<Node>, l: Leaf, lib: Library): Extracted {
    var first := lib.composite(l.path);
    var second := lib.topil(l.path);
    if Usable(first) then Extracted(ProcessLayerImage(first.value), Some(Composite), ns)
    else if Usable(second) then Extracted(ProcessLayerImage(second.value), Some(ToPil), ns)
    else
      var (image, after) := HideAndCrop(ns, l, lib.renderCrop);
      Extracted(image, if image.Some? then Some(CropFromDocument) else None, after)
  }

  // ---------------------------------------------------------------- properties of one extraction

  /** A processed image is RGBA, keeps its size, and is refused exactly when fully transparent. */
  lemma ProcessLayerImageSpec(img: Image)
    ensures var r := ProcessLayerImage(img);
      && (r.Some? <==> img.alphaMax > 0)
      && (r.Some? ==> r.value.isRgba && r.value.alphaMax == img.alphaMax)
      && (r.Some? ==> r.value.width == img.width && r.value.height == img.height)
  {
  }

  /**
   * The strategies are tried in order and the first usable answer is taken: the layer's own
   * composite, else `topil`, else the document crop, which runs exactly when neither of the first
   * two is usable. Whatever comes back is an RGBA image with some opaque pixel, and the first two
   * strategies leave the tree untouched.
   */
  lemma ExtractLayerImageOrder(ns: seq<Node>, l: Leaf, lib: Library)
    ensures var r := ExtractLayerImage(ns, l, lib);
      && (r.image.Some? ==> r.image.value.isRgba && r.image.value.alphaMax > 0)
      && (r.image.Some? <==> r.strategy.Some?)
      && (r.strategy == Some(Composite) <==> Usable(lib.composite(l.path)))
      && (r.strategy == Some(Composite) ==> r.image == lib.composite(l.path))
      && (r.strategy == Some(ToPil) <==> !Usable(lib.composite(l.path)) && Usable(lib.topil(l.path)))
      && (r.strategy == Some(ToPil) ==> r.image == lib.topil(l.path))
      && (r.strategy == Some(CropFromDocument) ==> CroppableBox(l.bbox))
      && (r.strategy != Some(CropFromDocument) && r.strategy.Some? ==> r.layers == ns)
      && (!Usable(lib.composite(l.path)) && !Usable(lib.topil(l.path)) ==>
            (r.image, r.layers) == HideAndCrop(ns, l, lib.renderCrop))
  {
  }

  /**
   * When neither the layer's composite nor `topil` is usable, method 3 runs: its image is the
   * answer, and the tree comes back as before except that the target layer is now visible.
   */
  lemma ExtractFallsBackToCrop(ns: seq<Node>, l: Leaf, lib: Library)
    requires Located(ns, l)
    requires !Usable(lib.composite(l.path)) && !Usable(lib.topil(l.path))
    ensures var r := ExtractLayerImage(ns, l, lib);
      && r.image == HideAndCrop(ns, l, lib.renderCrop).0
      && (r.strategy == Some(CropFromDocument) <==> r.image.Some?)
      && r.layers == ApplyAll(ns, [], map[l.path := true])
  {
    HideAndCropRestores(ns, l, lib.renderCrop);
  }

  /** A layer without a box of positive extent cannot be cropped: method 3 yields nothing. */
  lemma HideAndCropNeedsBox(ns: seq<Node>, l: Leaf, render: (seq<Node>, BBox) -> Option<Image>)
    requires !CroppableBox(l.bbox)
    ensures HideAndCrop(ns, l, render).0 == None
  {
  }

  /** The target is a pixel layer of the tree and its parent path, if any, leads to a group. */
  predicate Located(ns: seq<Node>, l: Leaf) {
    && NodeAt(ns, l.path).Some? && NodeAt(ns, l.path).value.Pixel?
    && (l.parentPath.Some? ==> NodeAt(ns, l.parentPath.value).Some? && NodeAt(ns, l.parentPath.value).value.Group?)
  }

  /**
   * What method 3 renders: every group but the target's direct parent and every pixel layer but
   * the target is hidden; those two are shown; other kinds of layer keep their flag.
   */
  lemma ShownForCropSpec(ns: seq<Node>, l: Leaf, q: Path)
    requires Located(ns, l)
    requires NodeAt(ns, q).Some?
    ensures NodeAt(ShownForCrop(ns, l), q).Some?
    ensures NodeAt(ShownForCrop(ns, l), q).value.visible ==
      (q == l.path || Some(q) == l.parentPath || (NodeAt(ns, q).value.Other? && NodeAt(ns, q).value.visible))
  {
    var hidden := HideAll(ns, l.path).0;
    var showWrites := ShowFlags(l.path, l.parentPath);
    HideAllSpec(ns, l.path, q);
    NodeAtApply(hidden, [], showWrites, q);
    assert [] + q == q;
  }

  /**
   * After method 3 the tree is as before except that the target layer is now visible: it is
   * excluded from the saved states, so the restore does not hide it again.
   */
  lemma HideAndCropRestores(ns: seq<Node>, l: Leaf, render: (seq<Node>, BBox) -> Option<Image>)
    requires Located(ns, l)
    ensures HideAndCrop(ns, l, render).1 == ApplyAll(ns, [], map[l.path := true])
  {
    var states := Record(ns, l.path);
    HideAndCropLeaves(ns, l, render, states);
    WritesCancel(ns, l, states);
  }

  /** The tree method 3 leaves: hidden, shown, then restored. */
  lemma HideAndCropLeaves(ns: seq<Node>, l: Leaf, render: (seq<Node>, BBox) -> Option<Image>, states: Flags)
    requires states == Record(ns, l.path)
    ensures HideAndCrop(ns, l, render).1 ==
      ApplyAll(ApplyAll(ApplyAll(ns, [], HideFlags(states)), [], ShowFlags(l.path, l.parentPath)), [], states)
  {
  }

  /** Hiding, showing the target and its parent, and restoring the saved states shows just the target. */
  lemma WritesCancel(ns: seq<Node>, l: Leaf, states: Flags)
    requires Located(ns, l) && states == Record(ns, l.path)
    ensures ApplyAll(ApplyAll(ApplyAll(ns, [], HideFlags(states)), [], ShowFlags(l.path, l.parentPath)), [], states)
      == ApplyAll(ns, [], map[l.path := true])
  {
    var hideWrites := HideFlags(states);
    var showWrites := ShowFlags(l.path, l.parentPath);
    var target: Flags := map[l.path := true];
    RecordSpec(ns, l.path, l.path);
    if l.parentPath.Some? {
      RecordSpec(ns, l.path, l.parentPath.value);
    }
    FlagsCancel(states, l.path, l.parentPath);
    ApplyAllCompose(ns, [], hideWrites, showWrites);
    ApplyAllCompose(ns, [], hideWrites + showWrites, states);
    ApplyAllCompose(ns, [], states, target);
    RecordAgrees(ns, l.path);
    ApplyAllIdentity(ns, [], states);
  }

  /**
   * Hiding every saved node, showing the target and its parent, then writing the saved states
   * back amounts to the saved states plus the target shown, when the target was not saved and
   * its parent was.
   */
  lemma FlagsCancel(states: Flags, target: Path, parentPath: Option<Path>)
    requires target !in states
    requires parentPath.Some? ==> parentPath.value in states
    ensures (HideFlags(states) + ShowFlags(target, parentPath)) + states == states + map[target := true]
  {
    var lhs := (HideFlags(states) + ShowFlags(target, parentPath)) + states;
    var rhs := states + map[target := true];
    assert lhs.Keys == rhs.Keys;
    forall p | p in lhs ensures lhs[p] == rhs[p] {
      if p in states {
        assert lhs[p] == states[p];
      }
    }
  }

  // ---------------------------------------------------------------- extract_all_layers

  /** The counters and the written fragments of an extraction run, and the tree as it is left. */
  datatype Run = Run(layers: seq<Node>, extracted: nat, failed: nat, written: seq<(string, Image)>)

  /**
   * One pixel layer of `extract_layer_recursive`: a layer with an entry is extracted and its
   * image saved to the entry's file; a missing image or a failed save counts as a failure.
   * `saves` says whether writing a file succeeds.
   */
  function ExtractStep(md: Metadata, run: Run, l: Leaf, lib: Library, saves: (string, Image) -> bool): Run {
    var clean := LayerExtractor.CleanOf(l);
    if clean !in md.layers.m then run
    else
      var file := md.layers.m[clean].file;
      var e := ExtractLayerImage(run.layers, l, lib);
      match e.image
      case None => run.(layers := e.layers, failed := run.failed + 1)
      case Some(img) =>
        if saves(file, img) then run.(layers := e.layers, extracted := run.extracted + 1, written := run.written + [(file, img)])
        else run.(layers := e.layers, failed := run.failed + 1)
  }

  /** The extraction walk visits the pixel layers in the analysis order. */
  function ExtractLeaves(md: Metadata, run: Run, ls: seq<Leaf>, lib: Library, saves: (string, Image) -> bool): Run
    decreases |ls|
  {
    if |ls| == 0 then run else ExtractLeaves(md, ExtractStep(md, run, ls[0], lib, saves), ls[1..], lib, saves)
  }

  datatype Outcome =
    | LoadFailed
    | DryRunDone(info: LayerExtractor.DryRunInfo)
    | Finished(info: LayerExtractor.DryRunInfo, run: Run)

  /**
   * `extract_all_layers`. `loaded` is the parsed document, or `None` when the file is missing or
   * unreadable. A dry run stops after the analysis, before any directory or file is made.
   */
  function ExtractAll(loaded: Option<Document>, dryRun: bool, lib: Library, saves: (string, Image) -> bool): Outcome {
    match loaded
    case None => LoadFailed
    case Some(doc) =>
      var md := LayerExtractor.Analyze(doc);
      var info := LayerExtractor.DryRunInfoOf(md);
      if dryRun then DryRunDone(info)
      else Finished(info, ExtractLeaves(md, Run(doc.layers, 0, 0, []), Leaves(doc), lib, saves))
  }

  /** The files named by the store's entries. */
  function Files(md: Metadata): set<string> {
    set k | k in md.layers.m :: md.layers.m[k].file
  }

  /** What a run has written so far: one write per extracted layer, each to a named file. */
  ghost predicate WrittenOk(md: Metadata, run: Run) {
    && |run.written| == run.extracted
    && forall i :: 0 <= i < |run.written| ==> run.written[i].0 in Files(md) && run.written[i].1.alphaMax > 0
  }

  /** One layer with an entry adds one to exactly one counter, and keeps the writes in order. */
  lemma ExtractStepCounts(md: Metadata, run: Run, l: Leaf, lib: Library, saves: (string, Image) -> bool)
    requires LayerExtractor.CleanOf(l) in md.layers.m
    requires WrittenOk(md, run)
    ensures var next := ExtractStep(md, run, l, lib, saves);
      && next.extracted + next.failed == run.extracted + run.failed + 1
      && WrittenOk(md, next)
  {
    var clean := LayerExtractor.CleanOf(l);
    assert md.layers.m[clean].file in Files(md);
    ExtractLayerImageOrder(run.layers, l, lib);
  }

  /** Counting along the walk, when every layer visited has an entry. */
  lemma {:induction false} ExtractLeavesCounts(md: Metadata, run: Run, ls: seq<Leaf>, lib: Library, saves: (string, Image) -> bool)
    requires forall i :: 0 <= i < |ls| ==> LayerExtractor.CleanOf(ls[i]) in md.layers.m
    requires WrittenOk(md, run)
    ensures var r := ExtractLeaves(md, run, ls, lib, saves);
      && r.extracted + r.failed == run.extracted + run.failed + |ls|
      && WrittenOk(md, r)
    decreases |ls|
  {
    if |ls| > 0 {
      ExtractStepCounts(md, run, ls[0], lib, saves);
      var next := ExtractStep(md, run, ls[0], lib, saves);
      forall i | 0 <= i < |ls[1..]| ensures LayerExtractor.CleanOf(ls[1..][i]) in md.layers.m {
        assert ls[1..][i] == ls[i + 1];
      }
      ExtractLeavesCounts(md, next, ls[1..], lib, saves);
    }
  }

  /**
   * A full run: every pixel layer is counted once, as extracted or as failed; there is one
   * write per extracted layer, each to a path the store names, each holding an image with some
   * opaque pixel. Layers sharing an identifier write to the same path.
   */
  lemma ExtractAllCounts(doc: Document, lib: Library, saves: (string, Image) -> bool)
    ensures var r := ExtractAll(Some(doc), false, lib, saves);
      && r.Finished?
      && r.info == LayerExtractor.DryRunInfoOf(LayerExtractor.Analyze(doc))
      && r.run.extracted + r.run.failed == |Leaves(doc)|
      && |r.run.written| == r.run.extracted
      && (forall i :: 0 <= i < |r.run.written| ==>
            r.run.written[i].0 in Files(LayerExtractor.Analyze(doc)) && r.run.written[i].1.alphaMax > 0)
  {
    var md := LayerExtractor.Analyze(doc);
    var ls := Leaves(doc);
    LayerExtractor.AnalyzeOrder(doc);
    LayerExtractor.AnalyzeReferential(doc);
    assert forall i :: 0 <= i < |ls| ==> LayerExtractor.CleanOf(ls[i]) in md.layers.m by {
      forall i | 0 <= i < |ls| ensures LayerExtractor.CleanOf(ls[i]) in md.layers.m {
        assert md.compositionOrder[i] == LayerExtractor.CleanOf(ls[i]);
      }
    }
    ExtractLeavesCounts(md, Run(doc.layers, 0, 0, []), ls, lib, saves);
  }

  /**
   * A dry run returns the preview and nothing else; a document that could not be loaded gives
   * the failure outcome, dry run or not.
   */
  lemma ExtractAllDryRun(loaded: Option<Document>, dryRun: bool, lib: Library, saves: (string, Image) -> bool)
    ensures loaded.None? <==> ExtractAll(loaded, dryRun, lib, saves).LoadFailed?
    ensures loaded.Some? && dryRun ==>
      ExtractAll(loaded, dryRun, lib, saves) == DryRunDone(LayerExtractor.DryRunInfoOf(LayerExtractor.Analyze(loaded.value)))
  {
  }
}

=== FILE: layer_extractor.dfy ===
/**
 * The offline extractor's metadata pass (`ZundamonLayerExtractor` in
 * kiosk-factory/layer_extractor.py): layer identifiers, fragment paths and the depth-first
 * analysis that builds the layer store. The recursive walk is modelled as written
 * (`VisitNode`/`VisitFrom`) and shown equal to a fold over the flattened pixel layers, which is
 * where its properties are proved.
 */
module LayerExtractor {
  import opened Wrappers
  import opened Text
  import Dicts
  import opened LayerTree
  import opened LayerStore

  // ---------------------------------------------------------------- identifiers and paths

  /** The replace chain of `_generate_clean_name`, applied to a name already stripped of markers. */
  function Punctuated(s: string): string {
    var noParens := Remove(s, {'(', ')'});
    var underscored := Subst(Subst(Subst(noParens, ' ', '_'), '・', '_'), '、', '_');
    Remove(underscored, {'。'})
  }

  /** A layer name with its markers stripped and its punctuation normalised, before any prefix. */
  function Body(layerName: string): string {
    Punctuated(LStrip(layerName, Markers))
  }

  /** What one character of a stripped name becomes in the body. */
  function NormalChar(c: char): string {
    if c == '(' || c == ')' || c == '。' then ""
    else if c == ' ' || c == '・' || c == '、' then "_"
    else [c]
  }

  /** A name normalised character by character, in order. */
  function Normalised(s: string): string
    decreases |s|
  {
    if |s| == 0 then "" else NormalChar(s[0]) + Normalised(s[1..])
  }

  /** The replace chain splits over concatenation. */
  lemma PunctuatedConcat(a: string, b: string)
    ensures Punctuated(a + b) == Punctuated(a) + Punctuated(b)
  {
    var pa, pb := Remove(a, {'(', ')'}), Remove(b, {'(', ')'});
    RemoveConcat(a, b, {'(', ')'});
    SubstConcat(pa, pb, ' ', '_');
    var sa, sb := Subst(pa, ' ', '_'), Subst(pb, ' ', '_');
    SubstConcat(sa, sb, '・', '_');
    var ta, tb := Subst(sa, '・', '_'), Subst(sb, '・', '_');
    SubstConcat(ta, tb, '、', '_');
    RemoveConcat(Subst(ta, '、', '_'), Subst(tb, '、', '_'), {'。'});
  }

  /** The replace chain on a single character. */
  lemma PunctuatedChar(c: char)
    ensures Punctuated([c]) == NormalChar(c)
  {
    var p := Remove([c], {'(', ')'});
    assert Remove([c][1..], {'(', ')'}) == [];
    assert p == if c in {'(', ')'} then [] else [c];
    var u := Subst(Subst(Subst(p, ' ', '_'), '・', '_'), '、', '_');
    assert u == if c in {'(', ')'} then [] else if c == ' ' || c == '・' || c == '、' then ['_'] else [c];
    if |u| == 1 {
      assert Remove(u[1..], {'。'}) == [];
    }
  }

  /**
   * The body character by character: after the leading markers are stripped, a space, middle
   * dot or ideographic comma becomes `_`, a bracket or ideographic full stop is dropped, and
   * every other character is kept, in order.
   */
  lemma BodyNormalises(layerName: string)
    ensures Body(layerName) == Normalised(LStrip(layerName, Markers))
  {
    PunctuatedIsNormalised(LStrip(layerName, Markers));
  }

  /** Markers after a dropped bracket are not stripped: `*(*a` has the body `*a`. */
  lemma BodyKeepsLaterMarker(m: char, rest: string)
    requires m in Markers
    ensures Body([m, '(', m] + rest) == [m] + Normalised(rest)
  {
    var s := [m, '(', m] + rest;
    var t := ['(', m] + rest;
    StripOneMarker(s, t);
    BodyNormalises(s);
    NormalisedBracketMarker(m, rest, t);
  }

  lemma StripOneMarker(s: string, t: string)
    requires |s| > 0 && s[0] in Markers && s[1..] == t && |t| > 0 && t[0] == '('
    ensures LStrip(s, Markers) == t
  {
    LStripNone(t, Markers);
  }

  lemma NormalisedBracketMarker(m: char, rest: string, t: string)
    requires m in Markers && t == ['(', m] + rest
    ensures Normalised(t) == [m] + Normalised(rest)
  {
    assert t[1..] == [m] + rest && t[1..][1..] == rest;
    assert Normalised(t) == NormalChar('(') + Normalised(t[1..]);
    assert Normalised(t[1..]) == NormalChar(m) + Normalised(rest);
  }

  lemma {:induction false} PunctuatedIsNormalised(s: string)
    ensures Punctuated(s) == Normalised(s)
    decreases |s|
  {
    if |s| == 0 {
      assert Remove(s, {'(', ')'}) == [];
    } else {
      assert s == [s[0]] + s[1..];
      PunctuatedConcat([s[0]], s[1..]);
      PunctuatedChar(s[0]);
      PunctuatedIsNormalised(s[1..]);
    }
  }

  /** Characters that never survive into a body. */
  const Dropped: set<char> := {'(', ')', '。', ' ', '・', '、'}

  lemma BodyCharacters(layerName: string)
    ensures Avoids(Body(layerName), Dropped)
  {
    var stripped := LStrip(layerName, Markers);
    var s1 := Remove(stripped, {'(', ')'});
    var s2 := Subst(s1, ' ', '_');
    var s3 := Subst(s2, '・', '_');
    var s4 := Subst(s3, '、', '_');
    RemoveAvoids(stripped, {'(', ')'}, {});
    SubstAvoids(s1, ' ', '_', {'(', ')'});
    SubstAvoids(s2, '・', '_', {'(', ')', ' '});
    SubstAvoids(s3, '、', '_', {'(', ')', ' ', '・'});
    RemoveAvoids(s4, {'。'}, {'(', ')', ' ', '・', '、'});
    AvoidsFewer(Remove(s4, {'。'}), {'(', ')', ' ', '・', '、', '。'}, Dropped);
  }

  /** A name without markers or punctuation is its own body. */
  lemma BodyOfPlainName(layerName: string)
    requires |layerName| > 0 ==> layerName[0] !in Markers
    requires forall i :: 0 <= i < |layerName| ==> layerName[i] !in Dropped
    ensures Body(layerName) == layerName
  {
    LStripNone(layerName, Markers);
    var noParens := Remove(layerName, {'(', ')'});
    assert noParens == layerName;
    assert Subst(layerName, ' ', '_') == layerName;
    assert Subst(layerName, '・', '_') == layerName;
    assert Subst(layerName, '、', '_') == layerName;
  }

  /** The directory-safe form of a group name: lower-cased, spaces to underscores. */
  function GroupDir(parentGroup: string): (r: string)
    ensures |r| == |parentGroup|
    ensures IsLowered(r)
    ensures forall i :: 0 <= i < |r| ==> r[i] != ' '
  {
    KeyForm(parentGroup)
  }

  /**
   * Whether the group prefix is added. The test compares the body as it is, before lower-casing,
   * with the lower-cased group name.
   */
  predicate Prefixed(layerName: string, parentGroup: string) {
    parentGroup != Root && !StartsWith(Body(layerName), Lower(parentGroup))
  }

  /** `_generate_clean_name` */
  function CleanName(layerName: string, parentGroup: string): string {
    var body := Body(layerName);
    Lower(if Prefixed(layerName, parentGroup) then GroupDir(parentGroup) + "_" + body else body)
  }

  /** The identifier spelled out: the lowered body, after the group prefix when one is added. */
  lemma CleanNameForm(layerName: string, parentGroup: string)
    ensures CleanName(layerName, parentGroup) ==
      if Prefixed(layerName, parentGroup) then GroupDir(parentGroup) + "_" + Lower(Body(layerName))
      else Lower(Body(layerName))
  {
    var pre := GroupDir(parentGroup) + "_";
    LowerConcat(pre, Body(layerName));
    LowerIsLowered(pre);
  }

  /** An identifier is lower-case and has no spaces. */
  lemma CleanNameCharacters(layerName: string, parentGroup: string)
    ensures IsLowered(CleanName(layerName, parentGroup))
    ensures Avoids(CleanName(layerName, parentGroup), {' '})
  {
    var body := Body(layerName);
    BodyCharacters(layerName);
    AvoidsFewer(body, Dropped, {' '});
    LowerAvoidsSpaces(body);
    LowerIsLowered(body);
    CleanNameForm(layerName, parentGroup);
    JoinCharacters(GroupDir(parentGroup), Lower(body), Prefixed(layerName, parentGroup), CleanName(layerName, parentGroup));
  }

  /** Joining lower-case, space-free parts with `_` gives a lower-case, space-free result. */
  lemma JoinCharacters(dir: string, lb: string, prefixed: bool, r: string)
    requires IsLowered(dir) && Avoids(dir, {' '}) && IsLowered(lb) && Avoids(lb, {' '})
    requires r == if prefixed then dir + "_" + lb else lb
    ensures IsLowered(r) && Avoids(r, {' '})
  {
    if prefixed {
      assert Avoids("_", {' '}) && IsLowered("_");
      AvoidsConcat(dir, "_", {' '});
      LoweredConcat(dir, "_");
      AvoidsConcat(dir + "_", lb, {' '});
      LoweredConcat(dir + "_", lb);
    }
  }

  /**
   * An identifier ends with the lowered body, which is the marker-stripped name normalised
   * character by character; it starts with the group's directory name and `_` exactly when the
   * prefix is added, which never happens at top level.
   */
  lemma CleanNameAffixes(layerName: string, parentGroup: string)
    ensures Body(layerName) == Normalised(LStrip(layerName, Markers))
    ensures var r := CleanName(layerName, parentGroup);
      && EndsWith(r, Lower(Body(layerName)))
      && (Prefixed(layerName, parentGroup) ==> StartsWith(r, GroupDir(parentGroup) + "_"))
      && (!Prefixed(layerName, parentGroup) ==> r == Lower(Body(layerName)))
      && (parentGroup == Root ==> r == Lower(Body(layerName)))
      && |r| == |Body(layerName)| + (if Prefixed(layerName, parentGroup) then |parentGroup| + 1 else 0)
  {
    BodyNormalises(layerName);
    var lb := Lower(Body(layerName));
    CleanNameForm(layerName, parentGroup);
    var r := CleanName(layerName, parentGroup);
    if Prefixed(layerName, parentGroup) {
      var pre := GroupDir(parentGroup) + "_";
      assert r == pre + lb;
      assert r[|r| - |lb|..] == lb;
      assert r[..|pre|] == pre;
    }
  }

  /**
   * The prefix test is case-sensitive on the layer's side: a layer `Eye` in group `Eye` gets the
   * prefix (its identifier becomes `eye_eye`) ...
   */
  lemma CapitalisedLayerIsPrefixed()
    ensures Prefixed("Eye", "Eye")
  {
    BodyOfPlainName("Eye");
    assert Lower("Eye")[0] == 'e';
    assert "Eye"[0] == 'E';
  }

  /** ... while a layer `eye` in the same group keeps its bare name. */
  lemma LowerCaseLayerIsNotPrefixed()
    ensures !Prefixed("eye", "Eye")
  {
    assert forall i :: 0 <= i < |"eye"| ==> "eye"[i] !in Dropped;
    BodyOfPlainName("eye");
    LowerEye();
  }

  lemma LowerEye()
    ensures Lower("Eye") == "eye"
  {
    var lowered := Lower("Eye");
    assert lowered[0] == 'e' && lowered[1] == 'y' && lowered[2] == 'e';
  }

  /** `_generate_file_path` */
  function FilePath(cleanName: string, parentGroup: string): string {
    if parentGroup == Root then "base/" + cleanName + ".png"
    else GroupDir(parentGroup) + "/" + cleanName + ".png"
  }

  /**
   * A fragment lives at `base/<id>.png` for a top-level layer and at `<group dir>/<id>.png`
   * otherwise; in particular every path ends in `.png`.
   */
  lemma FilePathSpec(cleanName: string, parentGroup: string)
    ensures var r := FilePath(cleanName, parentGroup);
      && EndsWith(r, cleanName + ".png")
      && EndsWith(r, ".png")
      && (parentGroup == Root ==> StartsWith(r, "base/"))
      && (parentGroup != Root ==> StartsWith(r, GroupDir(parentGroup) + "/"))
      && |r| == (if parentGroup == Root then 4 else |parentGroup|) + 1 + |cleanName| + 4
  {
    var r := FilePath(cleanName, parentGroup);
    var dir := if parentGroup == Root then "base" else GroupDir(parentGroup);
    assert r == (dir + "/") + (cleanName + ".png");
    assert r[|r| - 4..] == ".png";
  }

  // ---------------------------------------------------------------- one pixel layer

  predicate IsRadio(layerName: string) {
    StartsWith(layerName, "*")
  }

  predicate IsRequired(layerName: string) {
    StartsWith(layerName, "!")
  }

  function BBoxInfoOf(b: Option<BBox>): (r: Option<BBoxInfo>)
    ensures r.Some? <==> b.Some?
    ensures r.Some? ==> r.value.width == r.value.right - r.value.left
    ensures r.Some? ==> r.value.height == r.value.bottom - r.value.top
    ensures r.Some? ==> r.value.left == b.value.left && r.value.top == b.value.top
    ensures r.Some? ==> r.value.right == b.value.right && r.value.bottom == b.value.bottom
  {
    match b
    case None => None
    case Some(bb) => Some(BBoxInfo(bb.left, bb.top, bb.right, bb.bottom, bb.right - bb.left, bb.bottom - bb.top))
  }

  function CleanOf(l: Leaf): string {
    CleanName(l.name, l.parent)
  }

  /** The metadata record of a pixel layer met as the `z`-th leaf. */
  function LeafInfo(l: Leaf, z: nat): LayerInfo {
    LayerInfo(l.name, FilePath(CleanOf(l), l.parent), BBoxInfoOf(l.bbox), z, l.visible,
              IsRequired(l.name), l.parent, if IsRadio(l.name) then Some(l.parent) else None)
  }

  /** The walk's state: the `layers` and `radio_groups` dicts, `composition_order`, `z_index`. */
  datatype Acc = Acc(layers: Dicts.Dict<string, LayerInfo>, radioGroups: Dicts.Dict<string, seq<string>>,
                     order: seq<string>, z: nat)

  function EmptyAcc(): Acc {
    Acc(Dicts.Empty(), Dicts.Empty(), [], 0)
  }

  /** The pixel-layer branch of `process_layer`. */
  function AddPixel(acc: Acc, l: Leaf): Acc {
    var clean := CleanOf(l);
    var groups := if IsRadio(l.name) then Dicts.Append(acc.radioGroups, l.parent, clean) else acc.radioGroups;
    Acc(Dicts.Put(acc.layers, clean, LeafInfo(l, acc.z)), groups, acc.order + [clean], acc.z + 1)
  }

  // ---------------------------------------------------------------- the walk, as written

  /** `process_layer`: groups recurse under their stripped name, pixel layers are recorded. */
  function VisitNode(n: Node, parent: string, acc: Acc): Acc
    decreases n
  {
    match n
    case Group(name, _, children) => VisitFrom(children, 0, GroupContext(name), acc)
    case Pixel(name, visible, bbox) => AddPixel(acc, Leaf(name, visible, bbox, parent, [], None))
    case Other(_, _) => acc
  }

  function VisitFrom(ns: seq<Node>, i: nat, parent: string, acc: Acc): Acc
    requires i <= |ns|
    decreases ns, |ns| - i
  {
    if i == |ns| then acc else VisitFrom(ns, i + 1, parent, VisitNode(ns[i], parent, acc))
  }

  /** `analyze_layer_structure` followed by the `psd_info` of `load_psd`. */
  function Analyze(doc: Document): Metadata {
    var acc := VisitFrom(doc.layers, 0, Root, EmptyAcc());
    Metadata(Some(PsdInfo(doc.width, doc.height)), acc.layers, acc.radioGroups, acc.order)
  }

  // ---------------------------------------------------------------- the walk as a fold

  /** Records the pixel layers `ls` in order. */
  function AddLeaves(acc: Acc, ls: seq<Leaf>): Acc
    decreases |ls|
  {
    if |ls| == 0 then acc else AddPixel(AddLeaves(acc, ls[..|ls| - 1]), ls[|ls| - 1])
  }

  lemma {:induction false} AddLeavesAppend(acc: Acc, a: seq<Leaf>, b: seq<Leaf>)
    ensures AddLeaves(acc, a + b) == AddLeaves(AddLeaves(acc, a), b)
    decreases |b|
  {
    if |b| == 0 {
      assert a + b == a;
    } else {
      assert (a + b)[..|a + b| - 1] == a + b[..|b| - 1];
      AddLeavesAppend(acc, a, b[..|b| - 1]);
    }
  }

  /** `AddPixel` only looks at the name, visibility, box and enclosing group of a leaf. */
  lemma AddPixelIgnoresPath(acc: Acc, l: Leaf, path: Path, parentPath: Option<Path>)
    ensures AddPixel(acc, l) == AddPixel(acc, l.(path := path, parentPath := parentPath))
  {
  }

  /** The recursive walk records exactly the pixel layers of the tree, in pre-order. */
  lemma {:induction false} VisitNodeIsFold(n: Node, parent: string, path: Path, parentPath: Option<Path>, acc: Acc)
    ensures VisitNode(n, parent, acc) == AddLeaves(acc, LeavesOf(n, parent, path, parentPath))
    decreases n
  {
    match n
    case Group(name, _, children) =>
      VisitFromIsFold(children, 0, GroupContext(name), path, Some(path), acc);
    case Pixel(name, visible, bbox) =>
      var l := Leaf(name, visible, bbox, parent, path, parentPath);
      assert LeavesOf(n, parent, path, parentPath) == [l];
      assert [l][..0] == [];
      AddPixelIgnoresPath(acc, l, [], None);
    case Other(_, _) =>
  }

  lemma {:induction false} VisitFromIsFold(ns: seq<Node>, i: nat, parent: string, prefix: Path, parentPath: Option<Path>, acc: Acc)
    requires i <= |ns|
    ensures VisitFrom(ns, i, parent, acc) == AddLeaves(acc, LeavesFrom(ns, i, parent, prefix, parentPath))
    decreases ns, |ns| - i
  {
    if i < |ns| {
      var here := LeavesOf(ns[i], parent, prefix + [i], parentPath);
      var rest := LeavesFrom(ns, i + 1, parent, prefix, parentPath);
      VisitNodeIsFold(ns[i], parent, prefix + [i], parentPath, acc);
      VisitFromIsFold(ns, i + 1, parent, prefix, parentPath, AddLeaves(acc, here));
      AddLeavesAppend(acc, here, rest);
    }
  }

  // ---------------------------------------------------------------- what the fold builds

  function CleanNames(ls: seq<Leaf>): (r: seq<string>)
    ensures |r| == |ls|
  {
    seq(|ls|, i requires 0 <= i < |ls| => CleanOf(ls[i]))
  }

  /** (enclosing group, identifier) of every radio leaf, in order. */
  function RadioPairs(ls: seq<Leaf>): seq<(string, string)>
    decreases |ls|
  {
    if |ls| == 0 then []
    else
      var l := ls[|ls| - 1];
      RadioPairs(ls[..|ls| - 1]) + (if IsRadio(l.name) then [(l.parent, CleanOf(l))] else [])
  }

  /** `info` is the record of the last leaf whose identifier is `k`. */
  ghost predicate LastEntry(info: LayerInfo, k: string, ls: seq<Leaf>) {
    var z := info.zIndex;
    && z < |ls|
    && CleanOf(ls[z]) == k
    && info == LeafInfo(ls[z], z)
    && (forall j :: z < j < |ls| ==> CleanOf(ls[j]) != k)
  }

  /** `composition_order` lists every recorded identifier and `z_index` counts them. */
  ghost predicate OrderOf(acc: Acc, ls: seq<Leaf>) {
    acc.z == |ls| && acc.order == CleanNames(ls)
  }

  /** `layers` has exactly the identifiers of the composition order as keys. */
  ghost predicate KeysOf(acc: Acc) {
    Dicts.Valid(acc.layers) && forall k :: k in acc.layers.m <==> k in acc.order
  }

  /** Each `layers` entry is the record of the last leaf with that identifier. */
  ghost predicate EntriesOf(acc: Acc, ls: seq<Leaf>) {
    forall k :: k in acc.layers.m ==> LastEntry(acc.layers.m[k], k, ls)
  }

  /** `radio_groups` maps each group to its radio leaves' identifiers, in order. */
  ghost predicate GroupsOf(acc: Acc, ls: seq<Leaf>) {
    && Dicts.Valid(acc.radioGroups)
    && (forall g :: g in acc.radioGroups.m <==> Dicts.Select(RadioPairs(ls), g) != [])
    && (forall g :: g in acc.radioGroups.m ==> acc.radioGroups.m[g] == Dicts.Select(RadioPairs(ls), g))
  }

  /** The state after recording the leaves `ls`, described independently of the walk. */
  ghost predicate Describes(acc: Acc, ls: seq<Leaf>) {
    OrderOf(acc, ls) && KeysOf(acc) && EntriesOf(acc, ls) && GroupsOf(acc, ls)
  }

  lemma DescribesEmpty()
    ensures Describes(EmptyAcc(), [])
  {
  }

  lemma {:induction false} DescribesStep(acc: Acc, ls: seq<Leaf>, l: Leaf, acc': Acc, ls': seq<Leaf>)
    requires Describes(acc, ls)
    requires acc' == AddPixel(acc, l) && ls' == ls + [l]
    ensures Describes(acc', ls')
  {
    StepOrder(acc, ls, l);
    StepKeys(acc, l);
    StepEntries(acc, ls, l);
    StepGroups(acc, ls, l);
  }

  lemma StepOrder(acc: Acc, ls: seq<Leaf>, l: Leaf)
    requires OrderOf(acc, ls)
    ensures OrderOf(AddPixel(acc, l), ls + [l])
  {
    assert CleanNames(ls + [l]) == CleanNames(ls) + [CleanOf(l)];
  }

  lemma StepKeys(acc: Acc, l: Leaf)
    requires KeysOf(acc)
    ensures KeysOf(AddPixel(acc, l))
  {
    Dicts.PutValid(acc.layers, CleanOf(l), LeafInfo(l, acc.z));
  }

  lemma StepEntries(acc: Acc, ls: seq<Leaf>, l: Leaf)
    requires OrderOf(acc, ls) && EntriesOf(acc, ls)
    ensures EntriesOf(AddPixel(acc, l), ls + [l])
  {
    forall k | k in AddPixel(acc, l).layers.m
      ensures LastEntry(AddPixel(acc, l).layers.m[k], k, ls + [l])
    {
      StepEntry(acc, ls, l, k);
    }
  }

  lemma StepEntry(acc: Acc, ls: seq<Leaf>, l: Leaf, k: string)
    requires acc.z == |ls|
    requires k in acc.layers.m ==> LastEntry(acc.layers.m[k], k, ls)
    requires k in AddPixel(acc, l).layers.m
    ensures LastEntry(AddPixel(acc, l).layers.m[k], k, ls + [l])
  {
    var ls' := ls + [l];
    var m' := AddPixel(acc, l).layers.m;
    assert m' == acc.layers.m[CleanOf(l) := LeafInfo(l, acc.z)];
    if k == CleanOf(l) {
      assert ls'[|ls|] == l;
    } else {
      var info := acc.layers.m[k];
      assert m'[k] == info;
      assert ls'[info.zIndex] == ls[info.zIndex];
      forall j | info.zIndex < j < |ls'| ensures CleanOf(ls'[j]) != k {
        if j < |ls| { assert ls'[j] == ls[j]; } else { assert ls'[j] == l; }
      }
    }
  }

  lemma StepGroups(acc: Acc, ls: seq<Leaf>, l: Leaf)
    requires GroupsOf(acc, ls)
    ensures GroupsOf(AddPixel(acc, l), ls + [l])
  {
    var ls' := ls + [l];
    assert ls'[..|ls'| - 1] == ls;
    var tail: seq<(string, string)> := if IsRadio(l.name) then [(l.parent, CleanOf(l))] else [];
    assert RadioPairs(ls') == RadioPairs(ls) + tail;
    var d := acc.radioGroups;
    var d' := AddPixel(acc, l).radioGroups;
    if IsRadio(l.name) {
      Dicts.PutValid(d, l.parent, (if l.parent in d.m then d.m[l.parent] else []) + [CleanOf(l)]);
    }
    forall g
      ensures g in d'.m <==> Dicts.Select(RadioPairs(ls'), g) != []
      ensures g in d'.m ==> d'.m[g] == Dicts.Select(RadioPairs(ls'), g)
    {
      Dicts.SelectAppend(RadioPairs(ls), tail, g);
      assert Dicts.Select(tail, g) == if IsRadio(l.name) && g == l.parent then [CleanOf(l)] else [];
    }
  }

  lemma {:induction false} AddLeavesDescribes(ls: seq<Leaf>)
    ensures Describes(AddLeaves(EmptyAcc(), ls), ls)
    decreases |ls|
  {
    if |ls| == 0 {
      DescribesEmpty();
    } else {
      var init := ls[..|ls| - 1];
      assert init + [ls[|ls| - 1]] == ls;
      AddLeavesDescribes(init);
      DescribesStep(AddLeaves(EmptyAcc(), init), init, ls[|ls| - 1], AddLeaves(EmptyAcc(), ls), ls);
    }
  }

  lemma AnalyzeDescribes(doc: Document)
    ensures Describes(VisitFrom(doc.layers, 0, Root, EmptyAcc()), Leaves(doc))
  {
    VisitFromIsFold(doc.layers, 0, Root, [], None, EmptyAcc());
    AddLeavesDescribes(Leaves(doc));
  }

  // ---------------------------------------------------------------- properties of the analysis

  /** The identifiers of the radio leaves of group `g`, in walk order. */
  function RadioMembers(ls: seq<Leaf>, g: string): seq<string>
    decreases |ls|
  {
    if |ls| == 0 then []
    else
      var l := ls[|ls| - 1];
      RadioMembers(ls[..|ls| - 1], g) + (if IsRadio(l.name) && l.parent == g then [CleanOf(l)] else [])
  }

  lemma {:induction false} RadioPairsSelect(ls: seq<Leaf>, g: string)
    ensures Dicts.Select(RadioPairs(ls), g) == RadioMembers(ls, g)
    decreases |ls|
  {
    if |ls| > 0 {
      var init := ls[..|ls| - 1];
      var l := ls[|ls| - 1];
      var tail: seq<(string, string)> := if IsRadio(l.name) then [(l.parent, CleanOf(l))] else [];
      RadioPairsSelect(init, g);
      Dicts.SelectAppend(RadioPairs(init), tail, g);
      assert Dicts.Select(tail, g) == if IsRadio(l.name) && l.parent == g then [CleanOf(l)] else [];
    }
  }

  /** The group `g` has a radio member iff some radio leaf sits in `g`. */
  lemma {:induction false} RadioMembersNonEmpty(ls: seq<Leaf>, g: string)
    ensures RadioMembers(ls, g) != [] <==> exists i :: 0 <= i < |ls| && IsRadio(ls[i].name) && ls[i].parent == g
    decreases |ls|
  {
    if |ls| > 0 {
      var init := ls[..|ls| - 1];
      RadioMembersNonEmpty(init, g);
      if exists i :: 0 <= i < |ls| && IsRadio(ls[i].name) && ls[i].parent == g {
        var i :| 0 <= i < |ls| && IsRadio(ls[i].name) && ls[i].parent == g;
        if i < |init| {
          assert init[i] == ls[i];
        }
      }
      if exists i :: 0 <= i < |init| && IsRadio(init[i].name) && init[i].parent == g {
        var i :| 0 <= i < |init| && IsRadio(init[i].name) && init[i].parent == g;
        assert ls[i] == init[i];
      }
    }
  }

  /** Every radio member is the identifier of some leaf. */
  lemma {:induction false} RadioMembersAreLeaves(ls: seq<Leaf>, g: string, i: nat)
    requires i < |RadioMembers(ls, g)|
    ensures RadioMembers(ls, g)[i] in CleanNames(ls)
    decreases |ls|
  {
    var init := ls[..|ls| - 1];
    if i < |RadioMembers(init, g)| {
      RadioMembersAreLeaves(init, g, i);
      var j :| 0 <= j < |init| && CleanNames(init)[j] == RadioMembers(ls, g)[i];
      assert CleanNames(ls)[j] == CleanNames(init)[j];
    } else {
      assert RadioMembers(ls, g)[i] == CleanNames(ls)[|ls| - 1];
    }
  }

  /**
   * The composition order is the identifiers of all pixel layers in depth-first pre-order, one
   * per pixel layer; groups and other layers contribute nothing.
   */
  lemma AnalyzeOrder(doc: Document)
    ensures var md := Analyze(doc); var ls := Leaves(doc);
      && |md.compositionOrder| == |ls|
      && forall i :: 0 <= i < |ls| ==> md.compositionOrder[i] == CleanName(ls[i].name, ls[i].parent)
  {
    AnalyzeDescribes(doc);
  }

  /**
   * The store is well formed: the keys of `layers` are exactly the names in the composition
   * order, and every name in a radio group is a key of `layers`.
   */
  lemma AnalyzeReferential(doc: Document)
    ensures var md := Analyze(doc);
      && Valid(md) && Referential(md)
      && (forall k :: k in md.layers.m <==> k in md.compositionOrder)
  {
    AnalyzeDescribes(doc);
    var md := Analyze(doc);
    var ls := Leaves(doc);
    forall g, i | g in md.radioGroups.m && 0 <= i < |md.radioGroups.m[g]|
      ensures md.radioGroups.m[g][i] in md.layers.m
    {
      RadioPairsSelect(ls, g);
      RadioMembersAreLeaves(ls, g, i);
      var j :| 0 <= j < |ls| && CleanNames(ls)[j] == md.radioGroups.m[g][i];
      assert md.compositionOrder[j] == md.radioGroups.m[g][i];
    }
  }

  /**
   * A layer's record is that of the last pixel layer with its identifier: its `z_index` is that
   * layer's position in the walk; `required` holds iff the name starts with `!`; `radio_group`
   * is the enclosing group iff the name starts with `*`; the fragment path is derived from the
   * identifier and group.
   */
  lemma AnalyzeEntry(doc: Document, k: string)
    requires k in Analyze(doc).layers.m
    ensures var md := Analyze(doc); var ls := Leaves(doc); var info := md.layers.m[k];
      && |md.compositionOrder| == |ls|
      && info.zIndex < |ls|
      && md.compositionOrder[info.zIndex] == k
      && (forall j :: info.zIndex < j < |ls| ==> md.compositionOrder[j] != k)
      && info.originalName == ls[info.zIndex].name
      && info.parentGroup == ls[info.zIndex].parent
      && info.file == FilePath(k, info.parentGroup)
      && info.bbox == BBoxInfoOf(ls[info.zIndex].bbox)
      && (info.required <==> StartsWith(info.originalName, "!"))
      && info.radioGroup == (if StartsWith(info.originalName, "*") then Some(info.parentGroup) else None)
      && !(info.required && info.radioGroup.Some?)
  {
    AnalyzeDescribes(doc);
    var md := Analyze(doc);
    var info := md.layers.m[k];
    assert LastEntry(info, k, Leaves(doc));
    StartsWithDistinctChars(info.originalName, '!', '*');
  }

  /**
   * `radio_groups` has a key for exactly the groups holding a `*` layer, and lists their
   * identifiers in walk order.
   */
  lemma AnalyzeRadioGroups(doc: Document, g: string)
    ensures var md := Analyze(doc); var ls := Leaves(doc);
      && (g in md.radioGroups.m <==> exists i :: 0 <= i < |ls| && IsRadio(ls[i].name) && ls[i].parent == g)
      && (g in md.radioGroups.m ==> md.radioGroups.m[g] == RadioMembers(ls, g))
  {
    AnalyzeDescribes(doc);
    RadioPairsSelect(Leaves(doc), g);
    RadioMembersNonEmpty(Leaves(doc), g);
  }

  // ---------------------------------------------------------------- dry run

  /** The preview a dry run returns. */
  datatype DryRunInfo = DryRunInfo(totalLayers: nat, estimatedSizeMb: real, radioGroups: nat)

  /** About 100 KB per layer. */
  function DryRunInfoOf(md: Metadata): DryRunInfo {
    var n := |md.layers.m|;
    DryRunInfo(n, n as real / 10.0, |md.radioGroups.m|)
  }

  /** The groups that hold at least one radio leaf. */
  function RadioParents(ls: seq<Leaf>): set<string> {
    set i | 0 <= i < |ls| && IsRadio(ls[i].name) :: ls[i].parent
  }

  /**
   * A dry run counts the distinct identifiers (all pixel layers when no two share one) and the
   * groups holding radio layers.
   */
  lemma DryRunCounts(doc: Document)
    ensures var info := DryRunInfoOf(Analyze(doc)); var ls := Leaves(doc);
      && info.totalLayers == |set i | 0 <= i < |ls| :: CleanOf(ls[i])|
      && info.totalLayers <= |ls|
      && ((forall i, j :: 0 <= i < j < |ls| ==> CleanOf(ls[i]) != CleanOf(ls[j])) ==> info.totalLayers == |ls|)
      && info.radioGroups == |RadioParents(ls)|
  {
    LayerKeys(doc);
    LayerCount(doc);
    RadioGroupCount(doc);
  }

  /** The keys of `layers` are the identifiers of the pixel layers. */
  lemma LayerKeys(doc: Document)
    ensures var ls := Leaves(doc); Analyze(doc).layers.m.Keys == set i | 0 <= i < |ls| :: CleanOf(ls[i])
  {
    var md := Analyze(doc);
    AnalyzeOrder(doc);
    AnalyzeReferential(doc);
    KeysOfIdentifiers(md.layers.m.Keys, md.compositionOrder, Leaves(doc));
  }

  lemma KeysOfIdentifiers(keys: set<string>, order: seq<string>, ls: seq<Leaf>)
    requires forall k :: k in keys <==> k in order
    requires |order| == |ls| && forall i :: 0 <= i < |ls| ==> order[i] == CleanName(ls[i].name, ls[i].parent)
    ensures keys == set i | 0 <= i < |ls| :: CleanOf(ls[i])
  {
    var ids := set i | 0 <= i < |ls| :: CleanOf(ls[i]);
    forall k ensures k in keys <==> k in ids {
      if k in keys {
        var i :| 0 <= i < |order| && order[i] == k;
        assert CleanOf(ls[i]) == k;
      }
      if k in ids {
        var i :| 0 <= i < |ls| && CleanOf(ls[i]) == k;
        assert order[i] == k;
      }
    }
  }

  lemma LayerCount(doc: Document)
    ensures var n := |Analyze(doc).layers.m|; var ls := Leaves(doc);
      && n <= |ls|
      && ((forall i, j :: 0 <= i < j < |ls| ==> CleanOf(ls[i]) != CleanOf(ls[j])) ==> n == |ls|)
  {
    var md := Analyze(doc);
    var ls := Leaves(doc);
    AnalyzeOrder(doc);
    AnalyzeReferential(doc);
    KeysOfOrder(md.layers.m.Keys, md.compositionOrder);
  }

  /** A set listed by a sequence has at most that many elements, and exactly as many without repeats. */
  lemma KeysOfOrder<T>(keys: set<T>, order: seq<T>)
    requires forall k :: k in keys <==> k in order
    ensures |keys| <= |order|
    ensures (forall i, j :: 0 <= i < j < |order| ==> order[i] != order[j]) ==> |keys| == |order|
  {
    assert keys == set x | x in order;
    SetOfSeqSize(order);
    if forall i, j :: 0 <= i < j < |order| ==> order[i] != order[j] {
      Dicts.DistinctCard(order);
    }
  }

  lemma RadioGroupCount(doc: Document)
    ensures |Analyze(doc).radioGroups.m| == |RadioParents(Leaves(doc))|
  {
    var md := Analyze(doc);
    var ls := Leaves(doc);
    forall g ensures g in md.radioGroups.m <==> g in RadioParents(ls) {
      AnalyzeRadioGroups(doc, g);
    }
    assert md.radioGroups.m.Keys == RadioParents(ls);
  }

  lemma {:induction false} SetOfSeqSize<T>(s: seq<T>)
    ensures |set x | x in s| <= |s|
  {
    if |s| > 0 {
      var t := s[..|s| - 1];
      SetOfSeqSize(t);
      assert (set x | x in s) == (set x | x in t) + {s[|s| - 1]};
    }
  }
}

=== FILE: layer_store.dfy ===
/**
 * The layer store: the metadata document the extractor writes next to the PNG fragments
 * and the compositor reads at start-up (`layer_metadata.json`).
 */
module LayerStore {
  import opened Wrappers
  import Dicts

  /** A recorded bounding box, with the derived width and height. */
  datatype BBoxInfo = BBoxInfo(left: int, top: int, right: int, bottom: int, width: int, height: int)

  /** One extracted pixel layer. */
  datatype LayerInfo = LayerInfo(
    originalName: string,
    file: string,
    bbox: Option<BBoxInfo>,
    zIndex: nat,
    visible: bool,
    required: bool,
    parentGroup: string,
    radioGroup: Option<string>)

  /** `psd_info`: the canvas size of the source artwork. */
  datatype PsdInfo = PsdInfo(width: nat, height: nat)

  datatype Metadata = Metadata(
    psdInfo: Option<PsdInfo>,
    layers: Dicts.Dict<string, LayerInfo>,
    radioGroups: Dicts.Dict<string, seq<string>>,
    compositionOrder: seq<string>)

  /** Both dictionaries are well formed. */
  ghost predicate Valid(md: Metadata) {
    Dicts.Valid(md.layers) && Dicts.Valid(md.radioGroups)
  }

  /** Every name the composition order or a radio group refers to is a known layer. */
  ghost predicate Referential(md: Metadata) {
    && (forall i :: 0 <= i < |md.compositionOrder| ==> md.compositionOrder[i] in md.layers.m)
    && (forall g, i :: g in md.radioGroups.m && 0 <= i < |md.radioGroups.m[g]| ==>
          md.radioGroups.m[g][i] in md.layers.m)
  }

  /** What the compositor holds when the metadata file is missing or unreadable: `{}`. */
  function EmptyMetadata(): (md: Metadata)
    ensures Valid(md) && Referential(md)
    ensures md.layers.m == map[] && md.radioGroups.m == map[] && md.compositionOrder == []
  {
    Metadata(None, Dicts.Empty(), Dicts.Empty(), [])
  }
}

=== FILE: layer_tree.dfy ===
/**
 * The layered artwork as the extractor and the analyser see it: a forest of named nodes.
 * Groups hold children; pixel layers carry a bounding box; every other kind of layer
 * (type, shape, smart-object, adjustment, fill) is `Other` and is skipped by the extractor.
 * Reading the artwork file is done by an imaging library outside this model; a document
 * arrives here already parsed.
 */
module LayerTree {
  import opened Wrappers
  import Text

  /** Canvas coordinates of a layer's extent: (left, top, right, bottom). */
  datatype BBox = BBox(left: int, top: int, right: int, bottom: int)

  datatype Node =
    | Group(name: string, visible: bool, children: seq<Node>)
    | Pixel(name: string, visible: bool, bbox: Option<BBox>)
    | Other(name: string, visible: bool)

  datatype Document = Document(width: nat, height: nat, layers: seq<Node>)

  /** A node's position: child indices from the document's top-level list downwards. */
  type Path = seq<nat>

  /** The enclosing-group name given to top-level layers. */
  const Root: string := "root"

  /** Leading name markers: `*` a choice (radio) member, `!` always shown. */
  const Markers: set<char> := {'*', '!'}

  /** The enclosing-group name a group passes to its children: its name without leading markers. */
  function GroupContext(groupName: string): (r: string)
    ensures |r| > 0 ==> r[0] != '*' && r[0] != '!'
  {
    Text.LStrip(groupName, Markers)
  }

  /**
   * A pixel layer as met during the depth-first walk, with the enclosing-group name it is
   * processed under, its own path and the path of the group that directly holds it (none at
   * top level).
   */
  datatype Leaf = Leaf(name: string, visible: bool, bbox: Option<BBox>,
                       parent: string, path: Path, parentPath: Option<Path>)

  /** The pixel layers under `n`, in depth-first pre-order. */
  function LeavesOf(n: Node, parent: string, path: Path, parentPath: Option<Path>): seq<Leaf>
    decreases n
  {
    match n
    case Pixel(name, visible, bbox) => [Leaf(name, visible, bbox, parent, path, parentPath)]
    case Other(_, _) => []
    case Group(name, _, children) => LeavesFrom(children, 0, GroupContext(name), path, Some(path))
  }

  /** The pixel layers under `ns[i..]`, children of the node at `prefix`. */
  function LeavesFrom(ns: seq<Node>, i: nat, parent: string, prefix: Path, parentPath: Option<Path>): seq<Leaf>
    requires i <= |ns|
    decreases ns, |ns| - i
  {
    if i == |ns| then []
    else LeavesOf(ns[i], parent, prefix + [i], parentPath) + LeavesFrom(ns, i + 1, parent, prefix, parentPath)
  }

  /** Every pixel layer of the document in the order the extractor visits them. */
  function Leaves(doc: Document): seq<Leaf> {
    LeavesFrom(doc.layers, 0, Root, [], None)
  }

  /** The node at `p`, if `p` leads to one. */
  function NodeAt(ns: seq<Node>, p: Path): Option<Node>
    decreases |p|
  {
    if |p| == 0 || p[0] >= |ns| then None
    else if |p| == 1 then Some(ns[p[0]])
    else match ns[p[0]]
      case Group(_, _, children) => NodeAt(children, p[1..])
      case _ => None
  }
}

=== FILE: psd_analyzer.dfy ===
/**
 * The structure analyser (kiosk-backyard/psd_analyzer.py): a per-node report of the artwork's
 * tree with the naming extensions a layer carries, the radio groups keyed by the raw name of
 * the enclosing node, and the parameter listing derived from them. Opacity and blend mode are
 * attributes read from the imaging library and are not part of the tree here.
 */
module PsdAnalyzer {
  import opened Wrappers
  import opened Text
  import Dicts
  import opened LayerTree
  import opened LayerStore
  import LayerExtractor

  /** The naming extensions: `*` radio member, `!` always shown, and the mirror suffixes. */
  datatype Extension = RadioButton | ForceVisible | FlipX | FlipY | FlipXY

  /**
   * `layer_info`, one variant per `type(layer).__name__` the analyser distinguishes: the
   * `children` key exists only for a group and the `bbox` key only for a pixel layer (holding
   * `None` when the layer has no extent).
   */
  datatype Report =
    | GroupReport(name: string, visible: bool, depth: nat, extensions: seq<Extension>, children: seq<Report>)
    | PixelReport(name: string, visible: bool, depth: nat, extensions: seq<Extension>, bbox: Option<BBoxInfo>)
    | OtherReport(name: string, visible: bool, depth: nat, extensions: seq<Extension>)

  datatype Structure = Structure(width: nat, height: nat, layers: seq<Report>)

  /** The extension list of `analyze_layer`, in the order it is built. */
  function Extensions(name: string): seq<Extension> {
    (if StartsWith(name, "*") then [RadioButton] else [])
    + (if StartsWith(name, "!") then [ForceVisible] else [])
    + (if EndsWith(name, ":flipx") then [FlipX]
       else if EndsWith(name, ":flipy") then [FlipY]
       else if EndsWith(name, ":flipxy") then [FlipXY]
       else [])
  }

  /**
   * `*` gives `radio_button` and `!` gives `force_visible`, never both; at most one mirror
   * extension is recorded, the tests running `:flipx`, `:flipy`, `:flipxy` in that order.
   */
  lemma ExtensionsSpec(name: string)
    ensures var e := Extensions(name);
      && (RadioButton in e <==> StartsWith(name, "*"))
      && (ForceVisible in e <==> StartsWith(name, "!"))
      && !(RadioButton in e && ForceVisible in e)
      && (FlipX in e <==> EndsWith(name, ":flipx"))
      && (FlipY in e <==> !EndsWith(name, ":flipx") && EndsWith(name, ":flipy"))
      && (FlipXY in e <==> !EndsWith(name, ":flipx") && !EndsWith(name, ":flipy") && EndsWith(name, ":flipxy"))
      && |e| <= 2
  {
    StartsWithDistinctChars(name, '*', '!');
  }

  /** `:flipxy` is reachable: a name ending in it ends in neither of the shorter suffixes. */
  lemma FlipXYReachable()
    ensures Extensions("a:flipxy") == [FlipXY]
  {
    var n := "a:flipxy";
    assert n[|n| - 6..] == "flipxy";
    assert n[|n| - 6..] != ":flipx" && n[|n| - 6..] != ":flipy";
    assert n[|n| - 7..] == ":flipxy";
    assert n[..1] == "a";
  }

  /** `analyze_layer(layer, depth)` */
  function AnalyzeLayer(n: Node, depth: nat): (r: Report)
    decreases n
  {
    if n.Group? then GroupReport(n.name, n.visible, depth, Extensions(n.name), AnalyzeAll(n.children, depth + 1))
    else if n.Pixel? then PixelReport(n.name, n.visible, depth, Extensions(n.name), LayerExtractor.BBoxInfoOf(n.bbox))
    else OtherReport(n.name, n.visible, depth, Extensions(n.name))
  }

  function AnalyzeAll(ns: seq<Node>, depth: nat): (r: seq<Report>)
    decreases ns
  {
    seq(|ns|, i requires 0 <= i < |ns| => AnalyzeLayer(ns[i], depth))
  }

  /** `analyze_psd_structure` once the file has been opened. */
  function AnalyzeDocument(doc: Document): Structure {
    Structure(doc.width, doc.height, AnalyzeAll(doc.layers, 0))
  }

  /** The report at a path, if the path leads to one. */
  function ReportAt(rs: seq<Report>, p: Path): Option<Report>
    decreases |p|
  {
    if |p| == 0 || p[0] >= |rs| then None
    else if |p| == 1 then Some(rs[p[0]])
    else if rs[p[0]].GroupReport? then ReportAt(rs[p[0]].children, p[1..])
    else None
  }

  /**
   * The report mirrors the tree: there is a report exactly where there is a node; it carries
   * the node's name and kind and its depth is the node's nesting level (each child one deeper
   * than its group); only groups have a child list, as long as theirs; only pixel layers have a
   * box entry, whose width and height are the box's right minus left and bottom minus top.
   */
  lemma {:induction false} AnalyzeAt(ns: seq<Node>, depth: nat, p: Path)
    ensures ReportAt(AnalyzeAll(ns, depth), p).Some? <==> NodeAt(ns, p).Some?
    ensures NodeAt(ns, p).Some? ==>
      var n, r := NodeAt(ns, p).value, ReportAt(AnalyzeAll(ns, depth), p).value;
      && r.name == n.name && r.visible == n.visible
      && r.depth == depth + |p| - 1
      && r.extensions == Extensions(n.name)
      && (r.GroupReport? <==> n.Group?) && (r.PixelReport? <==> n.Pixel?)
      && (n.Group? ==> |r.children| == |n.children|)
      && (n.Pixel? ==> (r.bbox.Some? <==> n.bbox.Some?))
      && (n.Pixel? && n.bbox.Some? ==>
            r.bbox.value.width == n.bbox.value.right - n.bbox.value.left &&
            r.bbox.value.height == n.bbox.value.bottom - n.bbox.value.top)
    decreases |p|
  {
    var rs := AnalyzeAll(ns, depth);
    if |p| == 1 && p[0] < |ns| {
      var n := ns[p[0]];
      assert rs[p[0]] == AnalyzeLayer(n, depth);
      if n.Group? {
        assert |AnalyzeAll(n.children, depth + 1)| == |n.children|;
      }
    }
    if |p| >= 2 && p[0] < |ns| {
      var n := ns[p[0]];
      assert rs[p[0]] == AnalyzeLayer(n, depth);
      if n.Group? {
        AnalyzeAt(n.children, depth + 1, p[1..]);
        assert ReportAt(rs, p) == ReportAt(AnalyzeAll(n.children, depth + 1), p[1..]);
        assert NodeAt(ns, p) == NodeAt(n.children, p[1..]);
      }
    }
  }

  // ---------------------------------------------------------------- radio groups

  /** `find_radio_layers(layers, parent_name)` over `layers[i..]`, into the dict `acc`. */
  function FindRadioFrom(rs: seq<Report>, i: nat, parent: string, acc: Dicts.Dict<string, seq<string>>)
    : (r: Dicts.Dict<string, seq<string>>)
    requires i <= |rs| && Dicts.Valid(acc)
    ensures Dicts.Valid(r)
    decreases rs, |rs| - i
  {
    if i == |rs| then acc
    else
      var l := rs[i];
      var acc1 := if RadioButton in l.extensions then Dicts.Append(acc, parent, l.name) else acc;
      Dicts.PutValid(acc, parent, (if parent in acc.m then acc.m[parent] else []) + [l.name]);
      var acc2 := if l.GroupReport? then FindRadioFrom(l.children, 0, l.name, acc1) else acc1;
      FindRadioFrom(rs, i + 1, parent, acc2)
  }

  /** `find_radio_groups(structure)` */
  function FindRadioGroups(s: Structure): (r: Dicts.Dict<string, seq<string>>)
    ensures Dicts.Valid(r)
  {
    FindRadioFrom(s.layers, 0, Root, Dicts.Empty())
  }

  /** The (enclosing name, radio name) pairs of `rs[i..]` in depth-first pre-order. */
  function RadioPairsFrom(rs: seq<Report>, i: nat, parent: string): seq<(string, string)>
    requires i <= |rs|
    decreases rs, |rs| - i
  {
    if i == |rs| then []
    else
      var l := rs[i];
      (if RadioButton in l.extensions then [(parent, l.name)] else [])
      + (if l.GroupReport? then RadioPairsFrom(l.children, 0, l.name) else [])
      + RadioPairsFrom(rs, i + 1, parent)
  }

  /** The walk appends the pairs one by one, in pre-order. */
  lemma {:induction false} FindRadioIsFold(rs: seq<Report>, i: nat, parent: string, acc: Dicts.Dict<string, seq<string>>)
    requires i <= |rs| && Dicts.Valid(acc)
    ensures FindRadioFrom(rs, i, parent, acc) == Dicts.AppendAll(acc, RadioPairsFrom(rs, i, parent))
    decreases rs, |rs| - i
  {
    if i < |rs| {
      var l := rs[i];
      var own: seq<(string, string)> := if RadioButton in l.extensions then [(parent, l.name)] else [];
      var below := if l.GroupReport? then RadioPairsFrom(l.children, 0, l.name) else [];
      var rest := RadioPairsFrom(rs, i + 1, parent);
      Dicts.PutValid(acc, parent, (if parent in acc.m then acc.m[parent] else []) + [l.name]);
      var acc1 := if RadioButton in l.extensions then Dicts.Append(acc, parent, l.name) else acc;
      if RadioButton in l.extensions {
        Dicts.PutValid(acc, parent, (if parent in acc.m then acc.m[parent] else []) + [l.name]);
        assert Dicts.AppendAll(acc, own) == acc1 by {
          assert own[1..] == [];
        }
      } else {
        assert Dicts.AppendAll(acc, own) == acc1;
      }
      var acc2 := if l.GroupReport? then FindRadioFrom(l.children, 0, l.name, acc1) else acc1;
      if l.GroupReport? {
        FindRadioIsFold(l.children, 0, l.name, acc1);
      }
      assert acc2 == Dicts.AppendAll(acc1, below);
      FindRadioIsFold(rs, i + 1, parent, acc2);
      Dicts.AppendAllConcat(acc, own, below);
      Dicts.AppendAllConcat(acc, own + below, rest);
    }
  }

  /** Every pair's second part is the name of a radio-marked report. */
  predicate AllRadio(pairs: seq<(string, string)>) {
    forall k :: 0 <= k < |pairs| ==> RadioButton in Extensions(pairs[k].1)
  }

  lemma AllRadioConcat(a: seq<(string, string)>, b: seq<(string, string)>)
    requires AllRadio(a) && AllRadio(b)
    ensures AllRadio(a + b)
  {
    forall k | 0 <= k < |a + b| ensures RadioButton in Extensions((a + b)[k].1) {
      if k < |a| { assert (a + b)[k] == a[k]; } else { assert (a + b)[k] == b[k - |a|]; }
    }
  }

  lemma {:induction false} RadioPairsAreRadio(rs: seq<Report>, i: nat, parent: string)
    requires i <= |rs| && ExtensionsConsistent(rs)
    ensures AllRadio(RadioPairsFrom(rs, i, parent))
    decreases rs, |rs| - i
  {
    if i < |rs| {
      var l := rs[i];
      ConsistentHead(rs, i);
      if l.GroupReport? {
        ConsistentChildren(rs, i);
        RadioPairsAreRadio(l.children, 0, l.name);
      }
      RadioPairsAreRadio(rs, i + 1, parent);
      RadioPairsStep(rs, i, parent);
    }
  }

  /** The pairs of `rs[i..]` are all radio when those below `rs[i]` and after it are. */
  lemma RadioPairsStep(rs: seq<Report>, i: nat, parent: string)
    requires i < |rs| && rs[i].extensions == Extensions(rs[i].name)
    requires rs[i].GroupReport? ==> AllRadio(RadioPairsFrom(rs[i].children, 0, rs[i].name))
    requires AllRadio(RadioPairsFrom(rs, i + 1, parent))
    ensures AllRadio(RadioPairsFrom(rs, i, parent))
  {
    var l := rs[i];
    var own: seq<(string, string)> := if RadioButton in l.extensions then [(parent, l.name)] else [];
    var below := if l.GroupReport? then RadioPairsFrom(l.children, 0, l.name) else [];
    var rest := RadioPairsFrom(rs, i + 1, parent);
    assert RadioPairsFrom(rs, i, parent) == own + below + rest;
    assert AllRadio(own);
    AllRadioConcat(own, below);
    AllRadioConcat(own + below, rest);
  }

  /** Every report's extensions are those of its name, all the way down. */
  ghost predicate ExtensionsConsistent(rs: seq<Report>) {
    forall p :: ReportAt(rs, p).Some? ==> ReportAt(rs, p).value.extensions == Extensions(ReportAt(rs, p).value.name)
  }

  lemma ConsistentHead(rs: seq<Report>, i: nat)
    requires i < |rs| && ExtensionsConsistent(rs)
    ensures rs[i].extensions == Extensions(rs[i].name)
  {
    assert ReportAt(rs, [i]) == Some(rs[i]);
  }

  lemma ConsistentChildren(rs: seq<Report>, i: nat)
    requires i < |rs| && rs[i].GroupReport? && ExtensionsConsistent(rs)
    ensures ExtensionsConsistent(rs[i].children)
  {
    forall q | ReportAt(rs[i].children, q).Some?
      ensures ReportAt(rs[i].children, q).value.extensions == Extensions(ReportAt(rs[i].children, q).value.name)
    {
      var p := [i] + q;
      assert p[1..] == q;
      assert ReportAt(rs, p) == ReportAt(rs[i].children, q);
    }
  }

  /** Reports the analyser produces are consistent. */
  lemma AnalyzeConsistent(ns: seq<Node>, depth: nat)
    ensures ExtensionsConsistent(AnalyzeAll(ns, depth))
  {
    forall p | ReportAt(AnalyzeAll(ns, depth), p).Some?
      ensures ReportAt(AnalyzeAll(ns, depth), p).value.extensions == Extensions(ReportAt(AnalyzeAll(ns, depth), p).value.name)
    {
      AnalyzeAt(ns, depth, p);
    }
  }

  /**
   * The radio groups: a key is present iff some radio node sits directly under a node of that
   * name (`root` for the top level); its list holds those nodes' raw names in depth-first
   * pre-order; every listed name starts with `*`.
   */
  lemma FindRadioGroupsSpec(doc: Document, g: string)
    ensures var s := AnalyzeDocument(doc);
      var r := FindRadioGroups(s);
      var pairs := RadioPairsFrom(s.layers, 0, Root);
      && (g in r.m <==> Dicts.Select(pairs, g) != [])
      && (g in r.m ==> r.m[g] == Dicts.Select(pairs, g))
      && (g in r.m ==> forall x :: x in r.m[g] ==> StartsWith(x, "*"))
  {
    var s := AnalyzeDocument(doc);
    var pairs := RadioPairsFrom(s.layers, 0, Root);
    FindRadioIsFold(s.layers, 0, Root, Dicts.Empty());
    Dicts.AppendAllGroups(Dicts.Empty(), pairs, g);
    AnalyzeConsistent(doc.layers, 0);
    RadioPairsAreRadio(s.layers, 0, Root);
    var r := FindRadioGroups(s);
    if g in r.m {
      forall x | x in r.m[g] ensures StartsWith(x, "*") {
        Dicts.SelectMember(pairs, g, x);
        var k :| 0 <= k < |pairs| && pairs[k] == (g, x);
        ExtensionsSpec(x);
      }
    }
  }

  /**
   * The walk descends into radio nodes too: a radio group `*A` at top level holding a radio
   * layer `*b` is listed under `root`, and `*b` under `*A`.
   */
  lemma RadioGroupsNest()
    ensures var doc := Document(1, 1, [Group("*A", true, [Pixel("*b", true, None)])]);
      var r := FindRadioGroups(AnalyzeDocument(doc));
      "root" in r.m && r.m["root"] == ["*A"] && "*A" in r.m && r.m["*A"] == ["*b"]
  {
    var doc := Document(1, 1, [Group("*A", true, [Pixel("*b", true, None)])]);
    var s := AnalyzeDocument(doc);
    assert StartsWith("*A", "*") && StartsWith("*b", "*");
    ExtensionsSpec("*A");
    ExtensionsSpec("*b");
    var inner := s.layers[0].children;
    assert RadioPairsFrom(inner, 1, "*A") == [];
    assert RadioPairsFrom(inner, 0, "*A") == [("*A", "*b")];
    assert RadioPairsFrom(s.layers, 1, Root) == [];
    var pairs := RadioPairsFrom(s.layers, 0, Root);
    assert pairs == [(Root, "*A"), ("*A", "*b")];
    FindRadioGroupsSpec(doc, Root);
    FindRadioGroupsSpec(doc, "*A");
    assert Dicts.Select(pairs, Root) == ["*A"];
    assert Dicts.Select(pairs, "*A") == ["*b"];
  }

  // ---------------------------------------------------------------- API parameters

  /** `group_name.lower().replace(' ', '_')` */
  function ParamKey(group: string): string {
    KeyForm(group)
  }

  /** `[opt.lstrip('*') for opt in options]` */
  function StripOptions(options: seq<string>): (r: seq<string>)
    ensures |r| == |options|
    ensures forall i :: 0 <= i < |r| ==> r[i] == LStrip(options[i], {'*'})
  {
    seq(|options|, i requires 0 <= i < |options| => LStrip(options[i], {'*'}))
  }

  /** `generate_api_parameters` */
  function ApiParameters(s: Structure): (r: Dicts.Dict<string, seq<string>>)
    ensures Dicts.Valid(r)
  {
    Dicts.Rekey(FindRadioGroups(s), ParamKey, StripOptions)
  }

  /**
   * The parameter listing has one key per radio group (lower-cased, spaces to underscores;
   * groups whose keys collide keep the later group's options), and the options are the
   * group's members in the same number and order, each with its leading `*` run removed.
   */
  lemma ApiParametersSpec(s: Structure, key: string)
    ensures var groups := FindRadioGroups(s);
      var r := ApiParameters(s);
      && (key in r.m <==> exists j :: 0 <= j < |groups.keys| && ParamKey(groups.keys[j]) == key)
      && (forall j :: Dicts.LastWith(groups, ParamKey, key, j) ==>
            var members := groups.m[groups.keys[j]];
            && |r.m[key]| == |members|
            && forall i :: 0 <= i < |members| ==>
                 && EndsWith(members[i], r.m[key][i])
                 && (forall k :: 0 <= k < |members[i]| - |r.m[key][i]| ==> members[i][k] == '*')
                 && (|r.m[key][i]| > 0 ==> r.m[key][i][0] != '*'))
  {
    RekeyedParameters(FindRadioGroups(s), key);
  }

  /**
   * Removing each option's leading `*` run keeps a suffix of it that does not start with `*`,
   * and everything removed is `*`: the longest such suffix.
   */
  lemma StrippedOptions(options: seq<string>)
    ensures var r := StripOptions(options);
      && |r| == |options|
      && forall i :: 0 <= i < |options| ==>
           && EndsWith(options[i], r[i])
           && (forall k :: 0 <= k < |options[i]| - |r[i]| ==> options[i][k] == '*')
           && (|r[i]| > 0 ==> r[i][0] != '*')
  {
  }

  /** The listing built from any valid group dict, as stated for `ApiParameters`. */
  lemma RekeyedParameters(groups: Dicts.Dict<string, seq<string>>, key: string)
    requires Dicts.Valid(groups)
    ensures var r := Dicts.Rekey(groups, ParamKey, StripOptions);
      && (key in r.m <==> exists j :: 0 <= j < |groups.keys| && ParamKey(groups.keys[j]) == key)
      && (forall j :: Dicts.LastWith(groups, ParamKey, key, j) ==>
            var members := groups.m[groups.keys[j]];
            && |r.m[key]| == |members|
            && forall i :: 0 <= i < |members| ==>
                 && EndsWith(members[i], r.m[key][i])
                 && (forall k :: 0 <= k < |members[i]| - |r.m[key][i]| ==> members[i][k] == '*')
                 && (|r.m[key][i]| > 0 ==> r.m[key][i][0] != '*'))
  {
    var r := Dicts.Rekey(groups, ParamKey, StripOptions);
    Dicts.RekeySpec(groups, ParamKey, StripOptions, key);
    forall j | Dicts.LastWith(groups, ParamKey, key, j)
      ensures var members := groups.m[groups.keys[j]];
        && |r.m[key]| == |members|
        && forall i :: 0 <= i < |members| ==>
             && EndsWith(members[i], r.m[key][i])
             && (forall k :: 0 <= k < |members[i]| - |r.m[key][i]| ==> members[i][k] == '*')
             && (|r.m[key][i]| > 0 ==> r.m[key][i][0] != '*')
    {
      StrippedOptions(groups.m[groups.keys[j]]);
    }
  }
}

=== FILE: resolver.dfy ===
/**
 * The compositor's parameter side (`ZundamonCompositor` in kiosk-backyard/zundamon_compositor.py):
 * the fuzzy matcher, the resolution of request parameters to layer identifiers, the default
 * parameters, the two-pass paint sequence and the option listing offered to clients.
 * Request parameters form a Python dict, modelled as a `Dicts.Dict` whose key order is the order
 * in which `params.items()` visits them.
 */
module Resolver {
  import opened Wrappers
  import opened Text
  import Dicts
  import opened LayerStore

  // ---------------------------------------------------------------- the matcher

  /** The parameter value: lower-cased, spaces and parentheses dropped. */
  function ParamClean(value: string): string {
    Remove(Lower(value), {' ', '(', ')'})
  }

  /** The layer's original name: as the value, and its `*`/`!` markers dropped as well. */
  function OriginalClean(originalName: string): string {
    Remove(Lower(originalName), {'*', '!', ' ', '(', ')'})
  }

  /** The layer identifier: lower-cased, underscores and spaces dropped. */
  function LayerClean(layerName: string): string {
    Remove(Lower(layerName), {'_', ' '})
  }

  /** `_match_parameter_value`, with its four tests as written. */
  function Matches(value: string, originalName: string, layerName: string): bool {
    var pc := ParamClean(value);
    var oc := OriginalClean(originalName);
    var lc := LayerClean(layerName);
    Contains(oc, pc) || Contains(lc, pc) || EndsWith(oc, pc) || EndsWith(lc, pc)
  }

  /**
   * A value matches iff its normalised form occurs in one of the two normalised names: the two
   * `endswith` tests never add a match the substring tests lack.
   */
  lemma MatchesSpec(value: string, originalName: string, layerName: string)
    ensures Matches(value, originalName, layerName) <==>
      Occurs(ParamClean(value), OriginalClean(originalName)) || Occurs(ParamClean(value), LayerClean(layerName))
  {
    var pc, oc, lc := ParamClean(value), OriginalClean(originalName), LayerClean(layerName);
    if EndsWith(oc, pc) {
      EndsWithContains(oc, pc);
    }
    if EndsWith(lc, pc) {
      EndsWithContains(lc, pc);
    }
  }

  /** A value that normalises to nothing (`""`, `" "`, `"()"`) matches every layer. */
  lemma EmptyValueMatches(value: string, originalName: string, layerName: string)
    requires ParamClean(value) == ""
    ensures Matches(value, originalName, layerName)
  {
    EmptyContained(OriginalClean(originalName));
  }

  // ---------------------------------------------------------------- resolution

  const ShippoParam: string := "something_like_shippo"
  const ShippoLayer: string := "尻尾のような何か"

  /** The keys of `param_to_group`, in the order of `default_params`. */
  const GroupParams: seq<string> := ["head_direction", "right_arm", "left_arm", "edamame", "face_color",
                                     "expression_mouth", "expression_eyes", "expression_eyebrows"]

  /**
   * `param_to_group`: the radio groups a parameter selects from: `head_direction` two, the
   * seven other keys one each, and any other name none.
   */
  function ParamGroups(param: string): (r: seq<string>)
    ensures r == [] <==> param !in GroupParams
    ensures |r| == 2 <==> param == GroupParams[0]
    ensures |r| == 1 <==> param in GroupParams && param != GroupParams[0]
  {
    if param == "head_direction" then ["頭_上向き", "頭_正面向き"]
    else if param == "right_arm" then ["右腕"]
    else if param == "left_arm" then ["左腕"]
    else if param == "edamame" then ["枝豆"]
    else if param == "face_color" then ["顔色"]
    else if param == "expression_mouth" then ["口"]
    else if param == "expression_eyes" then ["目"]
    else if param == "expression_eyebrows" then ["眉"]
    else []
  }

  /** The identifiers of the required layers, in the `layers` dict's order. */
  function RequiredAmong(layers: map<string, LayerInfo>, keys: seq<string>): (r: seq<string>)
    ensures forall x :: x in r <==> x in keys && x in layers && layers[x].required
    ensures |r| <= |keys|
  {
    if |keys| == 0 then []
    else (if keys[0] in layers && layers[keys[0]].required then [keys[0]] else []) + RequiredAmong(layers, keys[1..])
  }

  function Required(md: Metadata): seq<string> {
    RequiredAmong(md.layers.m, md.layers.keys)
  }

  /** `layers.get(name, {}).get("original_name", "")` */
  function OriginalName(md: Metadata, name: string): string {
    if name in md.layers.m then md.layers.m[name].originalName else ""
  }

  predicate MatchAt(md: Metadata, value: string, name: string) {
    Matches(value, OriginalName(md, name), name)
  }

  /** Which members match `value`, position by position. */
  function Hits(md: Metadata, value: string, members: seq<string>): (r: seq<bool>)
    ensures |r| == |members| && forall j :: 0 <= j < |r| ==> r[j] == MatchAt(md, value, members[j])
  {
    seq(|members|, j requires 0 <= j < |members| => MatchAt(md, value, members[j]))
  }

  /** The scan of the inner loop: the first position at or after `from` that is a hit. */
  function FirstHitFrom(hits: seq<bool>, from: nat): (r: Option<nat>)
    requires from <= |hits|
    ensures r.None? <==> forall j :: from <= j < |hits| ==> !hits[j]
    ensures r.Some? ==> from <= r.value < |hits| && hits[r.value]
    ensures r.Some? ==> forall j :: from <= j < r.value ==> !hits[j]
    decreases |hits| - from
  {
    if from == |hits| then None
    else if hits[from] then Some(from)
    else FirstHitFrom(hits, from + 1)
  }

  /** Position `i` holds a member matching `value` and no earlier member does: where the scan stops. */
  predicate IsFirstMatch(md: Metadata, value: string, members: seq<string>, i: int) {
    && 0 <= i < |members| && MatchAt(md, value, members[i])
    && forall j :: 0 <= j < i ==> !MatchAt(md, value, members[j])
  }

  /** `x` is the member the scan with `break` stops at. */
  ghost predicate FirstMatching(md: Metadata, value: string, members: seq<string>, x: string) {
    exists i :: IsFirstMatch(md, value, members, i) && members[i] == x
  }

  /** At most one position is where the scan stops. */
  lemma FirstMatchUnique(md: Metadata, value: string, members: seq<string>, i: int, k: int)
    requires IsFirstMatch(md, value, members, i) && IsFirstMatch(md, value, members, k)
    ensures i == k
  {
  }

  /** The inner loop with its `break`: the first matching member, if any. */
  function FirstMatch(md: Metadata, value: string, members: seq<string>): (r: Option<nat>)
    ensures r.None? <==> forall j :: 0 <= j < |members| ==> !MatchAt(md, value, members[j])
    ensures r.Some? ==> r.value < |members| && MatchAt(md, value, members[r.value])
    ensures r.Some? ==> forall j :: 0 <= j < r.value ==> !MatchAt(md, value, members[j])
  {
    FirstHitFrom(Hits(md, value, members), 0)
  }

  /**
   * What one candidate group adds: nothing when the group is unknown or no member matches,
   * otherwise exactly the first matching member in the group's order.
   */
  function Pick(md: Metadata, value: string, group: string): (r: seq<string>)
    ensures |r| <= 1
    ensures r != [] <==> (group in md.radioGroups.m &&
      exists j :: 0 <= j < |md.radioGroups.m[group]| && MatchAt(md, value, md.radioGroups.m[group][j]))
    ensures r != [] ==> r[0] in md.radioGroups.m[group] && MatchAt(md, value, r[0])
    ensures r != [] ==> group in md.radioGroups.m && FirstMatching(md, value, md.radioGroups.m[group], r[0])
    ensures forall i :: group in md.radioGroups.m && IsFirstMatch(md, value, md.radioGroups.m[group], i) ==>
      r == [md.radioGroups.m[group][i]]
  {
    if group in md.radioGroups.m then
      var members := md.radioGroups.m[group];
      match FirstMatch(md, value, members)
      case Some(i) =>
        assert IsFirstMatch(md, value, members, i);
        assert forall k :: IsFirstMatch(md, value, members, k) ==> k == i by {
          forall k | IsFirstMatch(md, value, members, k) {
            FirstMatchUnique(md, value, members, i, k);
          }
        }
        [members[i]]
      case None => []
    else []
  }

  /** The picks of a parameter's candidate groups, in the table's order. */
  function GroupPicks(md: Metadata, value: string, groups: seq<string>): (r: seq<string>)
    ensures |r| <= |groups|
    ensures forall x :: x in r ==> exists g :: (g in groups && g in md.radioGroups.m &&
      x in md.radioGroups.m[g] && MatchAt(md, value, x))
    ensures r == [] <==> forall g :: g in groups ==> Pick(md, value, g) == []
  {
    if |groups| == 0 then []
    else
      var rest := GroupPicks(md, value, groups[1..]);
      assert forall g :: g in groups[1..] ==> g in groups;
      Pick(md, value, groups[0]) + rest
  }

  /** Each pick is where the scan of some candidate group stops. */
  lemma {:induction false} GroupPicksSound(md: Metadata, value: string, groups: seq<string>, x: string)
    requires x in GroupPicks(md, value, groups)
    ensures exists g :: g in groups && g in md.radioGroups.m && FirstMatching(md, value, md.radioGroups.m[g], x)
    decreases |groups|
  {
    var head := Pick(md, value, groups[0]);
    assert GroupPicks(md, value, groups) == head + GroupPicks(md, value, groups[1..]);
    if x in head {
      assert x == head[0];
      assert groups[0] in groups;
    } else {
      GroupPicksSound(md, value, groups[1..], x);
      assert forall g :: g in groups[1..] ==> g in groups;
    }
  }

  /** Every candidate group's stopping member is picked. */
  lemma {:induction false} GroupPicksComplete(md: Metadata, value: string, groups: seq<string>, g: string, i: int)
    requires g in groups && g in md.radioGroups.m && IsFirstMatch(md, value, md.radioGroups.m[g], i)
    ensures md.radioGroups.m[g][i] in GroupPicks(md, value, groups)
    decreases |groups|
  {
    var rest := GroupPicks(md, value, groups[1..]);
    assert GroupPicks(md, value, groups) == Pick(md, value, groups[0]) + rest;
    if groups[0] == g {
      assert Pick(md, value, g) == [md.radioGroups.m[g][i]];
    } else {
      assert g in groups[1..];
      GroupPicksComplete(md, value, groups[1..], g, i);
    }
  }

  /** The body of the loop over `params.items()` for one parameter. */
  function Contribution(md: Metadata, param: string, value: string): seq<string> {
    if param == ShippoParam then (if Lower(value) == "true" then [ShippoLayer] else [])
    else GroupPicks(md, value, ParamGroups(param))
  }

  /**
   * One parameter adds: the tail layer iff it is `something_like_shippo` with a value that
   * lower-cases to `true`; otherwise at most one layer per candidate group (two for
   * `head_direction`), each a matching member of one of its groups; nothing for an unknown
   * name or a value no member matches.
   */
  lemma ContributionSpec(md: Metadata, param: string, value: string)
    ensures var r := Contribution(md, param, value);
      && (param == ShippoParam ==> |r| <= 1 && (ShippoLayer in r <==> Lower(value) == "true"))
      && (param != ShippoParam ==> |r| <= |ParamGroups(param)|)
      && (param != ShippoParam ==> forall x :: x in r ==> exists g :: (g in ParamGroups(param) &&
            g in md.radioGroups.m && x in md.radioGroups.m[g] && MatchAt(md, value, x)))
      && (param != ShippoParam && ParamGroups(param) == [] ==> r == [])
      && ((param != ShippoParam &&
           forall g, j :: g in ParamGroups(param) && g in md.radioGroups.m && 0 <= j < |md.radioGroups.m[g]| ==>
             !MatchAt(md, value, md.radioGroups.m[g][j]))
          ==> r == [])
      && (param != ShippoParam ==> forall x :: x in r ==> exists g :: (g in ParamGroups(param) &&
            g in md.radioGroups.m && FirstMatching(md, value, md.radioGroups.m[g], x)))
      && (param != ShippoParam ==> forall g, i ::
            (g in ParamGroups(param) && g in md.radioGroups.m && IsFirstMatch(md, value, md.radioGroups.m[g], i))
            ==> md.radioGroups.m[g][i] in r)
  {
    if param != ShippoParam {
      var groups := ParamGroups(param);
      var r := Contribution(md, param, value);
      assert r == GroupPicks(md, value, groups);
      forall x | x in r
        ensures exists g :: g in groups && g in md.radioGroups.m && FirstMatching(md, value, md.radioGroups.m[g], x)
      {
        GroupPicksSound(md, value, groups, x);
      }
      forall g, i | g in groups && g in md.radioGroups.m && IsFirstMatch(md, value, md.radioGroups.m[g], i)
        ensures md.radioGroups.m[g][i] in r
      {
        GroupPicksComplete(md, value, groups, g, i);
      }
    }
  }

  function Contributions(md: Metadata, items: seq<(string, string)>): (r: seq<string>)
    ensures forall x :: x in r ==> exists i :: 0 <= i < |items| && x in Contribution(md, items[i].0, items[i].1)
    ensures forall i :: 0 <= i < |items| ==> forall x :: x in Contribution(md, items[i].0, items[i].1) ==> x in r
  {
    if |items| == 0 then []
    else
      var rest := Contributions(md, items[1..]);
      assert forall i :: 1 <= i < |items| ==> items[1..][i - 1] == items[i];
      Contribution(md, items[0].0, items[0].1) + rest
  }

  /** `params.items()` in iteration order. */
  function Items(d: Dicts.Dict<string, string>): (r: seq<(string, string)>)
    requires Dicts.Valid(d)
    ensures |r| == |d.keys|
    ensures forall i :: 0 <= i < |r| ==> r[i] == (d.keys[i], d.m[d.keys[i]])
  {
    seq(|d.keys|, i requires 0 <= i < |d.keys| => (d.keys[i], d.m[d.keys[i]]))
  }

  /** `resolve_layer_names`: the required layers, then each parameter's contribution in order. */
  function Resolve(md: Metadata, params: Dicts.Dict<string, string>): seq<string>
    requires Dicts.Valid(params)
  {
    Required(md) + Contributions(md, Items(params))
  }

  /**
   * Every required layer is resolved, whatever the parameters; a `something_like_shippo` value
   * lower-casing to `true` resolves the tail layer; and every resolved name is a required layer,
   * the tail layer asked for so, or a member of a parameter's candidate group that matches that
   * parameter's value.
   */
  lemma ResolveSpec(md: Metadata, params: Dicts.Dict<string, string>, x: string)
    requires Dicts.Valid(params)
    ensures Dicts.Valid(md.layers) && x in md.layers.m && md.layers.m[x].required ==> x in Resolve(md, params)
    ensures ShippoParam in params.m && Lower(params.m[ShippoParam]) == "true" ==> ShippoLayer in Resolve(md, params)
    ensures x in Resolve(md, params) ==>
      || (x in md.layers.m && md.layers.m[x].required)
      || (x == ShippoLayer && ShippoParam in params.m && Lower(params.m[ShippoParam]) == "true")
      || (exists p, g :: p in params.m && g in ParamGroups(p) && g in md.radioGroups.m &&
            x in md.radioGroups.m[g] && MatchAt(md, params.m[p], x) &&
            FirstMatching(md, params.m[p], md.radioGroups.m[g], x))
    ensures forall p, g, i ::
      (p in params.m && g in ParamGroups(p) && g in md.radioGroups.m && IsFirstMatch(md, params.m[p], md.radioGroups.m[g], i))
      ==> md.radioGroups.m[g][i] in Resolve(md, params)
  {
    forall p, g, i | p in params.m && g in ParamGroups(p) && g in md.radioGroups.m &&
      IsFirstMatch(md, params.m[p], md.radioGroups.m[g], i)
      ensures md.radioGroups.m[g][i] in Resolve(md, params)
    {
      PickResolved(md, params, p, g, i);
    }
    if Dicts.Valid(md.layers) && x in md.layers.m && md.layers.m[x].required {
      RequiredResolved(md, params, x);
    }
    if ShippoParam in params.m && Lower(params.m[ShippoParam]) == "true" {
      TailResolved(md, params);
    }
    if x in Resolve(md, params) {
      ResolvedOnly(md, params, x);
    }
  }

  lemma RequiredResolved(md: Metadata, params: Dicts.Dict<string, string>, x: string)
    requires Dicts.Valid(params) && Dicts.Valid(md.layers) && x in md.layers.m && md.layers.m[x].required
    ensures x in Resolve(md, params)
  {
    assert x in Required(md);
  }

  lemma TailResolved(md: Metadata, params: Dicts.Dict<string, string>)
    requires Dicts.Valid(params) && ShippoParam in params.m && Lower(params.m[ShippoParam]) == "true"
    ensures ShippoLayer in Resolve(md, params)
  {
    var items := Items(params);
    var i :| 0 <= i < |params.keys| && params.keys[i] == ShippoParam;
    assert items[i] == (ShippoParam, params.m[ShippoParam]);
    assert ShippoLayer in Contribution(md, items[i].0, items[i].1);
    assert ShippoLayer in Contributions(md, items);
  }

  lemma ResolvedOnly(md: Metadata, params: Dicts.Dict<string, string>, x: string)
    requires Dicts.Valid(params) && x in Resolve(md, params)
    ensures || (x in md.layers.m && md.layers.m[x].required)
      || (x == ShippoLayer && ShippoParam in params.m && Lower(params.m[ShippoParam]) == "true")
      || (exists p, g :: p in params.m && g in ParamGroups(p) && g in md.radioGroups.m &&
            x in md.radioGroups.m[g] && MatchAt(md, params.m[p], x) &&
            FirstMatching(md, params.m[p], md.radioGroups.m[g], x))
  {
    var items := Items(params);
    if x in Contributions(md, items) {
      var i :| 0 <= i < |items| && x in Contribution(md, items[i].0, items[i].1);
      var p := params.keys[i];
      assert items[i] == (p, params.m[p]);
      ContributionSpec(md, p, params.m[p]);
      if p != ShippoParam {
        var g :| g in ParamGroups(p) && g in md.radioGroups.m && FirstMatching(md, params.m[p], md.radioGroups.m[g], x);
        var k :| IsFirstMatch(md, params.m[p], md.radioGroups.m[g], k) && md.radioGroups.m[g][k] == x;
        assert x in md.radioGroups.m[g] && MatchAt(md, params.m[p], x);
      }
    }
  }

  /** A supplied parameter's candidate group contributes the member its scan stops at. */
  lemma PickResolved(md: Metadata, params: Dicts.Dict<string, string>, p: string, g: string, i: int)
    requires Dicts.Valid(params) && p in params.m && g in ParamGroups(p) && g in md.radioGroups.m
    requires IsFirstMatch(md, params.m[p], md.radioGroups.m[g], i)
    ensures md.radioGroups.m[g][i] in Resolve(md, params)
  {
    var items := Items(params);
    var k :| 0 <= k < |params.keys| && params.keys[k] == p;
    assert items[k] == (p, params.m[p]);
    TailHasNoGroups(p);
    ContributionSpec(md, p, params.m[p]);
    assert md.radioGroups.m[g][i] in Contribution(md, items[k].0, items[k].1);
  }

  // ---------------------------------------------------------------- defaults and fallback

  /** `default_params`, in its order. */
  const Defaults: seq<(string, string)> := [
    ("head_direction", "正面向き"),
    ("right_arm", "腰"),
    ("left_arm", "腰"),
    ("edamame", "通常"),
    ("face_color", "ほっぺ基本"),
    ("expression_mouth", "ほう"),
    ("expression_eyes", "基本目"),
    ("expression_eyebrows", "怒り眉"),
    (ShippoParam, "true")
  ]

  /** Every default but the tail's is for a parameter that selects groups, in the table's order. */
  lemma DefaultsAreGroupParams()
    ensures |Defaults| == |GroupParams| + 1 && Defaults[8].0 == ShippoParam
    ensures forall i :: 0 <= i < |GroupParams| ==> Defaults[i].0 == GroupParams[i]
  {
  }

  /** One step of `FillFrom`: the first pair is added when its key is absent. */
  function FillStep(d: Dicts.Dict<string, string>, pair: (string, string)): (r: Dicts.Dict<string, string>)
    requires Dicts.Valid(d)
    ensures Dicts.Valid(r)
    ensures pair.0 in r.m && (pair.0 in d.m ==> r == d)
    ensures pair.0 !in d.m ==> r.m == d.m[pair.0 := pair.1] && r.keys == d.keys + [pair.0]
  {
    Dicts.PutValid(d, pair.0, pair.1);
    if pair.0 in d.m then d else Dicts.Put(d, pair.0, pair.1)
  }

  /** Adds each pair of `defaults` whose key is absent, in order. */
  function FillFrom(d: Dicts.Dict<string, string>, defaults: seq<(string, string)>): (r: Dicts.Dict<string, string>)
    requires Dicts.Valid(d)
    ensures Dicts.Valid(r)
    ensures |d.keys| <= |r.keys| && r.keys[..|d.keys|] == d.keys
    decreases |defaults|
  {
    if |defaults| == 0 then d else FillFrom(FillStep(d, defaults[0]), defaults[1..])
  }

  /** The value paired with the first occurrence of `k` in `pairs`. */
  function FirstValue(pairs: seq<(string, string)>, k: string): string {
    if |pairs| == 0 then "" else if pairs[0].0 == k then pairs[0].1 else FirstValue(pairs[1..], k)
  }

  function PairKeys(pairs: seq<(string, string)>): (r: seq<string>)
    ensures |r| == |pairs| && forall i :: 0 <= i < |r| ==> r[i] == pairs[i].0
  {
    seq(|pairs|, i requires 0 <= i < |pairs| => pairs[i].0)
  }

  lemma FillFromUnfold(d: Dicts.Dict<string, string>, defaults: seq<(string, string)>)
    requires Dicts.Valid(d) && |defaults| > 0
    ensures FillFrom(d, defaults) == FillFrom(FillStep(d, defaults[0]), defaults[1..])
    ensures PairKeys(defaults) == [defaults[0].0] + PairKeys(defaults[1..])
  {
    assert PairKeys(defaults) == [defaults[0].0] + PairKeys(defaults[1..]);
  }

  /** A supplied key keeps its value. */
  lemma {:induction false} FillFromKeeps(d: Dicts.Dict<string, string>, defaults: seq<(string, string)>, k: string)
    requires Dicts.Valid(d) && k in d.m
    ensures k in FillFrom(d, defaults).m && FillFrom(d, defaults).m[k] == d.m[k]
    decreases |defaults|
  {
    if |defaults| > 0 {
      FillFromUnfold(d, defaults);
      var d' := FillStep(d, defaults[0]);
      assert k in d'.m && d'.m[k] == d.m[k];
      FillFromKeeps(d', defaults[1..], k);
    }
  }

  /** An absent key among the defaults gets the value of its first default pair. */
  lemma {:induction false} FillFromAdds(d: Dicts.Dict<string, string>, defaults: seq<(string, string)>, k: string)
    requires Dicts.Valid(d) && k !in d.m && k in PairKeys(defaults)
    ensures k in FillFrom(d, defaults).m && FillFrom(d, defaults).m[k] == FirstValue(defaults, k)
    decreases |defaults|
  {
    FillFromUnfold(d, defaults);
    var d' := FillStep(d, defaults[0]);
    if defaults[0].0 == k {
      assert k in d'.m && d'.m[k] == defaults[0].1;
      FillFromKeeps(d', defaults[1..], k);
    } else {
      assert k !in d'.m;
      FillFromAdds(d', defaults[1..], k);
    }
  }

  /** No key outside the supplied ones and the defaults appears. */
  lemma {:induction false} FillFromOnly(d: Dicts.Dict<string, string>, defaults: seq<(string, string)>, k: string)
    requires Dicts.Valid(d) && k in FillFrom(d, defaults).m
    ensures k in d.m || k in PairKeys(defaults)
    decreases |defaults|
  {
    if |defaults| > 0 {
      FillFromUnfold(d, defaults);
      var d' := FillStep(d, defaults[0]);
      FillFromOnly(d', defaults[1..], k);
    }
  }

  lemma FillFromSpec(d: Dicts.Dict<string, string>, defaults: seq<(string, string)>, k: string)
    requires Dicts.Valid(d)
    ensures var r := FillFrom(d, defaults);
      && (k in d.m ==> k in r.m && r.m[k] == d.m[k])
      && (k !in d.m && k in PairKeys(defaults) ==> k in r.m && r.m[k] == FirstValue(defaults, k))
      && (k in r.m ==> k in d.m || k in PairKeys(defaults))
  {
    if k in d.m {
      FillFromKeeps(d, defaults, k);
    } else if k in PairKeys(defaults) {
      FillFromAdds(d, defaults, k);
    }
    if k in FillFrom(d, defaults).m {
      FillFromOnly(d, defaults, k);
    }
  }

  /** The default-filling loop of `compose_image`. */
  function FillDefaults(params: Dicts.Dict<string, string>): (r: Dicts.Dict<string, string>)
    requires Dicts.Valid(params)
    ensures Dicts.Valid(r)
    ensures |params.keys| <= |r.keys| && r.keys[..|params.keys|] == params.keys
  {
    FillFrom(params, Defaults)
  }

  /** Defaults whose keys are all supplied change nothing. */
  lemma {:induction false} FillFromPresent(d: Dicts.Dict<string, string>, defaults: seq<(string, string)>)
    requires Dicts.Valid(d) && forall i :: 0 <= i < |defaults| ==> defaults[i].0 in d.m
    ensures FillFrom(d, defaults) == d
    decreases |defaults|
  {
    if |defaults| > 0 {
      FillFromUnfold(d, defaults);
      FillFromPresent(d, defaults[1..]);
    }
  }

  /** Filling from two lists of defaults in turn is filling from their concatenation. */
  lemma {:induction false} FillFromConcat(d: Dicts.Dict<string, string>, a: seq<(string, string)>, b: seq<(string, string)>)
    requires Dicts.Valid(d)
    ensures FillFrom(d, a + b) == FillFrom(FillFrom(d, a), b)
    decreases |a|
  {
    if |a| > 0 {
      var d' := FillStep(d, a[0]);
      assert (a + b)[0] == a[0] && (a + b)[1..] == a[1..] + b;
      assert FillFrom(d, a + b) == FillFrom(d', a[1..] + b);
      FillFromConcat(d', a[1..], b);
      assert FillFrom(d, a) == FillFrom(d', a[1..]);
    } else {
      assert a + b == b;
    }
  }

  /** No parameter of `param_to_group` is named twice, nor is the tail's among them. */
  lemma GroupParamsDistinct()
    ensures forall i, j :: 0 <= i < j < |GroupParams| ==> GroupParams[i] != GroupParams[j]
    ensures ShippoParam !in GroupParams
  {
  }

  /**
   * Request parameters given as pairs for the parameters of `param_to_group`, in its order:
   * filling the defaults keeps every pair's value and adds only the tail's default, at the end.
   */
  lemma FillDefaultsOfPairs(pairs: seq<(string, string)>)
    requires |pairs| == |GroupParams| && forall i :: 0 <= i < |pairs| ==> pairs[i].0 == GroupParams[i]
    ensures var r := FillDefaults(Dicts.FromPairs(pairs));
      && r.keys == GroupParams + [ShippoParam]
      && (forall i :: 0 <= i < |pairs| ==> pairs[i].0 in r.m && r.m[pairs[i].0] == pairs[i].1)
      && ShippoParam in r.m && r.m[ShippoParam] == "true"
  {
    GroupParamsDistinct();
    Dicts.FromPairsNamed(pairs, GroupParams);
    var params := Dicts.FromPairs(pairs);
    FillDefaultsComplete(params);
    var r := FillDefaults(params);
    forall i | 0 <= i < |pairs| ensures pairs[i].0 in r.m && r.m[pairs[i].0] == pairs[i].1 {
      assert pairs[i].0 != ShippoParam;
    }
  }

  /** Defaults all supplied but the last, whose key is absent: only the last pair is added. */
  lemma FillFromAllButLast(d: Dicts.Dict<string, string>, front: seq<(string, string)>, last: (string, string))
    requires Dicts.Valid(d) && forall i :: 0 <= i < |front| ==> front[i].0 in d.m
    requires last.0 !in d.m
    ensures FillFrom(d, front + [last]).keys == d.keys + [last.0]
    ensures FillFrom(d, front + [last]).m == d.m[last.0 := last.1]
  {
    FillFromConcat(d, front, [last]);
    FillFromPresent(d, front);
    assert FillFrom(d, [last]) == FillFrom(FillStep(d, last), []);
  }

  /**
   * A request naming every parameter of `param_to_group`, in its order, gets only the tail's
   * default added, at the end.
   */
  lemma FillDefaultsComplete(params: Dicts.Dict<string, string>)
    requires Dicts.Valid(params) && params.keys == GroupParams
    ensures FillDefaults(params).keys == GroupParams + [ShippoParam]
    ensures FillDefaults(params).m == params.m[ShippoParam := "true"]
  {
    DefaultsAreGroupParams();
    var front := Defaults[..8];
    assert Defaults == front + [Defaults[8]];
    assert forall i :: 0 <= i < |front| ==> front[i].0 == params.keys[i];
    FillFromAllButLast(params, front, Defaults[8]);
  }

  /**
   * Supplied parameters keep their values (and, above, their order at the front); an absent
   * default key is added with its default value; no other key appears.
   */
  lemma FillDefaultsSpec(params: Dicts.Dict<string, string>, k: string)
    requires Dicts.Valid(params)
    ensures var r := FillDefaults(params);
      && (k in params.m ==> k in r.m && r.m[k] == params.m[k])
      && (k !in params.m && k in PairKeys(Defaults) ==> k in r.m && r.m[k] == FirstValue(Defaults, k))
      && (k in r.m ==> k in params.m || k in PairKeys(Defaults))
  {
    FillFromSpec(params, Defaults, k);
  }

  /** With no parameters at all, every default is in force: the tail layer is resolved. */
  lemma NoParamsShowTail(md: Metadata)
    ensures var filled := FillDefaults(Dicts.Empty());
      ShippoParam in filled.m && filled.m[ShippoParam] == "true" && ShippoLayer in Resolve(md, filled)
  {
    var filled := FillDefaults(Dicts.Empty());
    assert PairKeys(Defaults)[8] == ShippoParam;
    FillDefaultsSpec(Dicts.Empty(), ShippoParam);
    DefaultTail();
    LowerTrue();
    ResolveSpec(md, filled, ShippoLayer);
  }

  lemma DefaultTail()
    ensures FirstValue(Defaults, ShippoParam) == "true"
  {
    var tail := Defaults[8..];
    assert tail == [(ShippoParam, "true")];
    assert forall j :: 0 <= j < 8 ==> Defaults[j].0 != ShippoParam;
    FirstValueSkip(Defaults, 8, ShippoParam);
  }

  lemma {:induction false} FirstValueSkip(pairs: seq<(string, string)>, n: nat, k: string)
    requires n <= |pairs| && forall j :: 0 <= j < n ==> pairs[j].0 != k
    ensures FirstValue(pairs, k) == FirstValue(pairs[n..], k)
    decreases n
  {
    if n > 0 {
      assert pairs[1..][n - 1..] == pairs[n..];
      FirstValueSkip(pairs[1..], n - 1, k);
    }
  }

  lemma LowerTrue()
    ensures Lower("true") == "true"
  {
    var l := Lower("true");
    assert l[0] == 't' && l[1] == 'r' && l[2] == 'u' && l[3] == 'e';
  }

  /** An empty resolution falls back to `["base_body"]`. */
  function Fallback(names: seq<string>): (r: seq<string>)
    ensures r != []
    ensures names != [] ==> r == names
  {
    if names == [] then ["base_body"] else names
  }

  // ---------------------------------------------------------------- paint sequence

  /** The elements of `s` whose membership in `t` is `inside`, in order. */
  function Filter(s: seq<string>, t: seq<string>, inside: bool): (r: seq<string>)
    ensures forall x :: multiset(r)[x] == if (x in t) == inside then multiset(s)[x] else 0
  {
    if |s| == 0 then []
    else
      assert s == [s[0]] + s[1..];
      (if (s[0] in t) == inside then [s[0]] else []) + Filter(s[1..], t, inside)
  }

  /** The two passes of `compose_image`: composition order first, then the names it lacks. */
  function PaintOrder(order: seq<string>, names: seq<string>): seq<string> {
    Filter(order, names, true) + Filter(names, order, false)
  }

  /**
   * Exactly the resolved names are painted: a name listed in the composition order is painted
   * as often as the order lists it, any other resolved name as often as it was resolved.
   */
  lemma PaintOrderSpec(order: seq<string>, names: seq<string>, x: string)
    ensures x in PaintOrder(order, names) <==> x in names
    ensures multiset(PaintOrder(order, names))[x] ==
      if x !in names then 0 else if x in order then multiset(order)[x] else multiset(names)[x]
  {
    var p := PaintOrder(order, names);
    assert multiset(p) == multiset(Filter(order, names, true)) + multiset(Filter(names, order, false));
    assert x in p <==> multiset(p)[x] > 0;
    assert x in names <==> multiset(names)[x] > 0;
    assert x in order <==> multiset(order)[x] > 0;
  }

  // ---------------------------------------------------------------- available options

  /** `group_mapping.get(g, g.lower().replace(' ', '_'))` */
  function GroupParam(group: string): string {
    if group == "頭_上向き" || group == "頭_正面向き" then "head_direction"
    else if group == "右腕" then "right_arm"
    else if group == "左腕" then "left_arm"
    else if group == "枝豆" then "edamame"
    else if group == "顔色" then "face_color"
    else if group == "口" then "expression_mouth"
    else if group == "目" then "expression_eyes"
    else if group == "眉" then "expression_eyebrows"
    else KeyForm(group)
  }

  /**
   * The two tables agree: a parameter selects from exactly the groups that the option listing
   * names after it.
   */
  lemma GroupTablesAgree(param: string, group: string)
    ensures group in ParamGroups(param) ==> GroupParam(group) == param
  {
    if group in ParamGroups(param) {
      if param == "head_direction" {
        assert group == "頭_上向き" || group == "頭_正面向き";
      } else {
        assert ParamGroups(param) == [group];
      }
    }
  }

  /**
   * The converse fails: a group outside the table can be listed under a parameter's name
   * without the parameter ever selecting from it. A group `head direction` is offered as
   * `head_direction`, but `head_direction` selects only from its two table groups.
   */
  lemma GroupTablesOneWay()
    ensures GroupParam("head direction") == "head_direction"
    ensures "head direction" !in ParamGroups("head_direction")
  {
    var g: string := "head direction";
    assert Lower(g) == g by {
      forall i | 0 <= i < |g| ensures LowerChar(g[i]) == g[i] {
      }
    }
    assert Subst(g, ' ', '_') == "head_direction";
  }

  /** An option as offered: underscores to spaces, parentheses dropped. */
  function CleanOption(option: string): string {
    Remove(Subst(option, '_', ' '), {'(', ')'})
  }

  function CleanOptions(options: seq<string>): (r: seq<string>)
    ensures |r| == |options| && forall i :: 0 <= i < |r| ==> r[i] == CleanOption(options[i])
  {
    seq(|options|, i requires 0 <= i < |options| => CleanOption(options[i]))
  }

  /** `get_available_options` */
  function AvailableOptions(md: Metadata): (r: Dicts.Dict<string, seq<string>>)
    requires Dicts.Valid(md.radioGroups)
    ensures Dicts.Valid(r)
  {
    var d := Dicts.Rekey(md.radioGroups, GroupParam, CleanOptions);
    Dicts.PutValid(d, ShippoParam, ["true", "false"]);
    Dicts.Put(d, ShippoParam, ["true", "false"])
  }

  /**
   * The option listing has a key for every radio group's parameter and for
   * `something_like_shippo` and no other; the tail offers `true`/`false`; every other key
   * carries the cleaned members of the LAST group listed under it (the two head groups share
   * `head_direction`, so the later one wins).
   */
  lemma AvailableOptionsSpec(md: Metadata, p: string)
    requires Dicts.Valid(md.radioGroups)
    ensures var r := AvailableOptions(md);
      && (p in r.m <==> p == ShippoParam || exists j :: 0 <= j < |md.radioGroups.keys| && GroupParam(md.radioGroups.keys[j]) == p)
      && r.m[ShippoParam] == ["true", "false"]
      && (forall j :: p != ShippoParam && Dicts.LastWith(md.radioGroups, GroupParam, p, j) ==>
            r.m[p] == CleanOptions(md.radioGroups.m[md.radioGroups.keys[j]]))
  {
    Dicts.RekeySpec(md.radioGroups, GroupParam, CleanOptions, p);
  }

  // ---------------------------------------------------------------- options select their layer

  predicate NoParens(s: string) {
    forall i :: 0 <= i < |s| ==> s[i] != '(' && s[i] != ')'
  }

  /** The value side and the identifier side normalise one character alike. */
  lemma CleanChar(c: char)
    requires c != '(' && c != ')'
    ensures ParamClean(CleanOption([c])) == LayerClean([c])
  {
    var c' := if c == '_' then ' ' else c;
    assert Subst([c], '_', ' ') == [c'];
    assert Remove([c'], {'(', ')'}) == [c'];
    assert Lower([c']) == [LowerChar(c')];
    assert Lower([c]) == [LowerChar(c)];
  }

  lemma {:induction false} CleanSplit(a: string, b: string)
    ensures CleanOption(a + b) == CleanOption(a) + CleanOption(b)
    ensures ParamClean(a + b) == ParamClean(a) + ParamClean(b)
    ensures LayerClean(a + b) == LayerClean(a) + LayerClean(b)
  {
    assert Subst(a + b, '_', ' ') == Subst(a, '_', ' ') + Subst(b, '_', ' ');
    RemoveConcat(Subst(a, '_', ' '), Subst(b, '_', ' '), {'(', ')'});
    LowerConcat(a, b);
    RemoveConcat(Lower(a), Lower(b), {' ', '(', ')'});
    RemoveConcat(Lower(a), Lower(b), {'_', ' '});
  }

  /** For an identifier without parentheses, the offered option normalises to the identifier's form. */
  lemma {:induction false} CleanOptionNormalises(layerName: string)
    requires NoParens(layerName)
    ensures ParamClean(CleanOption(layerName)) == LayerClean(layerName)
    decreases |layerName|
  {
    if |layerName| > 0 {
      var c, rest := layerName[0], layerName[1..];
      assert layerName == [c] + rest;
      CleanSplit([c], rest);
      CleanSplit(CleanOption([c]), CleanOption(rest));
      CleanChar(c);
      CleanOptionNormalises(rest);
    }
  }

  /** An offered option, sent back as a value, matches the layer it was made from. */
  lemma OptionMatchesItsLayer(layerName: string, originalName: string)
    requires NoParens(layerName)
    ensures Matches(CleanOption(layerName), originalName, layerName)
  {
    CleanOptionNormalises(layerName);
    ContainsSelf(LayerClean(layerName));
  }

  /**
   * Round trip through the API: a member of a mapped radio group, offered as an option of that
   * group's parameter and sent back as that parameter's value, makes the group contribute a
   * layer (the first member matching the value, which need not be this one).
   */
  lemma OptionResolves(md: Metadata, group: string, member: string)
    requires group in md.radioGroups.m && member in md.radioGroups.m[group] && NoParens(member)
    requires group in ParamGroups(GroupParam(group))
    ensures Pick(md, CleanOption(member), group) != []
    ensures Contribution(md, GroupParam(group), CleanOption(member)) != []
  {
    var v := CleanOption(member);
    OptionMatchesItsLayer(member, OriginalName(md, member));
    var j :| 0 <= j < |md.radioGroups.m[group]| && md.radioGroups.m[group][j] == member;
    PickFinds(md, v, group, j);
    ContributionFinds(md, GroupParam(group), v, group);
  }

  /** A parameter with a candidate group that contributes a pick contributes something. */
  lemma ContributionFinds(md: Metadata, param: string, value: string, group: string)
    requires group in ParamGroups(param) && Pick(md, value, group) != []
    ensures Contribution(md, param, value) != []
  {
    TailHasNoGroups(param);
    GroupPicksFinds(md, value, ParamGroups(param), group);
    ContributionOfGroups(md, param, value);
  }

  /** A group with a matching member contributes a pick. */
  lemma PickFinds(md: Metadata, value: string, group: string, j: int)
    requires group in md.radioGroups.m && 0 <= j < |md.radioGroups.m[group]|
    requires MatchAt(md, value, md.radioGroups.m[group][j])
    ensures Pick(md, value, group) != []
  {
  }

  /** A candidate group that contributes a pick makes the picks non-empty. */
  lemma GroupPicksFinds(md: Metadata, value: string, groups: seq<string>, group: string)
    requires group in groups && Pick(md, value, group) != []
    ensures GroupPicks(md, value, groups) != []
  {
  }

  lemma TailHasNoGroups(param: string)
    ensures param == ShippoParam ==> ParamGroups(param) == []
  {
  }

  lemma ContributionOfGroups(md: Metadata, param: string, value: string)
    requires param != ShippoParam
    ensures Contribution(md, param, value) == GroupPicks(md, value, ParamGroups(param))
  {
  }
}

=== FILE: rpm_expression.dfy ===
/**
 * The kiosk's choice of mascot expression from the engine speed
 * (kiosk/src/hooks/useZundamonExpression.ts): four speed ranges, a fixed expression per range
 * and the image request built from it. Engine speed is a JavaScript number, modelled as a real;
 * NaN is not modelled.
 */
module RpmExpression {
  import opened Text
  import Resolver
  import Dicts

  datatype RpmRange = Idle | NormalRange | Active | High

  /** `getRPMRange` */
  function RangeOf(rpm: real): RpmRange {
    if rpm < 1500.0 then Idle
    else if rpm < 3000.0 then NormalRange
    else if rpm < 4500.0 then Active
    else High
  }

  /** The ranges in increasing engine speed. */
  function Rank(r: RpmRange): nat {
    match r
    case Idle => 0
    case NormalRange => 1
    case Active => 2
    case High => 3
  }

  /**
   * A speed falls in a range iff it is at least that range's threshold and below the next
   * one's: below 1500 idle, below 3000 normal, below 4500 active, otherwise high.
   */
  lemma RangeOfSpec(rpm: real)
    ensures RangeOf(rpm) == Idle <==> rpm < 1500.0
    ensures RangeOf(rpm) == NormalRange <==> 1500.0 <= rpm < 3000.0
    ensures RangeOf(rpm) == Active <==> 3000.0 <= rpm < 4500.0
    ensures RangeOf(rpm) == High <==> 4500.0 <= rpm
  {
  }

  /** A faster engine never shows a calmer range. */
  lemma RangeMonotone(rpm1: real, rpm2: real)
    requires rpm1 <= rpm2
    ensures Rank(RangeOf(rpm1)) <= Rank(RangeOf(rpm2))
  {
  }

  /** `ZundamonExpression`: one value for each of the eight compositor parameters. */
  datatype Expression = Expression(
    headDirection: string, rightArm: string, leftArm: string, edamame: string,
    faceColor: string, mouth: string, eyes: string, eyebrows: string)

  /** `getExpressionForRPM` */
  function ExpressionFor(r: RpmRange): Expression {
    match r
    case Idle => Expression("正面向き", "腰", "腰", "通常", "ほっぺ基本", "ほほえみ", "なごみ目", "基本眉")
    case NormalRange => Expression("正面向き", "基本", "基本", "通常", "ほっぺ基本", "えへ", "基本目", "基本眉")
    case Active => Expression("正面向き", "手を挙げる", "手を挙げる", "立ち", "ほっぺ赤め", "あは", "にっこり", "上がり眉")
    case High => Expression("上向き", "指差し上", "手を挙げる", "立ち", "赤面", "お", "〇〇", "上がり眉")
  }

  /** Only the high range turns the head upwards; the others face forward. */
  lemma OnlyHighLooksUp(r: RpmRange)
    ensures ExpressionFor(r).headDirection == "上向き" <==> r == High
    ensures r != High ==> ExpressionFor(r).headDirection == "正面向き"
  {
  }

  /** `Object.entries(expression)`, in the interface's field order. */
  function Entries(e: Expression): (r: seq<(string, string)>)
    ensures |r| == 8
  {
    [("head_direction", e.headDirection), ("right_arm", e.rightArm), ("left_arm", e.leftArm),
     ("edamame", e.edamame), ("face_color", e.faceColor), ("expression_mouth", e.mouth),
     ("expression_eyes", e.eyes), ("expression_eyebrows", e.eyebrows)]
  }

  /**
   * Every parameter the kiosk sends is one the compositor selects layers for, and the kiosk
   * sends them in the order of the compositor's defaults, tail parameter aside; so the
   * compositor fills in only `something_like_shippo`.
   */
  lemma EntriesAreCompositorParameters(e: Expression)
    ensures forall i :: 0 <= i < 8 ==>
      Resolver.ParamGroups(Entries(e)[i].0) != [] && Entries(e)[i].0 == Resolver.Defaults[i].0
    ensures Resolver.Defaults[8].0 == Resolver.ShippoParam
  {
  }

  const UrlPrefix: string := "/api/zundamon/generate?"

  /** What the hook returns. */
  datatype HookResult = HookResult(expression: Expression, url: string, range: RpmRange)

  /**
   * `useZundamonExpression(rpm)`. The query-string encoding of `URLSearchParams` is a
   * parameter.
   */
  function UseExpression(rpm: real, encode: seq<(string, string)> -> string): (r: HookResult)
    ensures r.range == RangeOf(rpm) && r.expression == ExpressionFor(r.range)
    ensures StartsWith(r.url, UrlPrefix)
    ensures r.url[|UrlPrefix|..] == encode(Entries(r.expression))
  {
    var e := ExpressionFor(RangeOf(rpm));
    HookResult(e, UrlPrefix + encode(Entries(e)), RangeOf(rpm))
  }

  /** The eight entries are keyed by the parameters of `param_to_group`, in its order. */
  lemma EntriesKeys(e: Expression)
    ensures |Entries(e)| == |Resolver.GroupParams|
    ensures forall i :: 0 <= i < |Entries(e)| ==> Entries(e)[i].0 == Resolver.GroupParams[i]
  {
  }

  /**
   * An expression's entries, as the compositor's request parameters: filling the defaults adds
   * only `something_like_shippo` with `"true"`, at the end, and keeps every entry's value.
   */
  lemma ExpressionRequest(e: Expression)
    ensures var r := Resolver.FillDefaults(Dicts.FromPairs(Entries(e)));
      && r.keys == Resolver.GroupParams + [Resolver.ShippoParam]
      && (forall i :: 0 <= i < 8 ==> Entries(e)[i].0 in r.m && r.m[Entries(e)[i].0] == Entries(e)[i].1)
      && Resolver.ShippoParam in r.m && r.m[Resolver.ShippoParam] == "true"
  {
    EntriesKeys(e);
    Resolver.FillDefaultsOfPairs(Entries(e));
  }

  /**
   * The request the hook's URL carries, decoded into the compositor's parameters, names the
   * eight parameters of the current expression in order; filling the defaults adds only
   * `something_like_shippo` with `"true"`, so the picture drawn is the expression's own.
   */
  lemma UseExpressionRequest(rpm: real, encode: seq<(string, string)> -> string)
    ensures var e := ExpressionFor(RangeOf(rpm));
      var r := Resolver.FillDefaults(Dicts.FromPairs(Entries(e)));
      && UseExpression(rpm, encode).expression == e
      && r.keys == Resolver.GroupParams + [Resolver.ShippoParam]
      && (forall i :: 0 <= i < 8 ==> Entries(e)[i].0 in r.m && r.m[Entries(e)[i].0] == Entries(e)[i].1)
      && Resolver.ShippoParam in r.m && r.m[Resolver.ShippoParam] == "true"
  {
    ExpressionRequest(ExpressionFor(RangeOf(rpm)));
  }
}

=== FILE: system_alerts.dfy ===
/**
 * The console page's health checks (kiosk/src/pages/ConsoleMode.tsx): coolant temperature and
 * battery voltage levels, the alert list shown beside the mascot, and the engine-state label.
 * Readings are JavaScript numbers, modelled as reals; NaN is not modelled.
 */
module SystemAlerts {
  import opened RpmExpression

  datatype Level = Normal | Warning | Danger

  datatype AlertKind = Temperature | Battery | Weather | Rpm

  /** `SystemAlert` */
  datatype Alert = Alert(level: Level, message: string, kind: AlertKind)

  /** `getTemperatureAlert`: higher is worse. */
  function TemperatureAlert(temp: real): Level {
    if temp >= 100.0 then Danger else if temp >= 95.0 then Warning else Normal
  }

  /** `getBatteryAlert`: lower is worse. */
  function BatteryAlert(voltage: real): Level {
    if voltage < 12.0 then Danger else if voltage < 12.5 then Warning else Normal
  }

  function Severity(l: Level): nat {
    match l
    case Normal => 0
    case Warning => 1
    case Danger => 2
  }

  /**
   * Temperature: at least 100 is danger, at least 95 warning; battery: below 12.0 danger, below
   * 12.5 warning. A hotter engine or a weaker battery is never rated less severe.
   */
  lemma LevelsSpec(temp: real, voltage: real)
    ensures TemperatureAlert(temp) == Danger <==> temp >= 100.0
    ensures TemperatureAlert(temp) == Warning <==> 95.0 <= temp < 100.0
    ensures BatteryAlert(voltage) == Danger <==> voltage < 12.0
    ensures BatteryAlert(voltage) == Warning <==> 12.0 <= voltage < 12.5
    ensures forall t :: t >= temp ==> Severity(TemperatureAlert(t)) >= Severity(TemperatureAlert(temp))
    ensures forall v :: v <= voltage ==> Severity(BatteryAlert(v)) >= Severity(BatteryAlert(voltage))
  {
  }

  const TempDangerMessage: string := "水温が危険レベルなのだ！すぐに停車するのだ！"
  const TempWarningMessage: string := "水温が高めなのだ。注意が必要なのだ。"
  const BatteryDangerMessage: string := "バッテリーが危険なのだ！交換が必要なのだ！"
  const BatteryWarningMessage: string := "バッテリーが弱ってるのだ。要注意なのだ。"
  const RainMessage: string := "雨が近づいてるのだ！屋根を閉めるのだ！"

  /** The coolant block of `generateSystemAlerts`, which repeats the thresholds inline. */
  function TemperatureAlerts(temp: real): seq<Alert> {
    if temp >= 100.0 then [Alert(Danger, TempDangerMessage, Temperature)]
    else if temp >= 95.0 then [Alert(Warning, TempWarningMessage, Temperature)]
    else []
  }

  /** The battery block. */
  function BatteryAlerts(voltage: real): seq<Alert> {
    if voltage < 12.0 then [Alert(Danger, BatteryDangerMessage, Battery)]
    else if voltage < 12.5 then [Alert(Warning, BatteryWarningMessage, Battery)]
    else []
  }

  /** The rain block. */
  function WeatherAlerts(rainAlert: bool): seq<Alert> {
    if rainAlert then [Alert(Warning, RainMessage, Weather)] else []
  }

  /** `generateSystemAlerts` */
  function GenerateSystemAlerts(temp: real, voltage: real, rainAlert: bool): seq<Alert> {
    TemperatureAlerts(temp) + BatteryAlerts(voltage) + WeatherAlerts(rainAlert)
  }

  /** The alerts of the given kind, in order. */
  function AlertsOfKind(alerts: seq<Alert>, kind: AlertKind): (r: seq<Alert>)
    ensures forall a :: a in r <==> a in alerts && a.kind == kind
  {
    if |alerts| == 0 then []
    else (if alerts[0].kind == kind then [alerts[0]] else []) + AlertsOfKind(alerts[1..], kind)
  }

  lemma {:induction false} AlertsOfKindConcat(a: seq<Alert>, b: seq<Alert>, kind: AlertKind)
    ensures AlertsOfKind(a + b, kind) == AlertsOfKind(a, kind) + AlertsOfKind(b, kind)
    decreases |a|
  {
    if |a| > 0 {
      assert (a + b)[1..] == a[1..] + b;
      AlertsOfKindConcat(a[1..], b, kind);
    } else {
      assert a + b == b;
    }
  }

  function KindRank(k: AlertKind): nat {
    match k
    case Temperature => 0
    case Battery => 1
    case Weather => 2
    case Rpm => 3
  }

  /**
   * The list holds at most three alerts, ordered temperature, battery, weather (so at most one
   * of each), and none of them at the normal level.
   */
  lemma GenerateSystemAlertsShape(temp: real, voltage: real, rainAlert: bool)
    ensures var alerts := GenerateSystemAlerts(temp, voltage, rainAlert);
      && |alerts| <= 3
      && (forall i, j :: 0 <= i < j < |alerts| ==> KindRank(alerts[i].kind) < KindRank(alerts[j].kind))
      && (forall i :: 0 <= i < |alerts| ==> alerts[i].level != Normal)
  {
  }

  /**
   * The coolant block, though it repeats the thresholds inline, agrees with the level function:
   * it raises one temperature alert exactly when the level is above normal, at that level.
   */
  lemma TemperatureAlertsAgree(temp: real)
    ensures |TemperatureAlerts(temp)| == (if TemperatureAlert(temp) == Normal then 0 else 1)
    ensures forall a :: a in TemperatureAlerts(temp) ==> a.kind == Temperature && a.level == TemperatureAlert(temp)
  {
  }

  /** Likewise the battery block. */
  lemma BatteryAlertsAgree(voltage: real)
    ensures |BatteryAlerts(voltage)| == (if BatteryAlert(voltage) == Normal then 0 else 1)
    ensures forall a :: a in BatteryAlerts(voltage) ==> a.kind == Battery && a.level == BatteryAlert(voltage)
  {
  }

  /** No alert of a kind yields nothing for that kind. */
  lemma {:induction false} AlertsOfKindNone(a: seq<Alert>, kind: AlertKind)
    requires forall i :: 0 <= i < |a| ==> a[i].kind != kind
    ensures AlertsOfKind(a, kind) == []
    decreases |a|
  {
    if |a| > 0 {
      AlertsOfKindNone(a[1..], kind);
    }
  }

  /** Only alerts of one kind yields all of them. */
  lemma {:induction false} AlertsOfKindAll(a: seq<Alert>, kind: AlertKind)
    requires forall i :: 0 <= i < |a| ==> a[i].kind == kind
    ensures AlertsOfKind(a, kind) == a
    decreases |a|
  {
    if |a| > 0 {
      AlertsOfKindAll(a[1..], kind);
      assert a == [a[0]] + a[1..];
    }
  }

  /** Selecting a kind from a block of one kind keeps all of it or none of it. */
  lemma SingleKind(a: seq<Alert>, ka: AlertKind, kind: AlertKind)
    requires forall i :: 0 <= i < |a| ==> a[i].kind == ka
    ensures AlertsOfKind(a, kind) == if ka == kind then a else []
  {
    if ka == kind {
      AlertsOfKindAll(a, kind);
    } else {
      AlertsOfKindNone(a, kind);
    }
  }

  /** Each block holds alerts of its own kind only. */
  lemma BlockKinds(temp: real, voltage: real, rainAlert: bool)
    ensures forall i :: 0 <= i < |TemperatureAlerts(temp)| ==> TemperatureAlerts(temp)[i].kind == Temperature
    ensures forall i :: 0 <= i < |BatteryAlerts(voltage)| ==> BatteryAlerts(voltage)[i].kind == Battery
    ensures forall i :: 0 <= i < |WeatherAlerts(rainAlert)| ==> WeatherAlerts(rainAlert)[i].kind == Weather
  {
  }

  /** Selecting one kind from the three blocks, in order. */
  lemma SelectBlocks(temp: real, voltage: real, rainAlert: bool, kind: AlertKind)
    ensures AlertsOfKind(GenerateSystemAlerts(temp, voltage, rainAlert), kind) ==
      AlertsOfKind(TemperatureAlerts(temp), kind) + AlertsOfKind(BatteryAlerts(voltage), kind) +
      AlertsOfKind(WeatherAlerts(rainAlert), kind)
  {
    var t, b, w := TemperatureAlerts(temp), BatteryAlerts(voltage), WeatherAlerts(rainAlert);
    AlertsOfKindConcat(t + b, w, kind);
    AlertsOfKindConcat(t, b, kind);
  }

  /**
   * Selecting one kind from the alert list gives back exactly that kind's block: the temperature
   * alerts are the coolant block's, the battery alerts the battery block's, the weather alerts
   * the rain block's.
   */
  lemma GenerateSystemAlertsKinds(temp: real, voltage: real, rainAlert: bool, kind: AlertKind)
    ensures kind == Temperature ==> AlertsOfKind(GenerateSystemAlerts(temp, voltage, rainAlert), kind) == TemperatureAlerts(temp)
    ensures kind == Battery ==> AlertsOfKind(GenerateSystemAlerts(temp, voltage, rainAlert), kind) == BatteryAlerts(voltage)
    ensures kind == Weather ==> AlertsOfKind(GenerateSystemAlerts(temp, voltage, rainAlert), kind) == WeatherAlerts(rainAlert)
    ensures kind == Rpm ==> AlertsOfKind(GenerateSystemAlerts(temp, voltage, rainAlert), kind) == []
  {
    var t, b, w := TemperatureAlerts(temp), BatteryAlerts(voltage), WeatherAlerts(rainAlert);
    SelectBlocks(temp, voltage, rainAlert, kind);
    BlockKinds(temp, voltage, rainAlert);
    SingleKind(t, Temperature, kind);
    SingleKind(b, Battery, kind);
    SingleKind(w, Weather, kind);
    if kind == Temperature {
      assert t + [] + [] == t;
    } else if kind == Battery {
      assert [] + b + [] == b;
    } else if kind == Weather {
      assert [] + [] + w == w;
    }
  }

  /** The engine-state label of the engine card. */
  function EngineState(rpm: real): string {
    if rpm < 1500.0 then "アイドリング"
    else if rpm < 3000.0 then "通常走行"
    else if rpm < 4500.0 then "活発走行"
    else "高回転"
  }

  /** The label uses the same three boundaries as the mascot's speed ranges. */
  lemma EngineStateFollowsRange(rpm: real)
    ensures EngineState(rpm) == match RangeOf(rpm)
      case Idle => "アイドリング"
      case NormalRange => "通常走行"
      case Active => "活発走行"
      case High => "高回転"
  {
  }
}

=== FILE: text.dfy ===
/**
 * The string operations the source applies to layer names, as functions on `seq<char>`.
 * Only ASCII letters are case-mapped: Python's `str.lower()` also maps other scripts'
 * capitals, but it is the identity on the Japanese names the artwork uses.
 */
module Text {

  predicate IsUpper(c: char) {
    'A' <= c <= 'Z'
  }

  function LowerChar(c: char): (r: char)
    ensures !IsUpper(r)
    ensures !IsUpper(c) ==> r == c
  {
    if IsUpper(c) then (c as int + 32) as char else c
  }

  /** `s.lower()` */
  function Lower(s: string): (r: string)
    ensures |r| == |s|
    ensures forall i :: 0 <= i < |s| ==> r[i] == LowerChar(s[i])
  {
    seq(|s|, i requires 0 <= i < |s| => LowerChar(s[i]))
  }

  predicate IsLowered(s: string) {
    forall i :: 0 <= i < |s| ==> !IsUpper(s[i])
  }

  lemma LowerIsLowered(s: string)
    ensures IsLowered(Lower(s))
    ensures IsLowered(s) ==> Lower(s) == s
  {
  }

  lemma LoweredConcat(a: string, b: string)
    requires IsLowered(a) && IsLowered(b)
    ensures IsLowered(a + b)
  {
    forall i | 0 <= i < |a + b| ensures !IsUpper((a + b)[i]) {
      if i < |a| { assert (a + b)[i] == a[i]; } else { assert (a + b)[i] == b[i - |a|]; }
    }
  }

  /** Lower-casing makes no space. */
  lemma LowerAvoidsSpaces(s: string)
    requires Avoids(s, {' '})
    ensures Avoids(Lower(s), {' '})
  {
  }

  lemma LowerConcat(a: string, b: string)
    ensures Lower(a + b) == Lower(a) + Lower(b)
  {
  }

  /** `s.lstrip(chars)`: the longest prefix made only of characters in `cs` is dropped. */
  function LStrip(s: string, cs: set<char>): (r: string)
    ensures |r| <= |s| && r == s[|s| - |r|..]
    ensures forall i :: 0 <= i < |s| - |r| ==> s[i] in cs
    ensures |r| > 0 ==> r[0] !in cs
  {
    if |s| > 0 && s[0] in cs then
      var t := LStrip(s[1..], cs);
      assert s[1..][|s| - 1 - |t|..] == s[|s| - |t|..];
      assert forall i :: 1 <= i < |s| - |t| ==> s[i] == s[1..][i - 1];
      t
    else s
  }

  /** A chain of `s.replace(c, '')`, one for each character `c` in `cs`. */
  function Remove(s: string, cs: set<char>): (r: string)
    ensures |r| <= |s|
    ensures forall i :: 0 <= i < |r| ==> r[i] !in cs && r[i] in s
    ensures (forall i :: 0 <= i < |s| ==> s[i] !in cs) ==> r == s
  {
    if |s| == 0 then []
    else (if s[0] in cs then [] else [s[0]]) + Remove(s[1..], cs)
  }

  /** Removal distributes over concatenation. */
  lemma {:induction false} RemoveConcat(a: string, b: string, cs: set<char>)
    ensures Remove(a + b, cs) == Remove(a, cs) + Remove(b, cs)
    decreases |a|
  {
    if |a| > 0 {
      assert (a + b)[0] == a[0];
      assert (a + b)[1..] == a[1..] + b;
      RemoveConcat(a[1..], b, cs);
      assert Remove(a, cs) == (if a[0] in cs then [] else [a[0]]) + Remove(a[1..], cs);
    } else {
      assert a + b == b;
    }
  }

  lemma LStripNone(s: string, cs: set<char>)
    requires |s| > 0 ==> s[0] !in cs
    ensures LStrip(s, cs) == s
  {
  }

  /** `s.replace(a, b)` for single characters `a` and `b`. */
  function Subst(s: string, a: char, b: char): (r: string)
    ensures |r| == |s|
    ensures forall i :: 0 <= i < |s| ==> r[i] == (if s[i] == a then b else s[i])
  {
    seq(|s|, i requires 0 <= i < |s| => if s[i] == a then b else s[i])
  }

  /** Substitution distributes over concatenation. */
  lemma SubstConcat(a: string, b: string, x: char, y: char)
    ensures Subst(a + b, x, y) == Subst(a, x, y) + Subst(b, x, y)
  {
  }

  /** `s.lower().replace(' ', '_')`: the form a group name takes as a directory or parameter key. */
  function KeyForm(s: string): (r: string)
    ensures |r| == |s| && IsLowered(r)
    ensures forall i :: 0 <= i < |r| ==> r[i] != ' '
  {
    Subst(Lower(s), ' ', '_')
  }

  /** No character of `s` is in `cs`. */
  predicate Avoids(s: string, cs: set<char>) {
    forall i :: 0 <= i < |s| ==> s[i] !in cs
  }

  lemma AvoidsConcat(a: string, b: string, cs: set<char>)
    requires Avoids(a, cs) && Avoids(b, cs)
    ensures Avoids(a + b, cs)
  {
    forall i | 0 <= i < |a + b| ensures (a + b)[i] !in cs {
      if i < |a| { assert (a + b)[i] == a[i]; } else { assert (a + b)[i] == b[i - |a|]; }
    }
  }

  lemma AvoidsFewer(s: string, cs: set<char>, fewer: set<char>)
    requires Avoids(s, cs) && fewer <= cs
    ensures Avoids(s, fewer)
  {
  }

  /** Removing characters keeps out what was already out, and the removed ones too. */
  lemma RemoveAvoids(s: string, cs: set<char>, out: set<char>)
    requires Avoids(s, out)
    ensures Avoids(Remove(s, cs), out + cs)
  {
    var r := Remove(s, cs);
    forall i | 0 <= i < |r| ensures r[i] !in out + cs {
      assert r[i] in s;
    }
  }

  /** Replacing `a` by a character that is out keeps out what was out, and `a` too. */
  lemma SubstAvoids(s: string, a: char, b: char, out: set<char>)
    requires Avoids(s, out) && b !in out && b != a
    ensures Avoids(Subst(s, a, b), out + {a})
  {
  }

  /** `s.startswith(p)` */
  predicate StartsWith(s: string, p: string) {
    |p| <= |s| && s[..|p|] == p
  }

  /** `s.endswith(p)` */
  predicate EndsWith(s: string, p: string) {
    |p| <= |s| && s[|s| - |p|..] == p
  }

  /** `needle` occurs in `hay` starting at offset `i`. */
  predicate OccursAt(needle: string, hay: string, i: int) {
    0 <= i <= |hay| - |needle| && hay[i..i + |needle|] == needle
  }

  /** `needle` occurs in `hay` at some offset. */
  ghost predicate Occurs(needle: string, hay: string) {
    exists i :: OccursAt(needle, hay, i)
  }

  /** Python's `needle in hay` on strings: a left-to-right scan for an occurrence. */
  function Contains(hay: string, needle: string): (b: bool)
    ensures b <==> Occurs(needle, hay)
    decreases |hay|
  {
    if StartsWith(hay, needle) then
      assert OccursAt(needle, hay, 0);
      true
    else if |hay| == 0 then
      assert forall i :: !OccursAt(needle, hay, i);
      false
    else
      var rest := Contains(hay[1..], needle);
      OccursShift(needle, hay);
      rest
  }

  /** An occurrence not at offset 0 is an occurrence in the tail. */
  lemma OccursShift(needle: string, hay: string)
    requires |hay| > 0 && !StartsWith(hay, needle)
    ensures Occurs(needle, hay) <==> Occurs(needle, hay[1..])
  {
    if Occurs(needle, hay) {
      var i :| OccursAt(needle, hay, i);
      assert i != 0;
      assert hay[1..][i - 1..i - 1 + |needle|] == hay[i..i + |needle|];
      assert OccursAt(needle, hay[1..], i - 1);
    }
    if Occurs(needle, hay[1..]) {
      var i :| OccursAt(needle, hay[1..], i);
      assert hay[i + 1..i + 1 + |needle|] == hay[1..][i..i + |needle|];
      assert OccursAt(needle, hay, i + 1);
    }
  }

  /** A suffix is an occurrence, so `endswith` never adds a match that `in` lacks. */
  lemma EndsWithContains(hay: string, needle: string)
    requires EndsWith(hay, needle)
    ensures Contains(hay, needle)
  {
    assert OccursAt(needle, hay, |hay| - |needle|);
  }

  /** Python's `'' in s` is true for every `s`. */
  lemma EmptyContained(hay: string)
    ensures Contains(hay, "")
  {
    assert OccursAt("", hay, 0);
  }

  lemma ContainsSelf(s: string)
    ensures Contains(s, s)
  {
    assert OccursAt(s, s, 0);
  }

  /** Every string starting with `*` starts with something other than `!`, and vice versa. */
  lemma StartsWithDistinctChars(s: string, a: char, b: char)
    requires a != b
    ensures !(StartsWith(s, [a]) && StartsWith(s, [b]))
  {
  }
}

=== FILE: visibility.dfy ===
/**
 * The visibility save/hide/restore dance of the extractor's third extraction strategy
 * (`_set_all_layers_invisible` and `_restore_layer_states` in kiosk-factory/layer_extractor.py).
 * The source keys its saved states by layer object; here a layer is named by its path in the
 * tree, and a set of visibility writes is a map from paths to flags.
 */
module Visibility {
  import opened Wrappers
  import opened LayerTree

  /** Visibility flags by node path. */
  type Flags = map<Path, bool>

  // ---------------------------------------------------------------- writing flags

  /** Sets the visibility of every node under `n` whose path has a flag; nothing else changes. */
  function ApplyNode(n: Node, path: Path, f: Flags): Node
    decreases n
  {
    var v := if path in f then f[path] else n.visible;
    if n.Group? then Group(n.name, v, ApplyAll(n.children, path, f)) else n.(visible := v)
  }

  function ApplyAll(ns: seq<Node>, prefix: Path, f: Flags): seq<Node>
    decreases ns
  {
    seq(|ns|, j requires 0 <= j < |ns| => ApplyNode(ns[j], prefix + [j], f))
  }

  // ---------------------------------------------------------------- paths

  /** The paths of `n` and its descendants, relative to `n`. */
  function SubPaths(n: Node): set<Path>
    decreases n
  {
    if n.Group? then {[]} + AllPaths(n.children) else {[]}
  }

  /** Every path that leads to a node of the forest `ns`. */
  function AllPaths(ns: seq<Node>): set<Path>
    decreases ns
  {
    set j: nat, q | j < |ns| && q in SubPaths(ns[j]) :: [j] + q
  }

  lemma NodeAtCons(ns: seq<Node>, j: nat, q: Path)
    requires j < |ns|
    ensures NodeAt(ns, [j] + q) ==
      if q == [] then Some(ns[j])
      else if ns[j].Group? then NodeAt(ns[j].children, q)
      else None
  {
    assert ([j] + q)[1..] == q;
  }

  lemma {:induction false} AllPathsSpec(ns: seq<Node>, p: Path)
    ensures p in AllPaths(ns) <==> NodeAt(ns, p).Some?
    decreases |p|
  {
    if NodeAt(ns, p).Some? {
      var j, q := p[0], p[1..];
      assert p == [j] + q;
      if q != [] {
        AllPathsSpec(ns[j].children, q);
      }
      assert q in SubPaths(ns[j]);
    }
    if p in AllPaths(ns) {
      var j: nat, q :| j < |ns| && q in SubPaths(ns[j]) && p == [j] + q;
      NodeAtCons(ns, j, q);
      if q != [] {
        AllPathsSpec(ns[j].children, q);
      }
    }
  }

  // ---------------------------------------------------------------- hide-all and restore

  /** A group is always recorded; a pixel layer unless it is the excluded one; other kinds never. */
  predicate Recordable(o: Option<Node>, p: Path, exclude: Path) {
    o.Some? && (o.value.Group? || (o.value.Pixel? && p != exclude))
  }

  /** The `states` dict of `_set_all_layers_invisible`: the prior flag of every recordable node. */
  function Record(ns: seq<Node>, exclude: Path): Flags {
    map p | p in AllPaths(ns) && Recordable(NodeAt(ns, p), p, exclude) :: NodeAt(ns, p).value.visible
  }

  /** The writes `_set_all_layers_invisible` makes: every recorded node is hidden. */
  function HideFlags(states: Flags): Flags {
    map p | p in states :: false
  }

  /** `_set_all_layers_invisible(layer, exclude_layer=...)`: the tree afterwards and the saved states. */
  function HideAll(ns: seq<Node>, exclude: Path): (seq<Node>, Flags) {
    var states := Record(ns, exclude);
    (ApplyAll(ns, [], HideFlags(states)), states)
  }

  /** `_restore_layer_states`: every saved flag is written back. */
  function Restore(ns: seq<Node>, states: Flags): seq<Node> {
    ApplyAll(ns, [], states)
  }

  // ---------------------------------------------------------------- general facts about writes

  /** Writing flags keeps every node where it was and changes at most its visibility. */
  lemma {:induction false} NodeAtApply(ns: seq<Node>, prefix: Path, f: Flags, q: Path)
    ensures NodeAt(ApplyAll(ns, prefix, f), q) ==
      match NodeAt(ns, q)
      case None => None
      case Some(n) => Some(ApplyNode(n, prefix + q, f))
    decreases |q|
  {
    if |q| >= 1 && q[0] < |ns| {
      var j, rest := q[0], q[1..];
      assert q == [j] + rest;
      NodeAtCons(ns, j, rest);
      NodeAtCons(ApplyAll(ns, prefix, f), j, rest);
      var applied := ApplyAll(ns, prefix, f)[j];
      assert applied == ApplyNode(ns[j], prefix + [j], f);
      assert applied.Group? == ns[j].Group?;
      if rest == [] {
        assert q == [j];
      } else if ns[j].Group? {
        assert applied.children == ApplyAll(ns[j].children, prefix + [j], f);
        NodeAtApply(ns[j].children, prefix + [j], f, rest);
        assert (prefix + [j]) + rest == prefix + q;
      }
    }
  }

  /** Two rounds of writes are one round of their union, the later ones winning. */
  lemma {:induction false} ApplyNodeCompose(n: Node, path: Path, a: Flags, b: Flags)
    ensures ApplyNode(ApplyNode(n, path, a), path, b) == ApplyNode(n, path, a + b)
    decreases n
  {
    if n.Group? {
      ApplyAllCompose(n.children, path, a, b);
    }
  }

  lemma {:induction false} ApplyAllCompose(ns: seq<Node>, prefix: Path, a: Flags, b: Flags)
    ensures ApplyAll(ApplyAll(ns, prefix, a), prefix, b) == ApplyAll(ns, prefix, a + b)
    decreases ns
  {
    forall j | 0 <= j < |ns|
      ensures ApplyAll(ApplyAll(ns, prefix, a), prefix, b)[j] == ApplyAll(ns, prefix, a + b)[j]
    {
      ApplyNodeCompose(ns[j], prefix + [j], a, b);
    }
  }

  /** Every flag for a node of `ns` (below `prefix`) equals the node's current visibility. */
  ghost predicate Agrees(ns: seq<Node>, prefix: Path, f: Flags) {
    forall q :: NodeAt(ns, q).Some? && prefix + q in f ==> f[prefix + q] == NodeAt(ns, q).value.visible
  }

  /** Writing flags a tree already has changes nothing. */
  lemma {:induction false} ApplyAllIdentity(ns: seq<Node>, prefix: Path, f: Flags)
    requires Agrees(ns, prefix, f)
    ensures ApplyAll(ns, prefix, f) == ns
    decreases ns
  {
    forall j | 0 <= j < |ns| ensures ApplyAll(ns, prefix, f)[j] == ns[j] {
      NodeAtCons(ns, j, []);
      assert [j] + [] == [j];
      if ns[j].Group? {
        var children := ns[j].children;
        forall q | NodeAt(children, q).Some? && (prefix + [j]) + q in f
          ensures f[(prefix + [j]) + q] == NodeAt(children, q).value.visible
        {
          NodeAtCons(ns, j, q);
          assert (prefix + [j]) + q == prefix + ([j] + q);
        }
        ApplyAllIdentity(children, prefix + [j], f);
      }
    }
  }

  /** The recorded states are exactly the recordable nodes' current flags. */
  lemma RecordSpec(ns: seq<Node>, exclude: Path, p: Path)
    ensures p in Record(ns, exclude) <==> Recordable(NodeAt(ns, p), p, exclude)
    ensures p in Record(ns, exclude) ==> Record(ns, exclude)[p] == NodeAt(ns, p).value.visible
  {
    AllPathsSpec(ns, p);
  }

  lemma RecordAgrees(ns: seq<Node>, exclude: Path)
    ensures Agrees(ns, [], Record(ns, exclude))
  {
    forall q | NodeAt(ns, q).Some? && [] + q in Record(ns, exclude)
      ensures Record(ns, exclude)[[] + q] == NodeAt(ns, q).value.visible
    {
      assert [] + q == q;
      RecordSpec(ns, exclude, q);
    }
  }

  /**
   * Hiding everything: afterwards every recorded node (every group, every pixel layer but the
   * excluded one) is invisible, every other node keeps its flag, and the saved states hold the
   * recorded nodes' prior flags.
   */
  lemma HideAllSpec(ns: seq<Node>, exclude: Path, q: Path)
    ensures var (hidden, states) := HideAll(ns, exclude);
      && (q in states <==> Recordable(NodeAt(ns, q), q, exclude))
      && (q in states ==> states[q] == NodeAt(ns, q).value.visible)
      && NodeAt(hidden, q).Some? == NodeAt(ns, q).Some?
      && (NodeAt(ns, q).Some? ==>
            NodeAt(hidden, q).value.visible == (if q in states then false else NodeAt(ns, q).value.visible))
  {
    RecordSpec(ns, exclude, q);
    NodeAtApply(ns, [], HideFlags(Record(ns, exclude)), q);
    assert [] + q == q;
  }

  /** Restoring the saved states undoes any writes confined to recorded nodes. */
  lemma RestoreUndoes(ns: seq<Node>, exclude: Path, writes: Flags)
    requires forall p :: p in writes ==> p in Record(ns, exclude)
    ensures Restore(ApplyAll(ns, [], writes), Record(ns, exclude)) == ns
  {
    var states := Record(ns, exclude);
    ApplyAllCompose(ns, [], writes, states);
    assert writes + states == states;
    RecordAgrees(ns, exclude);
    ApplyAllIdentity(ns, [], states);
  }

  /** Hiding all and restoring, with nothing in between, gives back the original tree. */
  lemma HideRestore(ns: seq<Node>, exclude: Path)
    ensures var (hidden, states) := HideAll(ns, exclude);
      Restore(hidden, states) == ns
  {
    RestoreUndoes(ns, exclude, HideFlags(Record(ns, exclude)));
  }
}

=== FILE: weather.dfy ===
/**
 * The driving advice of the weather checker (`get_driving_recommendation` in
 * sensors/weather_checker.py). The current condition, temperature and rain flag are passed
 * already read out of the weather and rain-alert records.
 */
module WeatherChecker {
  const RainAdvice: string := "雨が予想されます。Smart Roadsterでのドライブは控えめに。"
  const PerfectAdvice: string := "絶好のドライブ日和です！Smart Roadsterで出かけましょう！"
  const CloudyAdvice: string := "曇りですが、ドライブには問題ありません。"
  const GenericAdvice: string := "天候を確認してからドライブしてください。"

  /** `get_driving_recommendation` */
  function Recommendation(condition: string, temp: real, rainExpected: bool): string {
    if rainExpected then RainAdvice
    else if condition == "sunny" && 20.0 <= temp <= 28.0 then PerfectAdvice
    else if condition == "cloudy" then CloudyAdvice
    else GenericAdvice
  }

  /**
   * Rain overrides everything; without rain, a sunny day from 20 to 28 degrees inclusive is a
   * perfect one, a cloudy day is fine, and every other case gets the generic advice.
   */
  lemma RecommendationSpec(condition: string, temp: real, rainExpected: bool)
    ensures Recommendation(condition, temp, rainExpected) == RainAdvice <==> rainExpected
    ensures Recommendation(condition, temp, rainExpected) == PerfectAdvice <==>
      !rainExpected && condition == "sunny" && 20.0 <= temp <= 28.0
    ensures Recommendation(condition, temp, rainExpected) == CloudyAdvice <==>
      !rainExpected && condition == "cloudy"
    ensures Recommendation(condition, temp, rainExpected) == GenericAdvice <==>
      !rainExpected && condition != "cloudy" && !(condition == "sunny" && 20.0 <= temp <= 28.0)
  {
  }

  /**
   * The cases the checker's forecasts produce that fall through to the generic advice: sunny
   * outside 20 to 28 degrees, partly cloudy and rainy weather with no rain alert.
   */
  lemma GenericCases(temp: real)
    ensures temp < 20.0 || temp > 28.0 ==> Recommendation("sunny", temp, false) == GenericAdvice
    ensures Recommendation("partly_cloudy", temp, false) == GenericAdvice
    ensures Recommendation("rainy", temp, false) == GenericAdvice
  {
  }
}

=== FILE: wrappers.dfy ===
/** The Some/None wrapper used for Python's None and JavaScript's null. */
module Wrappers {

  datatype Option<+T> = None | Some(value: T) {

    /** Returns the wrapped value, or the default when None */
    function GetOr(default: T): T {
      match this
      case Some(v) => v
      case None => default
    }
  }
}

=== FILE: zundamon_display.dfy ===
/**
 * The mascot panel (kiosk/src/components/ZundamonDisplay.tsx): the speech-bubble text and style
 * for the engine-speed range, the choice of the most important alert, and what the bubble shows.
 */
module ZundamonDisplay {
  import opened Wrappers
  import opened RpmExpression
  import opened SystemAlerts

  /** `getRPMStatusText` */
  function StatusText(r: RpmRange): string {
    match r
    case Idle => "アイドリング中なのだ"
    case NormalRange => "通常走行中なのだ"
    case Active => "活発に走ってるのだ！"
    case High => "高回転で興奮してるのだ！！"
  }

  /** `getRPMStatusClass` */
  function StatusClass(r: RpmRange): string {
    match r
    case Idle => "rpm-status-idle"
    case NormalRange => "rpm-status-normal"
    case Active => "rpm-status-active"
    case High => "rpm-status-high"
  }

  const DangerClass: string := "rpm-status-danger"
  const WarningClass: string := "rpm-status-warning"

  /**
   * Every range has its own non-empty text and its own class, and no range's class is one of the
   * two alert classes.
   */
  lemma StatusDistinct(r1: RpmRange, r2: RpmRange)
    ensures StatusText(r1) != ""
    ensures StatusText(r1) == StatusText(r2) <==> r1 == r2
    ensures StatusClass(r1) == StatusClass(r2) <==> r1 == r2
    ensures StatusClass(r1) != DangerClass && StatusClass(r1) != WarningClass
  {
  }

  /** `systemAlerts.filter(alert => alert.level === lvl)` */
  function WithLevel(alerts: seq<Alert>, lvl: Level): (r: seq<Alert>)
    ensures |r| <= |alerts|
    ensures forall a :: a in r <==> a in alerts && a.level == lvl
    ensures |r| == 0 <==> forall i :: 0 <= i < |alerts| ==> alerts[i].level != lvl
  {
    if |alerts| == 0 then []
    else (if alerts[0].level == lvl then [alerts[0]] else []) + WithLevel(alerts[1..], lvl)
  }

  /** `getHighestPriorityAlert`: the first danger, else the first warning, else the first alert. */
  function HighestPriority(alerts: seq<Alert>): Option<Alert> {
    if |alerts| == 0 then None
    else
      var dangers := WithLevel(alerts, Danger);
      if |dangers| > 0 then Some(dangers[0])
      else
        var warnings := WithLevel(alerts, Warning);
        if |warnings| > 0 then Some(warnings[0])
        else Some(alerts[0])
  }

  /** `alerts[i]` is the first alert at the given level. */
  ghost predicate FirstAt(alerts: seq<Alert>, lvl: Level, i: int) {
    0 <= i < |alerts| && alerts[i].level == lvl && forall j :: 0 <= j < i ==> alerts[j].level != lvl
  }

  /** The head of a filtered list is the first alert at that level. */
  lemma {:induction false} WithLevelFirst(alerts: seq<Alert>, lvl: Level)
    requires |WithLevel(alerts, lvl)| > 0
    ensures exists i :: FirstAt(alerts, lvl, i) && WithLevel(alerts, lvl)[0] == alerts[i]
    decreases |alerts|
  {
    if alerts[0].level == lvl {
      assert FirstAt(alerts, lvl, 0);
    } else {
      assert WithLevel(alerts, lvl) == WithLevel(alerts[1..], lvl);
      WithLevelFirst(alerts[1..], lvl);
      var i :| FirstAt(alerts[1..], lvl, i) && WithLevel(alerts[1..], lvl)[0] == alerts[1..][i];
      assert FirstAt(alerts, lvl, i + 1);
    }
  }

  /**
   * No alert means no choice; with a danger alert the choice is the first danger; otherwise with
   * a warning it is the first warning; otherwise it is the first alert. The choice is always one
   * of the alerts.
   */
  lemma HighestPrioritySpec(alerts: seq<Alert>)
    ensures HighestPriority(alerts).None? <==> |alerts| == 0
    ensures (exists i :: 0 <= i < |alerts| && alerts[i].level == Danger) ==>
      exists i :: FirstAt(alerts, Danger, i) && HighestPriority(alerts) == Some(alerts[i])
    ensures ((forall i :: 0 <= i < |alerts| ==> alerts[i].level != Danger) &&
      (exists i :: 0 <= i < |alerts| && alerts[i].level == Warning)) ==>
      exists i :: FirstAt(alerts, Warning, i) && HighestPriority(alerts) == Some(alerts[i])
    ensures |alerts| > 0 && (forall i :: 0 <= i < |alerts| ==> alerts[i].level == Normal) ==>
      HighestPriority(alerts) == Some(alerts[0])
    ensures HighestPriority(alerts).Some? ==> HighestPriority(alerts).value in alerts
  {
    if exists i :: 0 <= i < |alerts| && alerts[i].level == Danger {
      var i :| 0 <= i < |alerts| && alerts[i].level == Danger;
      assert alerts[i] in WithLevel(alerts, Danger);
      WithLevelFirst(alerts, Danger);
    } else if exists i :: 0 <= i < |alerts| && alerts[i].level == Warning {
      var i :| 0 <= i < |alerts| && alerts[i].level == Warning;
      assert alerts[i] in WithLevel(alerts, Warning);
      WithLevelFirst(alerts, Warning);
    }
  }

  /** The chosen alert is at least as severe as every alert in the list. */
  lemma HighestPriorityIsMostSevere(alerts: seq<Alert>, a: Alert)
    requires a in alerts
    ensures HighestPriority(alerts).Some?
    ensures Severity(a.level) <= Severity(HighestPriority(alerts).value.level)
  {
    HighestPrioritySpec(alerts);
    if a.level == Danger {
      assert exists i :: 0 <= i < |alerts| && alerts[i].level == Danger;
    } else if a.level == Warning {
      assert exists i :: 0 <= i < |alerts| && alerts[i].level == Warning;
    }
  }

  /** `getDisplayMessage` */
  function DisplayMessage(rpm: real, alerts: seq<Alert>): string {
    match HighestPriority(alerts)
    case Some(a) => a.message
    case None => StatusText(RangeOf(rpm))
  }

  /** `getDisplayClass` */
  function DisplayClass(rpm: real, alerts: seq<Alert>): string {
    match HighestPriority(alerts)
    case Some(a) =>
      (match a.level
       case Danger => DangerClass
       case Warning => WarningClass
       case Normal => StatusClass(RangeOf(rpm)))
    case None => StatusClass(RangeOf(rpm))
  }

  /**
   * The bubble shows the chosen alert's message when there is an alert and the speed text
   * otherwise.
   */
  lemma DisplayMessageSpec(rpm: real, alerts: seq<Alert>)
    ensures |alerts| == 0 ==> DisplayMessage(rpm, alerts) == StatusText(RangeOf(rpm))
    ensures |alerts| > 0 ==> exists a :: a in alerts && a == HighestPriority(alerts).value && DisplayMessage(rpm, alerts) == a.message
  {
    HighestPrioritySpec(alerts);
  }

  /**
   * The bubble is styled danger iff some alert is a danger, warning iff none is a danger and some
   * is a warning, and by the speed range otherwise.
   */
  lemma DisplayClassSpec(rpm: real, alerts: seq<Alert>)
    ensures DisplayClass(rpm, alerts) == DangerClass <==> exists a :: a in alerts && a.level == Danger
    ensures DisplayClass(rpm, alerts) == WarningClass <==>
      (forall a :: a in alerts ==> a.level != Danger) && exists a :: a in alerts && a.level == Warning
    ensures (forall a :: a in alerts ==> a.level == Normal) ==> DisplayClass(rpm, alerts) == StatusClass(RangeOf(rpm))
  {
    HighestPrioritySpec(alerts);
    StatusDistinct(RangeOf(rpm), RangeOf(rpm));
    if h :| h in alerts && h.level == Danger {
      HighestPriorityIsMostSevere(alerts, h);
    } else if h :| h in alerts && h.level == Warning {
      HighestPriorityIsMostSevere(alerts, h);
    }
  }

  /**
   * On the console page, the bubble turns danger iff the coolant or the battery is at danger
   * level, and warning iff neither is but one of them is at warning level or rain is forecast.
   */
  lemma ConsoleBubble(rpm: real, temp: real, voltage: real, rainAlert: bool)
    ensures var cls := DisplayClass(rpm, GenerateSystemAlerts(temp, voltage, rainAlert));
      && (cls == DangerClass <==> TemperatureAlert(temp) == Danger || BatteryAlert(voltage) == Danger)
      && (cls == WarningClass <==>
          TemperatureAlert(temp) != Danger && BatteryAlert(voltage) != Danger &&
          (TemperatureAlert(temp) == Warning || BatteryAlert(voltage) == Warning || rainAlert))
      && (TemperatureAlert(temp) == Normal && BatteryAlert(voltage) == Normal && !rainAlert ==>
          cls == StatusClass(RangeOf(rpm)))
  {
    var alerts := GenerateSystemAlerts(temp, voltage, rainAlert);
    DisplayClassSpec(rpm, alerts);
    TemperatureAlertsAgree(temp);
    BatteryAlertsAgree(voltage);
    var t, b, w := TemperatureAlerts(temp), BatteryAlerts(voltage), WeatherAlerts(rainAlert);
    assert alerts == t + b + w;
    assert forall a :: a in alerts <==> a in t || a in b || a in w;
    if TemperatureAlert(temp) != Normal {
      assert t[0] in alerts;
    }
    if BatteryAlert(voltage) != Normal {
      assert b[0] in alerts;
    }
    if rainAlert {
      assert w[0] in alerts;
    }
  }
}
